=== FILE: README.md ===
# WebGL call recorder — a Dafny model

This project models the core of `webgl-capture.js`, the recorder that wraps a
page's WebGL contexts. The recorder:
- forwards every call to the real context;
- while a context is recording, writes each call as one line of JavaScript;
- stores binary payloads (typed arrays, buffers, images) once each, under a
  size budget;
- at the end, generates an HTML page that replays the calls frame by frame.

The model has one module per part of the recorder:

- `Base`: small helpers shared by the rest: joining, decimal text, `indexOf`.
- `Values`: the JavaScript values a call can carry, and truthiness. It also
  covers the resource tags that name a WebGL object (`texture[3]`) and the
  `slice` arithmetic.
- `Enums`: the two enum tables every wrapped object writes into, and the
  bit-field renderers. `glEnums` keeps the *last* name registered for a value,
  because later properties overwrite earlier ones.
- `Descriptors`: the per-function call descriptors. These say which arguments
  are enums or bit fields, which are read-back targets, and which arrays are
  cut by an offset/length pair.
- `Rewrite`: the array rewrite of `glArgsToStringList`. The first eligible
  array argument is cut to the range the call names, and the offset and length
  arguments are dropped.
- `Json`, `Base64`: the string quoting and base64 text the recorded lines
  carry, each with a decoder and a round-trip proof.
- `Encoder`: `glValueToString`, as a function from the recorder's tables to
  the text of one value plus the updated tables. Binary payloads are
  deduplicated into dense slots. Above the budget (`HydMaxSerializeSize`,
  `HydMaxArraySize`) a zero placeholder is written instead, and the page is
  flagged as incomplete.
- `Tracker`: the handlers of `HydWebGLWrapper` that track resources. These
  name created objects, intern shader sources, and resolve uniform and
  attribute locations.
- `Session`: the `Capture` class (recording flag, data list, yield
  collapsing), the broadcasts over all contexts, `allStopped`, and the frame
  countdown of `hydRaf`.
- `Generator`: `generate()`, as the ordered list of lines it pushes.
- `Template`: how the page's parser reads the template literals that hold
  shader sources.
- `Wrapper`: `makeWrapper`'s routing of each function to its handler, and the
  forwarding contract every handler keeps.

Calls into the browser are parameters: each handler receives what the real
context's function returns (`host`). It answers with the host calls it made
and what it returned, or `Threw` where the JavaScript throws.

The model follows the code where it differs from what its names and comments
suggest:
- The uniform-location and attribute-location caches test the *function name*
  (`"getUniformLocation"`) as the key, not the uniform's name. Every lookup
  therefore asks the context again.
- An enum value with no registered name renders as `undefined`.
- The completeness flag is one per page, not one per context.
- Canvases, `ImageData` and bitmaps are stored again on every call. An image
  element is deduplicated: by its URL when loaded from one, and by the element
  itself when its source is a `data:` URL.
- The WebGL2 uniform setters (`uniform1ui`, `uniformMatrix2x3fv`, …) are not
  on the `handle_uniform` list, so they take the default path.
- The `setUniform` and `this.helper` branches of the generated page are never
  used by any recorded line.
- The binding dump that `linkProgram` queues runs when the page is generated.
  It sees the bindings as they are at that moment, and it is queued even when
  the context is not recording.

## Model

| member | source | states |
|---|---|---|
| Base.IntToStringRoundTrip | src/js/webgl-capture.js:592-603 | the decimal text of a number parses back to that number, so number arguments are recorded without loss |
| Base.IntToStringInjective | src/js/webgl-capture.js:592-603 | two different numbers are never recorded as the same text |
| Values.ResourceName | src/js/webgl-capture.js:38-45 | a falsy resource is named `null`; a tracked object is named after its tag; there is no name for a truthy value that carries no tag, where the source throws |
| Values.TagNameInjective | src/js/webgl-capture.js:38-45 | two resource tags whose kinds hold no bracket get the same name only if they are the same tag |
| Values.TagNameIsNotNull | src/js/webgl-capture.js:38-45 | the name of a tracked object is never confused with the name of a falsy resource |
| Values.SliceRange | src/js/webgl-capture.js:774-795 | the bounds `slice` clamps to lie inside the array; in-range bounds are kept as given |
| Values.Slice | src/js/webgl-capture.js:774-795 | `slice(start, end)` returns a contiguous run starting at the clamped start: exactly `s[start..end]` for in-range bounds, the tail from `start` without an end, the last `-start` elements for a negative start, and nothing when the end is at or before the start |
| Values.TruncDiv | src/js/webgl-capture.js:793-795 | the offset divided by the element size rounds toward zero: the quotient's magnitude times the size is at most the dividend's magnitude and one more times it is above; the quotient has the dividend's sign, and NaN counts as 0 |
| Values.TruncDivOfNat | src/js/webgl-capture.js:793-795 | on a non-negative byte count the truncating division is plain integer division |
| Enums.RegisterLastWins | src/js/webgl-capture.js:857-863 | after registering an object's constants, a value has a name iff it had one before or some constant has it, and the name is that of the last such constant |
| Enums.AddEnumsForContext | src/js/webgl-capture.js:69-79 | a context type's constants are recorded by name only the first time that type is seen; `glEnums` is not touched |
| Enums.RecordValuesLastWins | src/js/webgl-capture.js:72-76 | after one pass, a name has a value iff it had one before or some numeric property has that name, and the value is that of the last such property |
| Enums.FirstContextRecords | src/js/webgl-capture.js:69-79 | the first object of a type maps each of its property names to the value of the last property so named, and leaves every other name's value alone |
| Enums.SecondContextKeepsValues | src/js/webgl-capture.js:69-79 | a second context of the same type leaves the name-to-value table unchanged but renames the values it shares in `glEnums` |
| Enums.BitfieldToString | src/js/webgl-capture.js:92-109 | the loop over the flags gives the bit-field text: when the hit flags OR to the value, `0` and the hit flags' names joined by ` \| `; otherwise the plain enum name |
| Enums.BitfieldOfZero | src/js/webgl-capture.js:92-109 | a zero bit field renders as `0` |
| Enums.BitfieldRejectsUncovered | src/js/webgl-capture.js:92-109 | a value with a bit that no flag covers falls back to the plain enum name |
| Enums.BitfieldDecomposes | src/js/webgl-capture.js:92-109 | a 32-bit value made only of whole listed flags renders as `0` followed by the names of exactly the flags it contains |
| Enums.HitsCoverMask | src/js/webgl-capture.js:92-109 | when a mask is made of whole flags, the flags the loop hits OR back to exactly the mask's bits among the listed flags |
| Enums.Int32BitsInjective | src/js/webgl-capture.js:92-109 | two 32-bit values with the same set bits are equal, so the flag test sees the whole value |
| Descriptors.Unlisted | src/js/webgl-capture.js:161-557 | a function that the table does not list has no descriptor for any argument count |
| Rewrite.ApplyRule | src/js/webgl-capture.js:123-131 | each rule closure returns the offset argument (0 for a plain uniform array) and drops its 0, 1 or 2 trailing arguments; the length is `count * 4` bytes for the uniform rules and the length argument for the rules that take one |
| Rewrite.FirstEligible | src/js/webgl-capture.js:763-767 | finds the first argument that has an array rule and holds a buffer or typed array; no earlier argument qualifies |
| Rewrite.RewriteChangesOneArgument | src/js/webgl-capture.js:756-808 | without an eligible argument the call is encoded as made; otherwise only that argument is replaced, the rule's trailing arguments are dropped, and every other argument keeps its place |
| Rewrite.CutBufferExact | src/js/webgl-capture.js:767-779 | a buffer with a positive offset and length is recorded as exactly the bytes the call passes |
| Rewrite.CutBufferTail | src/js/webgl-capture.js:775-777 | without a length, the recorded buffer runs from the offset to the end |
| Rewrite.NoOffsetNoCut | src/js/webgl-capture.js:772 | a zero or missing offset leaves the array whole |
| Rewrite.CutTypedInBytes | src/js/webgl-capture.js:782-799 | on a typed array the offset and length count bytes: the kept elements run from offset / b to (offset + length) / b |
| Rewrite.SliceWholeElements | src/js/webgl-capture.js:793-795 | slicing elements `x..y` of a typed array keeps exactly its bytes `x * b..y * b` |
| Json.EscapeRoundTrip | src/js/webgl-capture.js:604-605 | a string argument's JSON text unescapes to the string itself |
| Json.QuoteRoundTrip | src/js/webgl-capture.js:604-605 | the quoted JSON literal reads back as the string |
| Json.EscapeHasNoNewline | src/js/webgl-capture.js:604-605 | a JSON string literal never spans two lines |
| Base64.BinaryString | src/js/webgl-capture.js:27-36 | converting in chunks of 1024 yields the Latin-1 string of all the bytes, whatever the chunk boundaries |
| Base64.BtoaOfBinaryString | src/js/webgl-capture.js:1027 | the page's base64 text is the base64 of the page's bytes |
| Base64.EncodeLength | src/js/webgl-capture.js:670-735 | base64 text is four characters for every three bytes, rounded up |
| Base64.EncodeHasNoQuote | src/js/webgl-capture.js:670-735 | base64 text never contains a double quote, so it cannot end the literal that holds it |
| Base64.RoundTrip | src/js/webgl-capture.js:670-735 | decoding the base64 of a byte sequence gives the bytes back |
| Encoder.Intern | src/js/webgl-capture.js:670-735 | a payload key gets a dense slot: its position among the keys; a new key is appended, and a known key leaves the table unchanged |
| Encoder.InternIdempotent | src/js/webgl-capture.js:670-735 | interning the same key twice returns the same slot and changes nothing the second time |
| Encoder.InternDistinct | src/js/webgl-capture.js:670-735 | different keys get different slots |
| Encoder.GrowsTrans | src/js/webgl-capture.js:584-754 | growth of the recorder's tables composes over a sequence of encodings |
| Encoder.ForBase64 | src/js/webgl-capture.js:1206-1211 | every canvas-drawn image is appended as a new image, at the next id, and its data URL is counted against the budget |
| Encoder.ForImage | src/js/webgl-capture.js:1213-1241 | encoding an image only grows the tables, keeps every stored slot, and keeps image ids dense; over budget it writes a zero image and only clears the completeness flag; within budget an image loaded from a URL refers to the id its URL maps to: a new URL gets the next id, its data URL is appended and counted against the budget, and a known URL changes no table |
| Encoder.UrlImageStored | src/js/webgl-capture.js:1218-1240 | within budget, an image loaded from a URL refers to the one id its URL maps to, and that id names a stored image; a new URL adds exactly one image, holding its data URL, at the next id, and a known URL adds none |
| Encoder.EncodeValue | src/js/webgl-capture.js:584-754 | encoding any value only grows the tables, keeps every stored slot, and keeps them valid; the text is missing only for a number whose enum rule finds no name |
| Encoder.NumberText | src/js/webgl-capture.js:592-603 | a number without an enum rule renders as its decimal; under a plain enum rule it renders as its registered name, or is missing; under a bit-field rule it is the bit-field text of its flags; under the enum-list rule it is the empty string |
| Encoder.EncodeArgs | src/js/webgl-capture.js:756-814 | one text per argument of the rewritten call; a number at position i renders under the descriptor for the rewritten length at that position, a string as its JSON literal; the tables only grow |
| Encoder.EncodeListAt | src/js/webgl-capture.js:756-814 | argument i is encoded at its position against the tables the arguments before it left, so the encodings of one call are threaded left to right |
| Encoder.EncodeListPlain | src/js/webgl-capture.js:592-605 | numbers and strings in an argument list render as their own text, whatever the arguments before them stored |
| Encoder.EncodeArgsAt | src/js/webgl-capture.js:756-814 | argument i of the rewritten call is encoded at position i against the tables the arguments before it left, so one call's arguments are threaded left to right (reuse of a payload seen earlier then follows from `Encoder.PayloadStoredOnce`) |
| Encoder.BufferStored | src/js/webgl-capture.js:710-735 | an `ArrayBuffer` within budget is stored as a `Uint8Array` expression and referred to as that slot's `.buffer`; a new one is appended and grows the size by its base64 length, a known one changes no table |
| Encoder.TypedStored | src/js/webgl-capture.js:670-699 | a typed array within budget is stored under its replay expression and referred to by that slot; the size grows by its base64 length only when it is new |
| Encoder.PayloadStoredOnce | src/js/webgl-capture.js:670-735 | encoding the same typed array or buffer again refers to the same slot and changes no table |
| Encoder.ReadTargetNotRecorded | src/js/webgl-capture.js:655-669 | a read-back target is never serialized: the call refers to a zero array of its type and length, and the payloads, size and flag are untouched |
| Encoder.OverBudgetPlaceholder | src/js/webgl-capture.js:606-735 | a payload over budget becomes a zero placeholder of its size; nothing is stored and the page is flagged incomplete |
| Encoder.SameUrlSameImage | src/js/webgl-capture.js:1213-1241 | within budget, an image loaded from a URL is stored once per URL; a second element with that URL refers to the same slot |
| Encoder.DataUrlImagePerElement | src/js/webgl-capture.js:1213-1241 | an image whose source is a data URL is stored once per element and does not count against the budget |
| Encoder.CanvasStoredEveryTime | src/js/webgl-capture.js:606-653 | canvases, `ImageData` and bitmaps are appended as a new image on every call, at the next id |
| Encoder.TypedKeyInjective | src/js/webgl-capture.js:670-699 | two typed arrays share a key only if they have the same type and bytes, so deduplication never merges different payloads |
| Encoder.ReadTypedKey | src/js/webgl-capture.js:670-699 | the replay expression of a typed array decodes back to its bytes and type name |
| Encoder.ReadBufferKey | src/js/webgl-capture.js:710-735 | the replay expression of an `ArrayBuffer` decodes back to its bytes, viewed as `Uint8Array` |
| Encoder.ListLayout | src/js/webgl-capture.js:700-709 | a plain array is written as its elements in order, 32 to a line, and no element spans a line |
| Encoder.ChunksFlatten | src/js/webgl-capture.js:700-709 | splitting the elements into lines loses, adds and reorders nothing |
| Tracker.Bump | src/js/webgl-capture.js:1190-1204 | creating an object advances its kind's counter by one and leaves every other counter alone; a new kind is added at the end |
| Tracker.Create | src/js/webgl-capture.js:1190-1204 | a create call is forwarded once and returns the host's object, or throws when the host returns no object; the counter of its kind advances; while recording, exactly one line `kind[id] = gl.createKind(args);` is added, naming the object by its kind and the counter before the call, and otherwise the capture is unchanged |
| Tracker.CreateNames | src/js/webgl-capture.js:1190-1204 | the created object is named after its kind and the counter value before the call |
| Tracker.TaggedNamesDiffer | src/js/webgl-capture.js:1190-1204 | two objects created one after the other get different names |
| Tracker.DistinctIdsDistinctNames | src/js/webgl-capture.js:1190-1204 | different ids of one kind give different names |
| Tracker.FenceSync | src/js/webgl-capture.js:1155-1171 | a fence is forwarded once, tagged as a `sync` object, and throws when the host returns no object; while recording, exactly one line `sync[id] = gl.fenceSync(condition, flags);` is added, and otherwise the capture is unchanged |
| Tracker.ShaderSource | src/js/webgl-capture.js:1067-1080 | a shader source call on an untracked shader throws without asking the host and records nothing; otherwise it is forwarded once and adds at most one line |
| Tracker.ShaderSourceInterns | src/js/webgl-capture.js:1067-1080 | a shader source is stored once: a new source is appended and a known one reuses its slot; the recorded line refers to that slot |
| Tracker.UseProgram | src/js/webgl-capture.js:1082-1086 | the program argument becomes the current program; an untracked program throws without asking the host and records nothing; otherwise the call is forwarded and, while recording, exactly the line `gl.useProgram(name);` is added |
| Tracker.UniformAfterUseProgram | src/js/webgl-capture.js:1082-1107 | after `useProgram`, a uniform set through a location from `getUniformLocation` is recorded as a lookup by the name of the program just recorded |
| Tracker.GetUniformLocation | src/js/webgl-capture.js:1088-1107 | a lookup on an untracked program throws without asking the host; no lookup records a line |
| Tracker.UniformLookupAsksAgain | src/js/webgl-capture.js:1088-1107 | because the cache is keyed by the function name, the same lookup repeated asks the host again |
| Tracker.UniformByName | src/js/webgl-capture.js:1088-1107 | a uniform set through a location from `getUniformLocation` is recorded as a lookup by the program's name and the uniform's name |
| Tracker.GetAttribLocation | src/js/webgl-capture.js:1109-1126 | a lookup on an untracked program throws without asking the host; no lookup records a line |
| Tracker.AttribLookupAsksAgain | src/js/webgl-capture.js:1109-1126 | the attribute cache is keyed by the function name, so a repeated lookup asks the host again |
| Tracker.AttribLocationStored | src/js/webgl-capture.js:1109-1126 | a lookup returns the host's location and stores it as the attribute's binding |
| Tracker.PutBinding | src/js/webgl-capture.js:1109-1126 | storing a binding sets that name's location, keeps every other name's, and appends only new names |
| Tracker.DumpAttribBindings | src/js/webgl-capture.js:1128-1137 | a missing program fails; a tracked one dumps one `bindAttribLocation` line per binding, in order; an untracked one dumps nothing |
| Tracker.BindAttribLocation | src/js/webgl-capture.js:1139-1142 | the call is forwarded and never recorded |
| Tracker.LinkProgram | src/js/webgl-capture.js:1144-1153 | the binding dump is queued even when not recording, and before the link line |
| Tracker.BindingsBeforeLink | src/js/webgl-capture.js:1144-1153 | while recording, a link adds the binding dump and then the link line, naming the program |
| Tracker.UniformTarget | src/js/webgl-capture.js:1173-1188 | a null location renders as `null`; any other location needs a tag |
| Tracker.Uniform | src/js/webgl-capture.js:1173-1188 | a uniform call with a resolvable location is forwarded once and, while recording, adds exactly one line starting `gl.name(` followed by the location's text and a comma; an unresolvable location throws without asking the host and records nothing; no tracked object or current program changes |
| Tracker.UniformReply | src/js/webgl-capture.js:1173-1188 | a uniform call with a resolvable location is forwarded and recorded; otherwise it throws and records nothing |
| Tracker.Commented | src/js/webgl-capture.js:1243-1252 | queries and skipped reads are forwarded and return the host's answer; while recording exactly one code line starting `// gl.name(` is appended, and otherwise the capture is unchanged |
| Tracker.GetExtension | src/js/webgl-capture.js:1031-1065 | a non-string name throws without asking the host; a name already cached (lower-cased) returns the cached object without asking the host; otherwise the host is asked once, and a truthy answer is cached under the lower-cased name with its constants registered; the capture is never changed |
| Tracker.ExtensionCached | src/js/webgl-capture.js:1031-1065 | a second `getExtension` for the same name, in any letter case, returns the first answer and makes no host call |
| Tracker.FindExtensionAppend | src/js/webgl-capture.js:1061 | an extension added to the cache is found under its name, and every other name finds what it found before |
| Tracker.Forward | src/js/webgl-capture.js:834-849 | a plain call is forwarded with its arguments and returns the host's answer; while recording it adds exactly the line `gl.name(args);` and otherwise changes nothing |
| Session.AddFn | src/js/webgl-capture.js:1342-1344 | `addFn` appends its entry whether or not the context is recording, and changes no flag |
| Session.AddData | src/js/webgl-capture.js:1345-1350 | a line is appended only while recording, and it clears the yield mark |
| Session.AddDebugInfo | src/js/webgl-capture.js:1351-1356 | a debug comment is appended only while recording |
| Session.AddYield | src/js/webgl-capture.js:1357-1362 | a yield is appended only while recording and not right after another yield |
| Session.AddYieldIdempotent | src/js/webgl-capture.js:1357-1362 | two yields in a row record one |
| Session.AddDataValid | src/js/webgl-capture.js:1345-1356 | adding lines keeps the mark "the last line is a yield" accurate |
| Session.AddYieldValid | src/js/webgl-capture.js:1357-1362 | adding a yield keeps the yield mark accurate |
| Session.AddBindingsValid | src/js/webgl-capture.js:1144-1150 | a queued binding dump keeps the yield mark accurate |
| Session.BeginEndOnlyToggle | src/js/webgl-capture.js:1374-1380 | `begin` and `end` change only the recording flag |
| Session.HookGetContext | src/js/webgl-capture.js:1412-1423 | a context is captured iff it exists, auto-capture is on, its type is a WebGL type and it is not yet captured; a new context starts recording |
| Session.HookKeepsContextsDistinct | src/js/webgl-capture.js:1412-1423 | the set of captured contexts never holds one context twice |
| Session.StopStartAll | src/js/webgl-capture.js:1435-1458 | after `stopAll` every context is stopped; after `startAll`, `allStopped` holds iff there is no context; yields and debug lines, whatever their text, change no flag |
| Session.RafStep | src/js/webgl-capture.js:1481-1492 | each frame yields in every context; a countdown at 1 stops every context, and at 0 or below no countdown runs |
| Session.Countdown | src/js/webgl-capture.js:1479-1492 | with the countdown at n, the first n - 1 frames change no recording flag, and frame n stops every context |
| Session.NoCountdown | src/js/webgl-capture.js:1479-1492 | without a countdown, frames never change a recording flag |
| Template.BackticksOnlyAltersSource | src/js/webgl-capture.js:955 | the escaping as written changes a shader source containing `\n`: it reads back as a line feed |
| Template.EscapeBackticksRoundTrip | src/js/webgl-capture.js:955 | escaping only the backticks reads back exactly for a source with no backslash, no carriage return and no `${` |
| Template.EscapeTemplateRoundTrip | src/js/webgl-capture.js:955 | the corrected escaping reads back as the exact source |
| Generator.ShaderLiteral | src/js/webgl-capture.js:953-957 | a shader source gets a backtick-delimited literal iff it is a string |
| Generator.ShaderLiteralReadsBack | src/js/webgl-capture.js:953-957 | a shader literal as the page writes it reads back as the recorded source when the source has no backslash, carriage return or `${` |
| Generator.ShaderLiteralAltersSource | src/js/webgl-capture.js:955 | the page's literal for a source holding a backslash and `n` reads back with a line feed in their place |
| Generator.CorrectedShaderLiteralReadsBack | src/js/webgl-capture.js:955 | the corrected literal is backtick-delimited and reads back as the exact source, whatever it holds |
| Generator.Opening | src/js/webgl-capture.js:910-920 | the page's opening holds one hidden image per stored image, at lines 3.., in id order |
| Generator.Entries | src/js/webgl-capture.js:1002-1004 | one line per recorded entry, in recording order; it fails iff a binding dump has no program |
| Generator.Generate | src/js/webgl-capture.js:900-1027 | the page fails iff a shader source is not a string or a binding dump fails; otherwise the images come at lines 3.., the declarations follow as `Generator.Declares` places them, the entries follow in order, and the page ends with `</script>`; shader sources are written with backticks escaped only, as the source does |
| Generator.PreambleDeclares | src/js/webgl-capture.js:940-995 | in order after the images: the `zeroArrays` and `typedArrays` tables, one `slot: expression,` line per stored payload between `const name = {` and `};` and absent when empty; the `shaderSources` array when there is a source; the image loader; then the canvas line, the `const gl = canvas.getContext("type", ` line, one `getExtension` line per cached extension and one `const kind = [];` line per resource kind |
| Generator.PageTextAppend | src/js/webgl-capture.js:905-908 | the page text is the text of its parts in order, each followed by a line feed |
| Generator.LinkDumpSeesLaterBindings | src/js/webgl-capture.js:1144-1150 | a binding dump queued at link time lists the bindings made after the link as well |
| Wrapper.ForwardsArguments | src/js/webgl-capture.js:851-877 | every handler calls the context at most once, and all but the location lookups pass the call's own name and arguments |
| Wrapper.ReturnsHostAnswer | src/js/webgl-capture.js:834-849 | plain calls, queries and skipped reads return the host's answer; creation does too when the host returns an object |
| Wrapper.SessionGating | src/js/webgl-capture.js:1342-1362 | no call changes the recording flag; every call but `linkProgram` records at most one line, and `linkProgram` queues the binding dump before its link line; while stopped, only `linkProgram` queues anything |
| Wrapper.OneLineAtMost | src/js/webgl-capture.js:1342-1362 | every handler but `linkProgram` adds at most one line to the capture, and only while recording |
| Wrapper.DefaultRecordsCall | src/js/webgl-capture.js:834-849 | while recording, a function with no handler is recorded as `gl.name(args);` |
| Wrapper.Routing | src/js/webgl-capture.js:1255-1326 | `readPixels` is skipped, `getError` is a query, `createTexture` creates, `uniformMatrix4fv` is a uniform setter, and `uniform1ui` and `drawArrays` take the default path |

## Left out

- Only one context is modelled at a time. The broadcasts over several contexts
  use `Session.Each`, on the capture records alone.
- Floating-point numbers are left out; numbers are integers, so float
  formatting and NaN arguments are not modelled.
- `DataView` arguments are left out: the source handles them apart from
  buffers, and they are rare in recorded calls.
- Plain-array elements are numbers, strings or booleans; the source throws on
  `null` elements, and that case is not modelled.
- `Values.ToNumeric` reads every string as NaN; numeric strings used as offsets
  are not modelled.
- `Base.Lower` lower-cases ASCII letters only.
- `Json.Quote`: a Dafny string cannot hold a lone UTF-16 surrogate, so the
  `\uXXXX` escapes `JSON.stringify` writes for lone surrogates are not
  modelled.
- Extension objects: the wrapping of extension objects by `getExtension`
  (their own `makeWrapper` pass and the `createVertexArrayOES` override) is
  not modelled. The handler checks the name and caches the host's answer only.
- The page's deflate compression and the final data URL are not modelled;
  `Generator.PageText` is the text before compression.
- The `OffscreenCanvas` `getContext` hook only counts context types, so it is
  not modelled.
- `Generator.Generate`: the `const gl = canvas.getContext(...)` line is stated
  only up to the encoded context attributes; their text is
  `Generator.AttributesText`.
- The host never throws: each handler receives the host's answer as a value.
  In the source, the handlers that record before calling the context (the
  default path, `shaderSource`, `useProgram`, `linkProgram`, the uniform
  setters and the commented calls: lines 843-846, 1078-1079, 1084-1085,
  1151-1152, 1186-1187, 1248-1249) keep their line and let the error
  propagate; `createX` and `fenceSync` call the context first (lines 1191,
  1158), so a throw there records nothing and moves no counter.
- `Generator.Generate` drops the table updates caused by encoding the context
  attributes, because they cannot change the page already laid out.
- Object key order for integer-like keys is not modelled; tables are kept in
  insertion order.
- `enumArrayToString` is only reached with a number, where it returns the
  empty string, so it is not modelled.
- The descriptors' `numbers` field is never read by the encoder, so it is not
  modelled.
- `log`, `period` (a `setTimeout`) and the `requestAnimationFrame` scheduling
  are left out; `Session.RafStep` is one frame.
- The getter and setter mirroring of context properties is left out.
- Rasterizing images to data URLs is host work, so data URLs are parameters of
  the image values.
- `Descriptors.Unlisted`: only the miss direction is proved; "a listed function
  gets the descriptors of its first row" is left to the definition of
  `Descriptors.TableFrom`.
- `Tracker.GetUniformLocation` and `Tracker.GetAttribLocation` state the
  untracked-program and no-line cases in their contracts; the cache behaviour
  is stated by the lemmas that name them.

## Findings

| source | as written | input that shows it | evidently intended | confidence | as-written member | corrected member |
|---|---|---|---|---|---|---|
| src/js/webgl-capture.js:955 | a shader source goes into a template literal with only its backticks escaped | a source containing a backslash followed by `n` reads back as a line feed (and `${` would be interpolated) | the replayed shader source is the recorded one, character for character | high (not executed) | Generator.ShaderLiteralAltersSource | Generator.CorrectedShaderLiteralReadsBack |

`Generator.ShaderLiteral` and `Generator.Generate` write shader sources the
way the source does, with `Template.EscapeBackticks`.
`Generator.ShaderLiteralAltersSource` shows a page whose shader reads back
altered. `Generator.CorrectedShaderLiteral` uses `Template.EscapeTemplate`
instead, and `Generator.CorrectedShaderLiteralReadsBack` proves that it reads
back exactly.

=== FILE: base.dfy ===
/** Shared helpers: an option type, `Array.prototype.join`, decimal rendering of
    integers (with its parser, as the partner that proves the rendering
    unambiguous) and ASCII lower-casing. */
module Base {

  datatype Option<+T> = None | Some(value: T)

  /** An 8-bit byte, as held by a `Uint8Array`. */
  type byte = x: int | 0 <= x < 256

  /** `items.join(sep)`. */
  function Join(items: seq<string>, sep: string): string
  {
    if |items| == 0 then ""
    else if |items| == 1 then items[0]
    else items[0] + sep + Join(items[1..], sep)
  }

  lemma {:induction false} JoinAppend(items: seq<string>, x: string, sep: string)
    ensures Join(items + [x], sep) == if |items| == 0 then x else Join(items, sep) + sep + x
  {
    if |items| > 1 {
      assert (items + [x])[1..] == items[1..] + [x];
      JoinAppend(items[1..], x, sep);
    }
  }

  lemma {:induction false} JoinConcat(a: seq<string>, b: seq<string>, sep: string)
    requires |a| > 0 && |b| > 0
    ensures Join(a + b, sep) == Join(a, sep) + sep + Join(b, sep)
    decreases |a|
  {
    if |a| == 1 {
      assert (a + b)[1..] == b;
    } else {
      assert (a + b)[1..] == a[1..] + b;
      JoinConcat(a[1..], b, sep);
    }
  }

  /** Joining lines that hold no line break, with a separator that holds
      none, gives a single line. */
  lemma {:induction false} JoinNoNewline(items: seq<string>, sep: string)
    requires '\n' !in sep
    requires forall i :: 0 <= i < |items| ==> '\n' !in items[i]
    ensures '\n' !in Join(items, sep)
  {
    if |items| > 1 {
      JoinNoNewline(items[1..], sep);
    }
  }

  /** JavaScript `Array.prototype.join` over values that may be `undefined`:
      an `undefined` element contributes the empty string. */
  function JoinMaybe(items: seq<Option<string>>, sep: string): string
  {
    Join(OrEmpty(items), sep)
  }

  function OrEmpty(items: seq<Option<string>>): (r: seq<string>)
    ensures |r| == |items|
    ensures forall i :: 0 <= i < |items| ==> r[i] == (if items[i].Some? then items[i].value else "")
  {
    if |items| == 0 then [] else [if items[0].Some? then items[0].value else ""] + OrEmpty(items[1..])
  }

  /** What a template literal `${x}` shows for a value that may be `undefined`. */
  function TemplateText(x: Option<string>): string
  {
    if x.Some? then x.value else "undefined"
  }

  function DigitChar(d: nat): (c: char)
    requires d < 10
    ensures '0' <= c <= '9'
  {
    ('0' as int + d) as char
  }

  function DigitValue(c: char): nat
    requires '0' <= c <= '9'
  {
    c as int - '0' as int
  }

  predicate IsDigits(s: string)
  {
    forall i :: 0 <= i < |s| ==> '0' <= s[i] <= '9'
  }

  /** `n.toString()` for a non-negative integer. */
  function NatToString(n: nat): (s: string)
    ensures |s| > 0 && IsDigits(s)
    ensures |s| > 1 ==> s[0] != '0'
  {
    if n < 10 then [DigitChar(n)] else NatToString(n / 10) + [DigitChar(n % 10)]
  }

  /** `n.toString()` for an integer: a leading minus for negative values. */
  function IntToString(n: int): string
  {
    if n < 0 then "-" + NatToString(-n) else NatToString(n)
  }

  /** Reads a run of decimal digits, most significant first. */
  function ParseDigits(s: string): nat
    requires IsDigits(s)
  {
    if |s| == 0 then 0 else 10 * ParseDigits(s[..|s| - 1]) + DigitValue(s[|s| - 1])
  }

  /** Reads back what `IntToString` writes. */
  function ParseInt(s: string): Option<int>
  {
    if |s| > 0 && s[0] == '-' && IsDigits(s[1..]) && |s| > 1 then Some(-(ParseDigits(s[1..]) as int))
    else if |s| > 0 && IsDigits(s) then Some(ParseDigits(s))
    else None
  }

  lemma {:induction false} NatToStringRoundTrip(n: nat)
    ensures ParseDigits(NatToString(n)) == n
  {
    if n >= 10 {
      var s := NatToString(n);
      NatToStringRoundTrip(n / 10);
      assert s[..|s| - 1] == NatToString(n / 10);
    }
  }

  /** Decimal rendering is reversible, so distinct numbers render differently. */
  lemma IntToStringRoundTrip(n: int)
    ensures ParseInt(IntToString(n)) == Some(n)
  {
    NatToStringRoundTrip(if n < 0 then -n else n);
    if n < 0 {
      assert IntToString(n)[1..] == NatToString(-n);
    }
  }

  lemma IntToStringInjective(a: int, b: int)
    requires IntToString(a) == IntToString(b)
    ensures a == b
  {
    IntToStringRoundTrip(a);
    IntToStringRoundTrip(b);
  }

  /** `s.toLowerCase()` restricted to ASCII letters. */
  function Lower(s: string): (r: string)
    ensures |r| == |s|
    ensures forall i :: 0 <= i < |s| ==>
      r[i] == (if 'A' <= s[i] <= 'Z' then (s[i] as int + 32) as char else s[i])
  {
    if |s| == 0 then [] else [if 'A' <= s[0] <= 'Z' then (s[0] as int + 32) as char else s[0]] + Lower(s[1..])
  }

  /** `s.startsWith(p)`. */
  predicate StartsWith(s: string, p: string)
  {
    |p| <= |s| && s[..|p|] == p
  }

  /** `s.substring(k)` for `k >= 0`. */
  function Substring(s: string, k: nat): string
  {
    if k <= |s| then s[k..] else ""
  }

  /** The element at `i` of a sequence, if there is one. */
  function At<T>(s: seq<T>, i: int): Option<T>
  {
    if 0 <= i < |s| then Some(s[i]) else None
  }

  /** Position of the first occurrence of `x` in `s`. */
  function IndexOf<T(==)>(s: seq<T>, x: T): (i: nat)
    requires x in s
    ensures i < |s| && s[i] == x
    ensures forall j :: 0 <= j < i ==> s[j] != x
  {
    if s[0] == x then 0 else 1 + IndexOf(s[1..], x)
  }

  predicate NoDup<T(==)>(s: seq<T>)
  {
    forall i, j :: 0 <= i < j < |s| ==> s[i] != s[j]
  }
}

=== FILE: base64.dfy ===
/** The byte-to-text path the recorder uses for binary payloads:
    `hydArrayToBinaryString` (bytes to a one-byte-per-character string, built in
    chunks) and the host's `btoa` (standard base64 with `=` padding), with the
    decoder the replay's `base64ToTypedArray` applies. */
module Base64 {
  import opened Base

  /** The character for a 6-bit value in the standard base64 alphabet. */
  function Alphabet(i: nat): (c: char)
    requires i < 64
    ensures c != '=' && c != '"'
  {
    if i < 26 then ('A' as int + i) as char
    else if i < 52 then ('a' as int + (i - 26)) as char
    else if i < 62 then ('0' as int + (i - 52)) as char
    else if i == 62 then '+'
    else '/'
  }

  /** The 6-bit value of a base64 character. */
  function CharValue(c: char): Option<nat>
  {
    if 'A' <= c <= 'Z' then Some(c as int - 'A' as int)
    else if 'a' <= c <= 'z' then Some(c as int - 'a' as int + 26)
    else if '0' <= c <= '9' then Some(c as int - '0' as int + 52)
    else if c == '+' then Some(62)
    else if c == '/' then Some(63)
    else None
  }

  lemma AlphabetRead(i: nat)
    requires i < 64
    ensures CharValue(Alphabet(i)) == Some(i)
  {
  }

  /** A string with one character per byte, each character's code being the
      byte's value (what `String.fromCharCode` builds from a byte array). */
  function Latin1(b: seq<byte>): (s: string)
    ensures |s| == |b|
    ensures forall i :: 0 <= i < |b| ==> s[i] as int == b[i]
  {
    if |b| == 0 then "" else [b[0] as char] + Latin1(b[1..])
  }

  lemma {:induction false} Latin1Append(a: seq<byte>, b: seq<byte>)
    ensures Latin1(a + b) == Latin1(a) + Latin1(b)
  {
    if |a| > 0 {
      assert (a + b)[1..] == a[1..] + b;
      Latin1Append(a[1..], b);
    }
  }

  /** `hydArrayToBinaryString(compressed, chunkSize)`: converts the bytes chunk by
      chunk (to stay under the host's argument-count limit) and joins the
      pieces. Chunking does not show in the result. A chunk size of 0 would
      never advance, so the source loops forever on it. */
  method BinaryString(compressed: seq<byte>, chunkSize: nat) returns (s: string)
    requires chunkSize > 0
    ensures s == Latin1(compressed)
  {
    var binaryStrings: seq<string> := [];
    var i := 0;
    while i < |compressed|
      invariant 0 <= i
      invariant Join(binaryStrings, "") == Latin1(compressed[..if i < |compressed| then i else |compressed|])
      decreases |compressed| - i
    {
      var end := if i + chunkSize < |compressed| then i + chunkSize else |compressed|;
      ChunkStep(compressed, i, end, binaryStrings);
      binaryStrings := binaryStrings + [Latin1(compressed[i..end])];
      i := i + chunkSize;
    }
    s := Join(binaryStrings, "");
    assert compressed[..|compressed|] == compressed;
  }

  /** Appending the next chunk's string extends the converted prefix. */
  lemma ChunkStep(b: seq<byte>, i: nat, end: nat, parts: seq<string>)
    requires i <= end <= |b|
    requires Join(parts, "") == Latin1(b[..i])
    ensures Join(parts + [Latin1(b[i..end])], "") == Latin1(b[..end])
  {
    var x := Latin1(b[i..end]);
    assert Join(parts + [x], "") == Latin1(b[..i]) + x by {
      JoinAppend(parts, x, "");
      if |parts| == 0 {
        assert |Latin1(b[..i])| == 0;
      }
    }
    assert Latin1(b[..i]) + x == Latin1(b[..end]) by {
      Latin1Append(b[..i], b[i..end]);
      assert b[..i] + b[i..end] == b[..end];
    }
  }

  /** Standard base64 of a byte sequence, padded with `=`. */
  function Encode(b: seq<byte>): string
    decreases |b|
  {
    if |b| == 0 then ""
    else if |b| == 1 then
      [Alphabet(b[0] / 4), Alphabet((b[0] % 4) * 16), '=', '=']
    else if |b| == 2 then
      [Alphabet(b[0] / 4), Alphabet((b[0] % 4) * 16 + b[1] / 16), Alphabet((b[1] % 16) * 4), '=']
    else
      [Alphabet(b[0] / 4), Alphabet((b[0] % 4) * 16 + b[1] / 16),
       Alphabet((b[1] % 16) * 4 + b[2] / 64), Alphabet(b[2] % 64)] + Encode(b[3..])
  }

  /** `window.btoa(s)`: fails (the host throws) on a character above U+00FF. */
  function Btoa(s: string): Option<string>
  {
    if forall i :: 0 <= i < |s| ==> (s[i] as int) < 256
    then Some(Encode(seq(|s|, i requires 0 <= i < |s| => s[i] as int)))
    else None
  }

  /** `window.btoa(hydArrayToBinaryString(bytes))` is the base64 encoding
      of the bytes: the binary string holds only codes below 256. */
  lemma BtoaOfBinaryString(b: seq<byte>)
    ensures Btoa(Latin1(b)) == Some(Encode(b))
  {
    var s := Latin1(b);
    assert seq(|s|, i requires 0 <= i < |s| => s[i] as int) == b;
  }

  /** Decodes one group of four characters; only the last group may be padded. */
  function DecodeGroup(q: string, last: bool): Option<seq<byte>>
    requires |q| == 4
  {
    var c0, c1, c2, c3 := CharValue(q[0]), CharValue(q[1]), CharValue(q[2]), CharValue(q[3]);
    if c0.None? || c1.None? then None
    else if last && q[2] == '=' && q[3] == '=' then
      Some([c0.value * 4 + c1.value / 16])
    else if c2.None? then None
    else if last && q[3] == '=' then
      Some([c0.value * 4 + c1.value / 16, (c1.value % 16) * 16 + c2.value / 4])
    else if c3.None? then None
    else
      Some([c0.value * 4 + c1.value / 16, (c1.value % 16) * 16 + c2.value / 4, (c2.value % 4) * 64 + c3.value])
  }

  /** Base64 decoding, as `atob` followed by copying the character codes into a
      `Uint8Array` (the replay's `base64ToTypedArray`). */
  function Decode(t: string): Option<seq<byte>>
    decreases |t|
  {
    if |t| == 0 then Some([])
    else if |t| < 4 then None
    else
      var g := DecodeGroup(t[..4], |t| == 4);
      var rest := Decode(t[4..]);
      if g.Some? && rest.Some? then Some(g.value + rest.value) else None
  }

  lemma {:induction false} EncodeLength(b: seq<byte>)
    ensures |Encode(b)| == 4 * ((|b| + 2) / 3)
    decreases |b|
  {
    if |b| >= 3 {
      var t := Encode(b);
      assert |t| == 4 + |Encode(b[3..])|;
      EncodeLength(b[3..]);
      assert (|b| + 2) / 3 == (|b[3..]| + 2) / 3 + 1;
    }
  }

  /** Encoded text uses only the alphabet and `=`, so it never holds a quote and
      can sit inside a double-quoted literal. */
  lemma {:induction false} EncodeHasNoQuote(b: seq<byte>)
    ensures '"' !in Encode(b)
    decreases |b|
  {
    if |b| >= 3 {
      EncodeHasNoQuote(b[3..]);
    }
  }

  lemma GroupRoundTrip(b0: byte, b1: byte, b2: byte)
    ensures var c0, c1, c2, c3 := b0 / 4, (b0 % 4) * 16 + b1 / 16, (b1 % 16) * 4 + b2 / 64, b2 % 64;
      c0 * 4 + c1 / 16 == b0 && (c1 % 16) * 16 + c2 / 4 == b1 && (c2 % 4) * 64 + c3 == b2
  {
  }

  lemma SingleRoundTrip(b0: byte)
    ensures var c0, c1 := b0 / 4, (b0 % 4) * 16;
      c0 < 64 && c1 < 64 && c0 * 4 + c1 / 16 == b0
  {
    var r := b0 % 4;
    assert (r * 16) / 16 == r;
  }

  lemma RoundTripOne(b: seq<byte>)
    requires |b| == 1
    ensures Decode(Encode(b)) == Some(b)
  {
    var c0, c1 := b[0] / 4, (b[0] % 4) * 16;
    SingleRoundTrip(b[0]);
    var t := [Alphabet(c0), Alphabet(c1), '=', '='];
    assert Encode(b) == t;
    DecodeDoublyPaddedGroup(c0, c1);
    assert [c0 * 4 + c1 / 16] == b;
    DecodeOneGroup(t, b);
  }

  lemma PairRoundTrip(b0: byte, b1: byte)
    ensures var c0, c1, c2 := b0 / 4, (b0 % 4) * 16 + b1 / 16, (b1 % 16) * 4;
      c0 < 64 && c1 < 64 && c2 < 64 && c0 * 4 + c1 / 16 == b0 && (c1 % 16) * 16 + c2 / 4 == b1
  {
  }

  lemma DecodePaddedGroup(c0: nat, c1: nat, c2: nat)
    requires c0 < 64 && c1 < 64 && c2 < 64
    ensures DecodeGroup([Alphabet(c0), Alphabet(c1), Alphabet(c2), '='], true)
         == Some([c0 * 4 + c1 / 16, (c1 % 16) * 16 + c2 / 4])
  {
    AlphabetRead(c0);
    AlphabetRead(c1);
    AlphabetRead(c2);
  }

  lemma DecodeDoublyPaddedGroup(c0: nat, c1: nat)
    requires c0 < 64 && c1 < 64
    ensures DecodeGroup([Alphabet(c0), Alphabet(c1), '=', '='], true) == Some([c0 * 4 + c1 / 16])
  {
    AlphabetRead(c0);
    AlphabetRead(c1);
  }

  lemma DecodeOneGroup(q: string, d: seq<byte>)
    requires |q| == 4 && DecodeGroup(q, true) == Some(d)
    ensures Decode(q) == Some(d)
  {
    assert q[..4] == q && q[4..] == "";
    assert d + [] == d;
  }

  /** The three digits of a two-byte group, with what decoding them gives. */
  lemma PairDigits(b: seq<byte>) returns (c0: nat, c1: nat, c2: nat)
    requires |b| == 2
    ensures c0 < 64 && c1 < 64 && c2 < 64
    ensures Encode(b) == [Alphabet(c0), Alphabet(c1), Alphabet(c2), '=']
    ensures [c0 * 4 + c1 / 16, (c1 % 16) * 16 + c2 / 4] == b
  {
    c0, c1, c2 := b[0] / 4, (b[0] % 4) * 16 + b[1] / 16, (b[1] % 16) * 4;
    PairRoundTrip(b[0], b[1]);
    var d0, d1 := c0 * 4 + c1 / 16, (c1 % 16) * 16 + c2 / 4;
    assert [d0, d1] == [b[0], b[1]];
  }

  lemma RoundTripTwo(b: seq<byte>)
    requires |b| == 2
    ensures Decode(Encode(b)) == Some(b)
  {
    var c0, c1, c2 := PairDigits(b);
    DecodePaddedGroup(c0, c1, c2);
    DecodeOneGroup([Alphabet(c0), Alphabet(c1), Alphabet(c2), '='], b);
  }

  lemma RoundTripGroup(b: seq<byte>)
    requires |b| >= 3
    ensures var t := Encode(b);
      |t| >= 4 && DecodeGroup(t[..4], |t| == 4) == Some(b[..3]) && t[4..] == Encode(b[3..])
  {
    var t := Encode(b);
    var c0, c1, c2, c3 := b[0] / 4, (b[0] % 4) * 16 + b[1] / 16, (b[1] % 16) * 4 + b[2] / 64, b[2] % 64;
    AlphabetRead(c0);
    AlphabetRead(c1);
    AlphabetRead(c2);
    AlphabetRead(c3);
    GroupRoundTrip(b[0], b[1], b[2]);
    var q := t[..4];
    assert q == [Alphabet(c0), Alphabet(c1), Alphabet(c2), Alphabet(c3)];
    assert q[2] != '=' && q[3] != '=';
    assert DecodeGroup(q, |t| == 4) == Some([b[0], b[1], b[2]]);
    assert [b[0], b[1], b[2]] == b[..3];
  }

  /** Decoding what was encoded gives back exactly the original bytes. */
  lemma {:induction false} RoundTrip(b: seq<byte>)
    ensures Decode(Encode(b)) == Some(b)
    decreases |b|
  {
    if |b| == 1 {
      RoundTripOne(b);
    } else if |b| == 2 {
      RoundTripTwo(b);
    } else if |b| >= 3 {
      RoundTripGroup(b);
      RoundTrip(b[3..]);
      assert b[..3] + b[3..] == b;
    }
  }
}

=== FILE: descriptors.dfy ===
/** The per-function call descriptors of webgl-capture.js lines 117-131 and
    161-557: for each WebGL function and argument count, which arguments are
    enums or bit fields, which carry arrays that may be cut down to the range
    actually passed, and which are read-back buffers whose contents need not
    be recorded. */
module Descriptors {
  import opened Base

  /** How a numeric argument is shown: as its `glEnums` name, through a
      bit-field renderer over the named flags, or through
      `enumArrayToString`. */
  datatype EnumRule = EnumName | BitField(flags: seq<string>) | EnumList

  /** The `check...` closures of lines 119-127. Each names the argument
      positions holding the element offset and, where present, the length,
      and says how many trailing arguments the recorded call drops. */
  datatype ArrayRule =
    | UniformArray(count: nat)
    | UniformWithOffset(offsetAt: nat, count: nat)
    | UniformWithOffsetAndLength(offsetAt: nat, count: nat)
    | TypedWithOffset(offsetAt: nat)
    | TypedWithOffsetAndLength(offsetAt: nat, lengthAt: nat)
    | SourceWithOffset(offsetAt: nat)
    | SourceWithOffsetAndLength(offsetAt: nat, lengthAt: nat)
  {
    /** How many trailing arguments `args.slice(0, -k)` removes. */
    function Dropped(): nat
    {
      match this
      case UniformArray(_) => 0
      case UniformWithOffset(_, _) => 1
      case TypedWithOffset(_) => 1
      case SourceWithOffset(_) => 1
      case _ => 2
    }

    /** The argument positions the rule reads. */
    function Reads(): set<nat>
    {
      match this
      case UniformArray(_) => {}
      case UniformWithOffset(o, _) => {o}
      case UniformWithOffsetAndLength(o, _) => {o}
      case TypedWithOffset(o) => {o}
      case SourceWithOffset(o) => {o}
      case TypedWithOffsetAndLength(o, l) => {o, l}
      case SourceWithOffsetAndLength(o, l) => {o, l}
    }
  }

  /** One entry of the table, after `convertToObjectIfArray`: an `enums`
      list such as `[0, 2]` becomes the object `{0: EnumName, 2: EnumName}`,
      written here as a map. The `numbers` list is kept as written; nothing
      reads it. */
  datatype Descriptor = Descriptor(enums: map<nat, EnumRule>, numbers: seq<int>, arrays: map<nat, ArrayRule>, read: seq<int>)

  /** The number of rows of `glFunctionInfos`. */
  const RowCount: nat := 160

  /** The function named by row `i` of `glFunctionInfos`, in the source's
      order; past the last row there is none. */
  function RowName(i: nat): string
  {
    match i
    case 0 => "enable"
    case 1 => "disable"
    case 2 => "getParameter"
    case 3 => "drawArrays"
    case 4 => "drawElements"
    case 5 => "drawArraysInstanced"
    case 6 => "drawElementsInstanced"
    case 7 => "drawRangeElements"
    case 8 => "createShader"
    case 9 => "getActiveAttrib"
    case 10 => "getActiveUniform"
    case 11 => "getShaderParameter"
    case 12 => "getProgramParameter"
    case 13 => "getShaderPrecisionFormat"
    case 14 => "bindAttribLocation"
    case 15 => "getVertexAttrib"
    case 16 => "vertexAttribPointer"
    case 17 => "vertexAttribIPointer"
    case 18 => "vertexAttribDivisor"
    case 19 => "disableVertexAttribArray"
    case 20 => "enableVertexAttribArray"
    case 21 => "bindTexture"
    case 22 => "activeTexture"
    case 23 => "getTexParameter"
    case 24 => "texParameterf"
    case 25 => "texParameteri"
    case 26 => "texImage2D"
    case 27 => "texImage3D"
    case 28 => "texSubImage2D"
    case 29 => "texSubImage3D"
    case 30 => "texStorage2D"
    case 31 => "texStorage3D"
    case 32 => "copyTexImage2D"
    case 33 => "copyTexSubImage2D"
    case 34 => "copyTexSubImage3D"
    case 35 => "generateMipmap"
    case 36 => "compressedTexImage2D"
    case 37 => "compressedTexSubImage2D"
    case 38 => "compressedTexImage3D"
    case 39 => "compressedTexSubImage3D"
    case 40 => "bindBuffer"
    case 41 => "bufferData"
    case 42 => "bufferSubData"
    case 43 => "copyBufferSubData"
    case 44 => "getBufferParameter"
    case 45 => "getBufferSubData"
    case 46 => "pixelStorei"
    case 47 => "readPixels"
    case 48 => "bindRenderbuffer"
    case 49 => "bindFramebuffer"
    case 50 => "blitFramebuffer"
    case 51 => "checkFramebufferStatus"
    case 52 => "framebufferRenderbuffer"
    case 53 => "framebufferTexture2D"
    case 54 => "framebufferTextureLayer"
    case 55 => "getFramebufferAttachmentParameter"
    case 56 => "getInternalformatParameter"
    case 57 => "getRenderbufferParameter"
    case 58 => "invalidateFramebuffer"
    case 59 => "invalidateSubFramebuffer"
    case 60 => "readBuffer"
    case 61 => "renderbufferStorage"
    case 62 => "renderbufferStorageMultisample"
    case 63 => "lineWidth"
    case 64 => "polygonOffset"
    case 65 => "scissor"
    case 66 => "viewport"
    case 67 => "clear"
    case 68 => "clearColor"
    case 69 => "clearDepth"
    case 70 => "clearStencil"
    case 71 => "depthFunc"
    case 72 => "depthRange"
    case 73 => "blendColor"
    case 74 => "blendFunc"
    case 75 => "blendFuncSeparate"
    case 76 => "blendEquation"
    case 77 => "blendEquationSeparate"
    case 78 => "stencilFunc"
    case 79 => "stencilFuncSeparate"
    case 80 => "stencilMask"
    case 81 => "stencilMaskSeparate"
    case 82 => "stencilOp"
    case 83 => "stencilOpSeparate"
    case 84 => "cullFace"
    case 85 => "frontFace"
    case 86 => "drawArraysInstancedANGLE"
    case 87 => "drawElementsInstancedANGLE"
    case 88 => "blendEquationEXT"
    case 89 => "drawBuffersWebGL"
    case 90 => "drawBuffers"
    case 91 => "clearBufferfv"
    case 92 => "clearBufferiv"
    case 93 => "clearBufferuiv"
    case 94 => "clearBufferfi"
    case 95 => "uniform1f"
    case 96 => "uniform2f"
    case 97 => "uniform3f"
    case 98 => "uniform4f"
    case 99 => "uniform1i"
    case 100 => "uniform2i"
    case 101 => "uniform3i"
    case 102 => "uniform4i"
    case 103 => "uniform1fv"
    case 104 => "uniform2fv"
    case 105 => "uniform3fv"
    case 106 => "uniform4fv"
    case 107 => "uniform1iv"
    case 108 => "uniform2iv"
    case 109 => "uniform3iv"
    case 110 => "uniform4iv"
    case 111 => "uniformMatrix2fv"
    case 112 => "uniformMatrix3fv"
    case 113 => "uniformMatrix4fv"
    case 114 => "uniform1ui"
    case 115 => "uniform2ui"
    case 116 => "uniform3ui"
    case 117 => "uniform4ui"
    case 118 => "uniform1uiv"
    case 119 => "uniform2uiv"
    case 120 => "uniform3uiv"
    case 121 => "uniform4uiv"
    case 122 => "uniformMatrix3x2fv"
    case 123 => "uniformMatrix4x2fv"
    case 124 => "uniformMatrix2x3fv"
    case 125 => "uniformMatrix4x3fv"
    case 126 => "uniformMatrix2x4fv"
    case 127 => "uniformMatrix3x4fv"
    case 128 => "vertexAttrib1f"
    case 129 => "vertexAttrib2f"
    case 130 => "vertexAttrib3f"
    case 131 => "vertexAttrib4f"
    case 132 => "vertexAttrib1fv"
    case 133 => "vertexAttrib2fv"
    case 134 => "vertexAttrib3fv"
    case 135 => "vertexAttrib4fv"
    case 136 => "vertexAttribI4i"
    case 137 => "vertexAttribI4iv"
    case 138 => "vertexAttribI4ui"
    case 139 => "vertexAttribI4uiv"
    case 140 => "beginQuery"
    case 141 => "endQuery"
    case 142 => "getQuery"
    case 143 => "getQueryParameter"
    case 144 => "samplerParameteri"
    case 145 => "samplerParameterf"
    case 146 => "getSamplerParameter"
    case 147 => "clientWaitSync"
    case 148 => "fenceSync"
    case 149 => "getSyncParameter"
    case 150 => "bindTransformFeedback"
    case 151 => "beginTransformFeedback"
    case 152 => "bindBufferBase"
    case 153 => "bindBufferRange"
    case 154 => "getIndexedParameter"
    case 155 => "getActiveUniforms"
    case 156 => "getActiveUniformBlockParameter"
    case 157 => "getActiveUniformBlockName"
    case 158 => "transformFeedbackVaryings"
    case 159 => "uniformBlockBinding"
    case _ => ""
  }

  /** The descriptors of row `i`, keyed by argument count. */
  function RowInfo(i: nat): map<nat, Descriptor>
  {
    match i
    case 0 => map[1 := Descriptor(map[0 := EnumName], [], map[], [])]
    case 1 => map[1 := Descriptor(map[0 := EnumName], [], map[], [])]
    case 2 => map[1 := Descriptor(map[0 := EnumName], [], map[], [])]
    case 3 => map[3 := Descriptor(map[0 := EnumName], [1, 2], map[], [])]
    case 4 => map[4 := Descriptor(map[0 := EnumName, 2 := EnumName], [1, 3], map[], [])]
    case 5 => map[4 := Descriptor(map[0 := EnumName], [1, 2, 3], map[], [])]
    case 6 => map[5 := Descriptor(map[0 := EnumName, 2 := EnumName], [1, 3, 4], map[], [])]
    case 7 => map[6 := Descriptor(map[0 := EnumName, 4 := EnumName], [1, 2, 3, 5], map[], [])]
    case 8 => map[1 := Descriptor(map[0 := EnumName], [], map[], [])]
    case 9 => map[2 := Descriptor(map[], [1], map[], [])]
    case 10 => map[2 := Descriptor(map[], [1], map[], [])]
    case 11 => map[2 := Descriptor(map[1 := EnumName], [], map[], [])]
    case 12 => map[2 := Descriptor(map[1 := EnumName], [], map[], [])]
    case 13 => map[2 := Descriptor(map[0 := EnumName, 1 := EnumName], [], map[], [])]
    case 14 => map[3 := Descriptor(map[], [1], map[], [])]
    case 15 => map[2 := Descriptor(map[1 := EnumName], [0], map[], [])]
    case 16 => map[6 := Descriptor(map[2 := EnumName], [0, 1, 4, 5], map[], [])]
    case 17 => map[5 := Descriptor(map[2 := EnumName], [0, 1, 3, 4], map[], [])]
    case 18 => map[2 := Descriptor(map[], [0, 1], map[], [])]
    case 19 => map[1 := Descriptor(map[], [0], map[], [])]
    case 20 => map[1 := Descriptor(map[], [0], map[], [])]
    case 21 => map[2 := Descriptor(map[0 := EnumName], [], map[], [])]
    case 22 => map[1 := Descriptor(map[0 := EnumName, 1 := EnumName], [], map[], [])]
    case 23 => map[2 := Descriptor(map[0 := EnumName, 1 := EnumName], [], map[], [])]
    case 24 => map[3 := Descriptor(map[0 := EnumName, 1 := EnumName], [2], map[], [])]
    case 25 => map[3 := Descriptor(map[0 := EnumName, 1 := EnumName], [2], map[], [])]
    case 26 => map[
      6 := Descriptor(map[0 := EnumName, 2 := EnumName, 3 := EnumName, 4 := EnumName], [1], map[], []),
      9 := Descriptor(map[0 := EnumName, 2 := EnumName, 6 := EnumName, 7 := EnumName], [1, 3, 4, 5], map[], []),
      10 := Descriptor(map[0 := EnumName, 2 := EnumName, 6 := EnumName, 7 := EnumName], [1, 3, 4, 5, 9], map[8 := TypedWithOffset(9)], [])]
    case 27 => map[
      10 := Descriptor(map[0 := EnumName, 2 := EnumName, 7 := EnumName, 8 := EnumName], [1, 3, 4, 5], map[], []),
      11 := Descriptor(map[0 := EnumName, 2 := EnumName, 7 := EnumName, 8 := EnumName], [1, 3, 4, 5, 10], map[9 := TypedWithOffset(10)], [])]
    case 28 => map[
      9 := Descriptor(map[0 := EnumName, 6 := EnumName, 7 := EnumName], [1, 2, 3, 4, 5], map[], []),
      7 := Descriptor(map[0 := EnumName, 4 := EnumName, 5 := EnumName], [1, 2, 3], map[], []),
      10 := Descriptor(map[0 := EnumName, 6 := EnumName, 7 := EnumName], [1, 2, 3, 4, 5, 9], map[8 := TypedWithOffset(9)], [])]
    case 29 => map[
      11 := Descriptor(map[0 := EnumName, 8 := EnumName, 9 := EnumName], [1, 2, 3, 4, 5, 6, 7], map[], []),
      12 := Descriptor(map[0 := EnumName, 8 := EnumName, 9 := EnumName], [1, 2, 3, 4, 5, 6, 7, 11], map[10 := TypedWithOffset(11)], [])]
    case 30 => map[5 := Descriptor(map[0 := EnumName, 2 := EnumName], [1, 3, 4], map[], [])]
    case 31 => map[6 := Descriptor(map[0 := EnumName, 2 := EnumName], [1, 3, 4, 6], map[], [])]
    case 32 => map[8 := Descriptor(map[0 := EnumName, 2 := EnumName], [1, 3, 4, 5, 6, 7], map[], [])]
    case 33 => map[8 := Descriptor(map[0 := EnumName], [1, 2, 3, 4, 5, 6, 7], map[], [])]
    case 34 => map[9 := Descriptor(map[0 := EnumName], [1, 2, 3, 4, 5, 6, 7, 8], map[], [])]
    case 35 => map[1 := Descriptor(map[0 := EnumName], [], map[], [])]
    case 36 => map[
      7 := Descriptor(map[0 := EnumName, 2 := EnumName], [1, 3, 4, 5], map[], []),
      8 := Descriptor(map[0 := EnumName, 2 := EnumName], [1, 3, 4, 5, 7], map[6 := TypedWithOffset(7)], []),
      9 := Descriptor(map[0 := EnumName, 2 := EnumName], [1, 3, 4, 5, 7, 8], map[6 := TypedWithOffsetAndLength(7, 8)], [])]
    case 37 => map[
      8 := Descriptor(map[0 := EnumName, 6 := EnumName], [1, 2, 3, 4, 5], map[], []),
      9 := Descriptor(map[0 := EnumName, 6 := EnumName], [1, 2, 3, 4, 5, 8], map[7 := TypedWithOffset(8)], []),
      10 := Descriptor(map[0 := EnumName, 6 := EnumName], [1, 2, 3, 4, 5, 8, 9], map[7 := TypedWithOffsetAndLength(8, 9)], [])]
    case 38 => map[
      8 := Descriptor(map[0 := EnumName, 2 := EnumName], [1, 3, 4, 5, 6], map[], []),
      9 := Descriptor(map[0 := EnumName, 2 := EnumName], [1, 3, 4, 5, 6, 8], map[7 := TypedWithOffset(8)], []),
      10 := Descriptor(map[0 := EnumName, 2 := EnumName], [1, 3, 4, 5, 6, 8, 9], map[7 := TypedWithOffsetAndLength(8, 9)], [])]
    case 39 => map[
      10 := Descriptor(map[0 := EnumName, 8 := EnumName], [1, 2, 3, 4, 5, 6, 7], map[], []),
      11 := Descriptor(map[0 := EnumName, 8 := EnumName], [1, 2, 3, 4, 5, 6, 7, 10], map[9 := TypedWithOffset(10)], []),
      12 := Descriptor(map[0 := EnumName, 8 := EnumName], [1, 2, 3, 4, 5, 6, 7, 10, 11], map[9 := TypedWithOffsetAndLength(10, 11)], [])]
    case 40 => map[2 := Descriptor(map[0 := EnumName], [], map[], [])]
    case 41 => map[
      3 := Descriptor(map[0 := EnumName, 2 := EnumName], [], map[], []),
      4 := Descriptor(map[0 := EnumName, 2 := EnumName], [3], map[1 := SourceWithOffset(3)], []),
      5 := Descriptor(map[0 := EnumName, 2 := EnumName], [3, 4], map[1 := SourceWithOffsetAndLength(3, 4)], [])]
    case 42 => map[
      3 := Descriptor(map[0 := EnumName], [1], map[], []),
      4 := Descriptor(map[0 := EnumName], [1, 3], map[2 := SourceWithOffset(3)], []),
      5 := Descriptor(map[0 := EnumName], [1, 3, 4], map[2 := SourceWithOffsetAndLength(3, 4)], [])]
    case 43 => map[5 := Descriptor(map[0 := EnumName, 1 := EnumName], [2, 3, 4], map[], [])]
    case 44 => map[2 := Descriptor(map[0 := EnumName, 1 := EnumName], [], map[], [])]
    case 45 => map[
      3 := Descriptor(map[0 := EnumName], [1], map[], [2]),
      4 := Descriptor(map[0 := EnumName], [1, 3], map[], [2]),
      5 := Descriptor(map[0 := EnumName], [1, 3, 4], map[], [2])]
    case 46 => map[2 := Descriptor(map[0 := EnumName, 1 := EnumName], [1], map[], [])]
    case 47 => map[
      7 := Descriptor(map[4 := EnumName, 5 := EnumName], [0, 1, 2, 3, -6], map[], [6]),
      8 := Descriptor(map[4 := EnumName, 5 := EnumName], [0, 1, 2, 3, 7], map[], [6])]
    case 48 => map[2 := Descriptor(map[0 := EnumName], [], map[], [])]
    case 49 => map[2 := Descriptor(map[0 := EnumName], [], map[], [])]
    case 50 => map[10 := Descriptor(map[8 := BitField(["COLOR_BUFFER_BIT", "DEPTH_BUFFER_BIT", "STENCIL_BUFFER_BIT"]), 9 := EnumName], [0, 1, 2, 3, 4, 5, 6, 7], map[], [])]
    case 51 => map[1 := Descriptor(map[0 := EnumName], [], map[], [])]
    case 52 => map[4 := Descriptor(map[0 := EnumName, 1 := EnumName, 2 := EnumName], [], map[], [])]
    case 53 => map[5 := Descriptor(map[0 := EnumName, 1 := EnumName, 2 := EnumName], [4], map[], [])]
    case 54 => map[5 := Descriptor(map[0 := EnumName, 1 := EnumName], [3, 4], map[], [])]
    case 55 => map[3 := Descriptor(map[0 := EnumName, 1 := EnumName, 2 := EnumName], [], map[], [])]
    case 56 => map[3 := Descriptor(map[0 := EnumName, 1 := EnumName, 2 := EnumName], [], map[], [])]
    case 57 => map[2 := Descriptor(map[0 := EnumName, 1 := EnumName], [], map[], [])]
    case 58 => map[2 := Descriptor(map[0 := EnumName, 1 := EnumList], [], map[], [])]
    case 59 => map[6 := Descriptor(map[0 := EnumName, 1 := EnumList], [2, 3, 4, 5], map[], [])]
    case 60 => map[1 := Descriptor(map[0 := EnumName], [], map[], [])]
    case 61 => map[4 := Descriptor(map[0 := EnumName, 1 := EnumName], [2, 3], map[], [])]
    case 62 => map[5 := Descriptor(map[0 := EnumName, 2 := EnumName], [1, 3, 4], map[], [])]
    case 63 => map[1 := Descriptor(map[], [0], map[], [])]
    case 64 => map[2 := Descriptor(map[], [0, 1], map[], [])]
    case 65 => map[4 := Descriptor(map[], [0, 1, 2, 3], map[], [])]
    case 66 => map[4 := Descriptor(map[], [0, 1, 2, 3], map[], [])]
    case 67 => map[1 := Descriptor(map[0 := BitField(["COLOR_BUFFER_BIT", "DEPTH_BUFFER_BIT", "STENCIL_BUFFER_BIT"])], [], map[], [])]
    case 68 => map[4 := Descriptor(map[], [0, 1, 2, 3], map[], [])]
    case 69 => map[1 := Descriptor(map[], [0], map[], [])]
    case 70 => map[1 := Descriptor(map[], [0], map[], [])]
    case 71 => map[1 := Descriptor(map[0 := EnumName], [], map[], [])]
    case 72 => map[2 := Descriptor(map[], [0, 1], map[], [])]
    case 73 => map[4 := Descriptor(map[], [0, 1, 2, 3], map[], [])]
    case 74 => map[2 := Descriptor(map[0 := EnumName, 1 := EnumName], [], map[], [])]
    case 75 => map[4 := Descriptor(map[0 := EnumName, 1 := EnumName, 2 := EnumName, 3 := EnumName], [], map[], [])]
    case 76 => map[1 := Descriptor(map[0 := EnumName], [], map[], [])]
    case 77 => map[2 := Descriptor(map[0 := EnumName, 1 := EnumName], [], map[], [])]
    case 78 => map[3 := Descriptor(map[0 := EnumName], [1, 2], map[], [])]
    case 79 => map[4 := Descriptor(map[0 := EnumName, 1 := EnumName], [2, 3], map[], [])]
    case 80 => map[1 := Descriptor(map[], [0], map[], [])]
    case 81 => map[2 := Descriptor(map[0 := EnumName], [1], map[], [])]
    case 82 => map[3 := Descriptor(map[0 := EnumName, 1 := EnumName, 2 := EnumName], [], map[], [])]
    case 83 => map[4 := Descriptor(map[0 := EnumName, 1 := EnumName, 2 := EnumName, 3 := EnumName], [], map[], [])]
    case 84 => map[1 := Descriptor(map[0 := EnumName], [], map[], [])]
    case 85 => map[1 := Descriptor(map[0 := EnumName], [], map[], [])]
    case 86 => map[4 := Descriptor(map[0 := EnumName], [1, 2, 3], map[], [])]
    case 87 => map[5 := Descriptor(map[0 := EnumName, 2 := EnumName], [1, 3, 4], map[], [])]
    case 88 => map[1 := Descriptor(map[0 := EnumName], [], map[], [])]
    case 89 => map[1 := Descriptor(map[0 := EnumList], [], map[], [])]
    case 90 => map[1 := Descriptor(map[0 := EnumList], [], map[], [])]
    case 91 => map[
      3 := Descriptor(map[0 := EnumName], [1], map[], []),
      4 := Descriptor(map[0 := EnumName], [1, 2], map[], [])]
    case 92 => map[
      3 := Descriptor(map[0 := EnumName], [1], map[], []),
      4 := Descriptor(map[0 := EnumName], [1, 2], map[], [])]
    case 93 => map[
      3 := Descriptor(map[0 := EnumName], [1], map[], []),
      4 := Descriptor(map[0 := EnumName], [1, 2], map[], [])]
    case 94 => map[4 := Descriptor(map[0 := EnumName], [1, 2, 3], map[], [])]
    case 95 => map[2 := Descriptor(map[], [1], map[], [])]
    case 96 => map[3 := Descriptor(map[], [1, 2], map[], [])]
    case 97 => map[4 := Descriptor(map[], [1, 2, 3], map[], [])]
    case 98 => map[5 := Descriptor(map[], [1, 2, 3, 4], map[], [])]
    case 99 => map[2 := Descriptor(map[], [1], map[], [])]
    case 100 => map[3 := Descriptor(map[], [1, 2], map[], [])]
    case 101 => map[4 := Descriptor(map[], [1, 2, 3], map[], [])]
    case 102 => map[5 := Descriptor(map[], [1, 2, 3, 4], map[], [])]
    case 103 => map[
      2 := Descriptor(map[], [], map[1 := UniformArray(1)], []),
      3 := Descriptor(map[], [2], map[1 := UniformWithOffset(2, 1)], []),
      4 := Descriptor(map[], [2], map[1 := UniformWithOffsetAndLength(2, 1)], [])]
    case 104 => map[
      2 := Descriptor(map[], [], map[1 := UniformArray(2)], []),
      3 := Descriptor(map[], [2], map[1 := UniformWithOffset(2, 2)], []),
      4 := Descriptor(map[], [2], map[1 := UniformWithOffsetAndLength(2, 2)], [])]
    case 105 => map[
      2 := Descriptor(map[], [], map[1 := UniformArray(3)], []),
      3 := Descriptor(map[], [2], map[1 := UniformWithOffset(2, 3)], []),
      4 := Descriptor(map[], [2], map[1 := UniformWithOffsetAndLength(2, 3)], [])]
    case 106 => map[
      2 := Descriptor(map[], [], map[1 := UniformArray(4)], []),
      3 := Descriptor(map[], [2], map[1 := UniformWithOffset(2, 4)], []),
      4 := Descriptor(map[], [2], map[1 := UniformWithOffsetAndLength(2, 4)], [])]
    case 107 => map[
      2 := Descriptor(map[], [], map[1 := UniformArray(1)], []),
      3 := Descriptor(map[], [2], map[1 := UniformWithOffset(2, 1)], []),
      4 := Descriptor(map[], [2], map[1 := UniformWithOffsetAndLength(2, 1)], [])]
    case 108 => map[
      2 := Descriptor(map[], [], map[1 := UniformArray(2)], []),
      3 := Descriptor(map[], [2], map[1 := UniformWithOffset(2, 2)], []),
      4 := Descriptor(map[], [2], map[1 := UniformWithOffsetAndLength(2, 2)], [])]
    case 109 => map[
      2 := Descriptor(map[], [], map[1 := UniformArray(3)], []),
      3 := Descriptor(map[], [2], map[1 := UniformWithOffset(2, 3)], []),
      4 := Descriptor(map[], [2], map[1 := UniformWithOffsetAndLength(2, 3)], [])]
    case 110 => map[
      2 := Descriptor(map[], [], map[1 := UniformArray(4)], []),
      3 := Descriptor(map[], [2], map[1 := UniformWithOffset(2, 4)], []),
      4 := Descriptor(map[], [2], map[1 := UniformWithOffsetAndLength(2, 4)], [])]
    case 111 => map[
      3 := Descriptor(map[], [], map[2 := UniformArray(4)], []),
      4 := Descriptor(map[], [3], map[2 := UniformWithOffset(3, 4)], []),
      5 := Descriptor(map[], [3], map[2 := UniformWithOffsetAndLength(3, 4)], [])]
    case 112 => map[
      3 := Descriptor(map[], [], map[2 := UniformArray(9)], []),
      4 := Descriptor(map[], [3], map[2 := UniformWithOffset(3, 9)], []),
      5 := Descriptor(map[], [3], map[2 := UniformWithOffsetAndLength(3, 9)], [])]
    case 113 => map[
      3 := Descriptor(map[], [], map[2 := UniformArray(16)], []),
      4 := Descriptor(map[], [3], map[2 := UniformWithOffset(3, 16)], []),
      5 := Descriptor(map[], [3], map[2 := UniformWithOffsetAndLength(3, 16)], [])]
    case 114 => map[2 := Descriptor(map[], [1], map[], [])]
    case 115 => map[3 := Descriptor(map[], [1, 2], map[], [])]
    case 116 => map[4 := Descriptor(map[], [1, 2, 3], map[], [])]
    case 117 => map[5 := Descriptor(map[], [1, 2, 3, 4], map[], [])]
    case 118 => map[
      2 := Descriptor(map[], [], map[1 := UniformArray(1)], []),
      3 := Descriptor(map[], [2], map[1 := UniformWithOffset(2, 1)], []),
      4 := Descriptor(map[], [2], map[1 := UniformWithOffsetAndLength(2, 1)], [])]
    case 119 => map[
      2 := Descriptor(map[], [], map[1 := UniformArray(2)], []),
      3 := Descriptor(map[], [2], map[1 := UniformWithOffset(2, 2)], []),
      4 := Descriptor(map[], [2], map[1 := UniformWithOffsetAndLength(2, 2)], [])]
    case 120 => map[
      2 := Descriptor(map[], [], map[1 := UniformArray(3)], []),
      3 := Descriptor(map[], [2], map[1 := UniformWithOffset(2, 3)], []),
      4 := Descriptor(map[], [2], map[1 := UniformWithOffsetAndLength(2, 3)], [])]
    case 121 => map[
      2 := Descriptor(map[], [], map[1 := UniformArray(4)], []),
      3 := Descriptor(map[], [2], map[1 := UniformWithOffset(2, 4)], []),
      4 := Descriptor(map[], [2], map[1 := UniformWithOffsetAndLength(2, 4)], [])]
    case 122 => map[
      3 := Descriptor(map[], [], map[2 := UniformArray(6)], []),
      4 := Descriptor(map[], [3], map[2 := UniformWithOffset(3, 6)], []),
      5 := Descriptor(map[], [3], map[2 := UniformWithOffsetAndLength(3, 6)], [])]
    case 123 => map[
      3 := Descriptor(map[], [], map[2 := UniformArray(8)], []),
      4 := Descriptor(map[], [3], map[2 := UniformWithOffset(3, 8)], []),
      5 := Descriptor(map[], [3], map[2 := UniformWithOffsetAndLength(3, 8)], [])]
    case 124 => map[
      3 := Descriptor(map[], [], map[2 := UniformArray(6)], []),
      4 := Descriptor(map[], [3], map[2 := UniformWithOffset(3, 6)], []),
      5 := Descriptor(map[], [3], map[2 := UniformWithOffsetAndLength(3, 6)], [])]
    case 125 => map[
      3 := Descriptor(map[], [], map[2 := UniformArray(12)], []),
      4 := Descriptor(map[], [3], map[2 := UniformWithOffset(3, 12)], []),
      5 := Descriptor(map[], [3], map[2 := UniformWithOffsetAndLength(3, 12)], [])]
    case 126 => map[
      3 := Descriptor(map[], [], map[2 := UniformArray(8)], []),
      4 := Descriptor(map[], [3], map[2 := UniformWithOffset(3, 8)], []),
      5 := Descriptor(map[], [3], map[2 := UniformWithOffsetAndLength(3, 8)], [])]
    case 127 => map[
      3 := Descriptor(map[], [], map[2 := UniformArray(12)], []),
      4 := Descriptor(map[], [3], map[2 := UniformWithOffset(3, 12)], []),
      5 := Descriptor(map[], [3], map[2 := UniformWithOffsetAndLength(3, 12)], [])]
    case 128 => map[2 := Descriptor(map[], [0, 1], map[], [])]
    case 129 => map[3 := Descriptor(map[], [0, 1, 2], map[], [])]
    case 130 => map[4 := Descriptor(map[], [0, 1, 2, 3], map[], [])]
    case 131 => map[5 := Descriptor(map[], [0, 1, 2, 3, 4], map[], [])]
    case 132 => map[2 := Descriptor(map[], [0], map[], [])]
    case 133 => map[2 := Descriptor(map[], [0], map[], [])]
    case 134 => map[2 := Descriptor(map[], [0], map[], [])]
    case 135 => map[2 := Descriptor(map[], [0], map[], [])]
    case 136 => map[5 := Descriptor(map[], [0, 1, 2, 3, 4], map[], [])]
    case 137 => map[2 := Descriptor(map[], [0], map[], [])]
    case 138 => map[5 := Descriptor(map[], [0, 1, 2, 3, 4], map[], [])]
    case 139 => map[2 := Descriptor(map[], [0], map[], [])]
    case 140 => map[2 := Descriptor(map[0 := EnumName], [], map[], [])]
    case 141 => map[1 := Descriptor(map[0 := EnumName], [], map[], [])]
    case 142 => map[2 := Descriptor(map[0 := EnumName, 1 := EnumName], [], map[], [])]
    case 143 => map[2 := Descriptor(map[1 := EnumName], [], map[], [])]
    case 144 => map[3 := Descriptor(map[1 := EnumName], [], map[], [])]
    case 145 => map[3 := Descriptor(map[1 := EnumName], [], map[], [])]
    case 146 => map[2 := Descriptor(map[1 := EnumName], [], map[], [])]
    case 147 => map[3 := Descriptor(map[1 := BitField(["SYNC_FLUSH_COMMANDS_BIT"])], [2], map[], [])]
    case 148 => map[2 := Descriptor(map[0 := EnumName], [], map[], [])]
    case 149 => map[2 := Descriptor(map[1 := EnumName], [], map[], [])]
    case 150 => map[2 := Descriptor(map[0 := EnumName], [], map[], [])]
    case 151 => map[1 := Descriptor(map[0 := EnumName], [], map[], [])]
    case 152 => map[3 := Descriptor(map[0 := EnumName], [1], map[], [])]
    case 153 => map[5 := Descriptor(map[0 := EnumName], [1, 3, 4], map[], [])]
    case 154 => map[2 := Descriptor(map[0 := EnumName], [1], map[], [])]
    case 155 => map[3 := Descriptor(map[2 := EnumName], [], map[], [])]
    case 156 => map[3 := Descriptor(map[2 := EnumName], [1], map[], [])]
    case 157 => map[2 := Descriptor(map[], [1], map[], [])]
    case 158 => map[3 := Descriptor(map[2 := EnumName], [], map[], [])]
    case 159 => map[3 := Descriptor(map[], [1, 2], map[], [])]
    case _ => map[]
  }

  /** The descriptors of the first row from `i` on that is named `name`. */
  function TableFrom(name: string, i: nat): map<nat, Descriptor>
    decreases RowCount - i
  {
    if i >= RowCount then map[]
    else if RowName(i) == name then RowInfo(i)
    else TableFrom(name, i + 1)
  }

  /** `glFunctionInfos[name]`, keyed by argument count; empty for a
      function the table does not list. */
  function Table(name: string): map<nat, Descriptor>
  {
    TableFrom(name, 0)
  }

  /** A function no row lists has no descriptor for any argument count. */
  lemma Unlisted(name: string)
    requires forall j :: 0 <= j < RowCount ==> RowName(j) != name
    ensures forall argc :: Lookup(name, argc).None?
  {
    TableMisses(name, 0);
  }

  lemma {:induction false} TableMisses(name: string, k: nat)
    requires forall j :: k <= j < RowCount ==> RowName(j) != name
    ensures TableFrom(name, k) == map[]
    decreases RowCount - k
  {
    if k < RowCount {
      TableMisses(name, k + 1);
    }
  }

  /** `funcInfos ? funcInfos[numArgs] : undefined`. */
  function Lookup(name: string, argc: nat): Option<Descriptor>
  {
    if argc in Table(name) then Some(Table(name)[argc]) else None
  }

  /** `funcInfo.enums[i]`. */
  function EnumRuleAt(d: Option<Descriptor>, i: int): Option<EnumRule>
  {
    if d.Some? && i >= 0 && i in d.value.enums then Some(d.value.enums[i]) else None
  }

  /** `funcInfo.read[i]` is truthy: the list became `{|ndx|: ndx}`, so the
      entry for `i` exists when some `ndx` has absolute value `i`, and is
      truthy unless it is 0. */
  predicate IsRead(d: Option<Descriptor>, i: int)
  {
    d.Some? && i != 0 && (i in d.value.read || -i in d.value.read)
  }

  /** `funcInfo.arrays[i]`. */
  function ArrayRuleAt(d: Option<Descriptor>, i: nat): Option<ArrayRule>
  {
    if d.Some? && i in d.value.arrays then Some(d.value.arrays[i]) else None
  }
}

=== FILE: encoder.dfy ===
/** `glValueToString` and `glArgsToStringList` (webgl-capture.js lines
    584-808): every argument of a recorded call becomes a JavaScript
    expression. Binary payloads are interned in side tables (typed arrays by
    their base64 text, images by URL or by element) so that the recorded call
    only holds a slot reference, and once the serialized size passes its
    budget, payloads are replaced by zero-filled placeholders. */
module Encoder {
  import opened Base
  import opened Values
  import opened Descriptors
  import Json
  import Base64
  import Enums
  import Rewrite

  /** `HydMaxSerializeSize` (256 MiB of base64 text) and `HydMaxArraySize`
      (16 Mi elements, bytes or pixels). */
  const MaxSerializeSize: nat := 268435456
  const MaxArraySize: nat := 16777216

  /** The recorder state the encoder reads and writes: the serialized size,
      the page-global `HydAllSerialized` flag, the interned zero
      placeholders and base64 payloads (slot = position), the image data
      URLs, and the two image caches (by URL and by element). */
  datatype Tables = Tables(
    serializeLength: nat,
    allSerialized: bool,
    zeroArrays: seq<string>,
    typedArrays: seq<string>,
    images: seq<string>,
    imageUrlIds: map<string, nat>,
    inlineImageIds: map<ObjId, nat>)

  const EmptyTables := Tables(0, true, [], [], [], map[], map[])

  /** Slots are distinct and every cached image id names a stored image. */
  predicate Valid(t: Tables)
  {
    && NoDup(t.zeroArrays)
    && NoDup(t.typedArrays)
    && (forall u :: u in t.imageUrlIds ==> t.imageUrlIds[u] < |t.images|)
    && (forall o :: o in t.inlineImageIds ==> t.inlineImageIds[o] < |t.images|)
  }

  predicate Prefix<T(==)>(a: seq<T>, b: seq<T>)
  {
    |a| <= |b| && b[..|a|] == a
  }

  /** How the tables may change while a value is encoded: the size only
      grows, and stops growing once it is past the budget; the flag, once
      cleared, stays cleared; slots and cache entries are never moved or
      removed. */
  predicate Grows(t: Tables, u: Tables)
  {
    && t.serializeLength <= u.serializeLength
    && (t.serializeLength > MaxSerializeSize ==> u.serializeLength == t.serializeLength)
    && (!t.allSerialized ==> !u.allSerialized)
    && Prefix(t.zeroArrays, u.zeroArrays)
    && Prefix(t.typedArrays, u.typedArrays)
    && Prefix(t.images, u.images)
    && (forall k :: k in t.imageUrlIds ==> k in u.imageUrlIds && u.imageUrlIds[k] == t.imageUrlIds[k])
    && (forall o :: o in t.inlineImageIds ==> o in u.inlineImageIds && u.inlineImageIds[o] == t.inlineImageIds[o])
  }

  /** Past the budget, no payload is stored: neither base64 text nor
      images. */
  predicate Frozen(t: Tables, u: Tables)
  {
    t.serializeLength > MaxSerializeSize ==>
      u.serializeLength == t.serializeLength && u.typedArrays == t.typedArrays && u.images == t.images
  }

  lemma GrowsTrans(t: Tables, u: Tables, w: Tables)
    requires Grows(t, u) && Grows(u, w)
    ensures Grows(t, w)
  {
    assert w.zeroArrays[..|t.zeroArrays|] == w.zeroArrays[..|u.zeroArrays|][..|t.zeroArrays|];
    assert w.typedArrays[..|t.typedArrays|] == w.typedArrays[..|u.typedArrays|][..|t.typedArrays|];
    assert w.images[..|t.images|] == w.images[..|u.images|][..|t.images|];
  }

  /** `map.has(key) ? map.get(key) : (map.set(key, map.size), map.size - 1)`
      on a map whose values are insertion positions. */
  function Intern(keys: seq<string>, key: string): (r: (nat, seq<string>))
    ensures r.0 < |r.1| && r.1[r.0] == key
    ensures Prefix(keys, r.1)
    ensures NoDup(keys) ==> NoDup(r.1) && r.0 == IndexOf(r.1, key)
    ensures key in keys ==> r.1 == keys
    ensures key !in keys ==> r.1 == keys + [key]
  {
    if key in keys then (IndexOf(keys, key), keys) else (|keys|, keys + [key])
  }

  /** Interning is idempotent: a second lookup of the same key finds the
      slot the first one gave and adds nothing. */
  lemma InternIdempotent(keys: seq<string>, key: string)
    requires NoDup(keys)
    ensures var (k, keys') := Intern(keys, key); Intern(keys', key) == (k, keys')
  {
  }

  /** Distinct keys get distinct slots. */
  lemma InternDistinct(keys: seq<string>, a: string, b: string)
    requires NoDup(keys) && a != b
    ensures var (ka, keys') := Intern(keys, a); Intern(keys', b).0 != ka
  {
  }

  /** The test that guards every payload. */
  predicate OverBudget(t: Tables, count: nat)
  {
    t.serializeLength > MaxSerializeSize || count > MaxArraySize
  }

  /** The result of encoding: the expression text (`None` is JavaScript
      `undefined`, from a missing enum name) and the updated tables. */
  datatype Encoded = Encoded(text: Option<string>, tables: Tables)

  function Slot(table: string, k: nat): string
  {
    table + "[" + NatToString(k) + "]"
  }

  /** Interns a zero placeholder and refers to its slot. */
  function ZeroSlot(t: Tables, placeholder: string): (r: Encoded)
    ensures Grows(t, r.tables) && Frozen(t, r.tables)
    ensures Valid(t) ==> Valid(r.tables)
  {
    var (k, keys) := Intern(t.zeroArrays, placeholder);
    Encoded(Some(Slot("zeroArrays", k)), t.(zeroArrays := keys))
  }

  function ZeroImage(width: nat, height: nat): string
  {
    "generateZeroImageData(" + NatToString(width) + ", " + NatToString(height) + ")"
  }

  function ZeroTyped(kind: TypedKind, count: nat): string
  {
    "new " + kind.Name() + "(" + NatToString(count) + ")"
  }

  function ZeroBuffer(size: nat): string
  {
    "new ArrayBuffer(" + NatToString(size) + ")"
  }

  /** `doTexImage2DForBase64` (lines 1206-1211): every call stores the data
      URL as a new image; there is no dedup on this path. */
  function ForBase64(t: Tables, dataUrl: string): (r: Encoded)
    ensures Valid(t) ==> Valid(r.tables)
    ensures r.tables.images == t.images + [dataUrl]
    ensures r.tables.serializeLength == t.serializeLength + |dataUrl|
    ensures r.text == Some(Slot("imagesBase64", |t.images|))
  {
    Encoded(Some(Slot("imagesBase64", |t.images|)),
      t.(images := t.images + [dataUrl], serializeLength := t.serializeLength + |dataUrl|))
  }

  /** `doTexImage2DForImage` (lines 1213-1241): a too-large image becomes an
      inline zero image; an image loaded from a URL is stored once per URL
      (its size counted); an image whose `src` is already a data URL is
      stored once per element, and its size is not counted. */
  function ForImage(t: Tables, obj: ObjId, width: nat, height: nat, src: string, dataUrl: string): (r: Encoded)
    ensures Grows(t, r.tables) && Frozen(t, r.tables)
    ensures Valid(t) ==> Valid(r.tables)
    ensures OverBudget(t, width * height) ==>
      r.text == Some(ZeroImage(width, height)) && r.tables == t.(allSerialized := false)
    ensures !OverBudget(t, width * height) && !StartsWith(src, "data:") ==>
      && src in r.tables.imageUrlIds
      && r.text == Some(Slot("imagesBase64", r.tables.imageUrlIds[src]))
      && (src in t.imageUrlIds ==> r.tables == t)
      && (src !in t.imageUrlIds ==>
            && r.tables.imageUrlIds == t.imageUrlIds[src := |t.images|]
            && r.tables.images == t.images + [dataUrl]
            && r.tables.serializeLength == t.serializeLength + |dataUrl|
            && r.tables.inlineImageIds == t.inlineImageIds
            && r.tables.allSerialized == t.allSerialized)
  {
    if OverBudget(t, width * height) then
      Encoded(Some(ZeroImage(width, height)), t.(allSerialized := false))
    else if !StartsWith(src, "data:") then
      if src in t.imageUrlIds then Encoded(Some(Slot("imagesBase64", t.imageUrlIds[src])), t)
      else
        var pos := |t.images|;
        Encoded(Some(Slot("imagesBase64", pos)),
          t.(imageUrlIds := t.imageUrlIds[src := pos], images := t.images + [dataUrl],
             serializeLength := t.serializeLength + |dataUrl|))
    else if obj in t.inlineImageIds then Encoded(Some(Slot("imagesBase64", t.inlineImageIds[obj])), t)
    else
      var id := |t.images|;
      Encoded(Some(Slot("imagesBase64", id)),
        t.(inlineImageIds := t.inlineImageIds[obj := id], images := t.images + [src]))
  }

  /** The replay expression that rebuilds a typed array from its bytes. */
  function TypedKey(kind: TypedKind, bytes: seq<byte>): string
  {
    "base64ToTypedArray(\"" + Base64.Encode(bytes) + "\", " + kind.Name() + ")"
  }

  /** The replay expression that rebuilds an `ArrayBuffer` (as the buffer of
      a `Uint8Array`). */
  function BufferKey(bytes: seq<byte>): string
  {
    "base64ToTypedArray(\"" + Base64.Encode(bytes) + "\",Uint8Array)"
  }

  /** Stores a base64 payload once per key; the size grows by the base64
      length only when the key is new. */
  function StorePayload(t: Tables, key: string, size: nat): (r: (nat, Tables))
  {
    var (pos, keys) := Intern(t.typedArrays, key);
    (pos, t.(typedArrays := keys,
             serializeLength := if key in t.typedArrays then t.serializeLength else t.serializeLength + size))
  }

  function EncodeTyped(t: Tables, d: Option<Descriptor>, index: int, kind: TypedKind, bytes: seq<byte>): (r: Encoded)
    ensures Grows(t, r.tables) && Frozen(t, r.tables)
    ensures Valid(t) ==> Valid(r.tables)
  {
    var count := |bytes| / kind.BytesPerElement();
    if IsRead(d, index) then ZeroSlot(t, ZeroTyped(kind, count))
    else if OverBudget(t, count) then ZeroSlot(t.(allSerialized := false), ZeroTyped(kind, count))
    else
      var (pos, u) := StorePayload(t, TypedKey(kind, bytes), |Base64.Encode(bytes)|);
      Encoded(Some(Slot("typedArrays", pos)), u)
  }

  function EncodeBuffer(t: Tables, bytes: seq<byte>): (r: Encoded)
    ensures Grows(t, r.tables) && Frozen(t, r.tables)
    ensures Valid(t) ==> Valid(r.tables)
  {
    if OverBudget(t, |bytes|) then ZeroSlot(t.(allSerialized := false), ZeroBuffer(|bytes|))
    else
      var (pos, u) := StorePayload(t, BufferKey(bytes), |Base64.Encode(bytes)|);
      Encoded(Some(Slot("typedArrays", pos) + ".buffer"), u)
  }

  /** A number argument: through the rule the descriptor gives its
      position, if any. The enum-list renderer, given a number, returns the
      empty string. */
  function NumberText(env: Enums.Env, d: Option<Descriptor>, index: int, n: int): (r: Option<string>)
    ensures EnumRuleAt(d, index).None? ==> r == Some(IntToString(n))
    ensures EnumRuleAt(d, index) == Some(EnumName) ==> r == Enums.EnumName(env, n)
    ensures EnumRuleAt(d, index).Some? && EnumRuleAt(d, index).value.BitField? ==>
      r == Enums.BitfieldText(env, EnumRuleAt(d, index).value.flags, n)
    ensures EnumRuleAt(d, index) == Some(EnumList) ==> r == Some("")
  {
    var rule := EnumRuleAt(d, index);
    if rule.None? then Some(IntToString(n))
    else if rule.value.BitField? then Enums.BitfieldText(env, rule.value.flags, n)
    else if rule.value.EnumList? then Some("")
    else Enums.EnumName(env, n)
  }

  /** An element of a plain array: strings JSON-quoted, the rest through
      `toString`. */
  function ElementText(x: Scalar): string
  {
    if x.SStr? then Json.Quote(x.s) else ScalarText(x)
  }

  function ElementTexts(items: seq<Scalar>): (r: seq<string>)
    ensures |r| == |items|
    ensures forall i :: 0 <= i < |items| ==> r[i] == ElementText(items[i])
  {
    seq(|items|, i requires 0 <= i < |items| => ElementText(items[i]))
  }

  /** Runs of at most `size` elements, each joined with commas. */
  function Chunks(items: seq<string>, size: nat): (r: seq<string>)
    requires size > 0
    ensures |items| > 0 <==> |r| > 0
    decreases |items|
  {
    if |items| == 0 then []
    else if |items| <= size then [Join(items, ",")]
    else [Join(items[..size], ",")] + Chunks(items[size..], size)
  }

  /** A plain array is written 32 elements to a line. */
  function ListText(items: seq<Scalar>): string
  {
    "\n[\n" + Join(Chunks(ElementTexts(items), 32), ",\n") + "\n]"
  }

  /** An object literal: one `"key": value` line per own field. */
  function RecordText(fieldTexts: seq<string>): string
  {
    "{\n    " + Join(fieldTexts, ",\n    ") + "}"
  }

  /** A canvas, image data, image element or bitmap. Over budget, a
      canvas or image data becomes a blank image stored as a zero
      placeholder, and a bitmap a blank image written inline. */
  function EncodePicture(t: Tables, v: Value): (r: Encoded)
    requires v.Canvas? || v.Pixels? || v.ImageElement? || v.Bitmap?
    ensures Grows(t, r.tables) && Frozen(t, r.tables)
    ensures Valid(t) ==> Valid(r.tables)
    ensures r.text.Some?
  {
    match v
    case Canvas(w, h, url) =>
      if OverBudget(t, w * h) then ZeroSlot(t.(allSerialized := false), "new " + ZeroImage(w, h))
      else ForBase64(t, url)
    case Pixels(w, h, url) =>
      if OverBudget(t, w * h) then ZeroSlot(t.(allSerialized := false), "new " + ZeroImage(w, h))
      else ForBase64(t, url)
    case ImageElement(obj, w, h, src, url) => ForImage(t, obj, w, h, src, url)
    case Bitmap(w, h, url) =>
      if OverBudget(t, w * h) then Encoded(Some(ZeroImage(w, h)), t.(allSerialized := false))
      else ForBase64(t, url)
  }

  /** `glValueToString(ctx, name, numArgs, index, value, ...)` for the call
      descriptor `d` of `name` at `numArgs` arguments. */
  function EncodeValue(env: Enums.Env, infos: map<ObjId, Info>, d: Option<Descriptor>, index: int, v: Value, t: Tables): (r: Encoded)
    ensures Grows(t, r.tables) && Frozen(t, r.tables)
    ensures Valid(t) ==> Valid(r.tables)
    ensures r.text.None? ==> v.Num? && EnumRuleAt(d, index).Some?
    decreases v, 1
  {
    match v
    case Undefined => Encoded(Some("undefined"), t)
    case Null => Encoded(Some("null"), t)
    case Num(n) => Encoded(NumberText(env, d, index, n), t)
    case Str(s) => Encoded(Some(Json.Quote(s)), t)
    case Canvas(_, _, _) => EncodePicture(t, v)
    case Pixels(_, _, _) => EncodePicture(t, v)
    case ImageElement(_, _, _, _, _) => EncodePicture(t, v)
    case Bitmap(_, _, _) => EncodePicture(t, v)
    case Typed(kind, bytes) => EncodeTyped(t, d, index, kind, bytes)
    case List(items) => Encoded(Some(ListText(items)), t)
    case Buffer(bytes) => EncodeBuffer(t, bytes)
    case Handle(obj) =>
      if obj in infos then Encoded(Some(TagName(infos[obj].tag)), t)
      else Encoded(Some(RecordText([])), t)
    case Record(fields) =>
      var (texts, u) := EncodeFields(env, infos, fields, t);
      Encoded(Some(RecordText(texts)), u)
    case Bool(b) => Encoded(Some(if b then "true" else "false"), t)
  }

  /** The fields of an object literal, each encoded as an argument of no
      described function. */
  function EncodeFields(env: Enums.Env, infos: map<ObjId, Info>, fields: seq<Field>, t: Tables): (r: (seq<string>, Tables))
    ensures |r.0| == |fields|
    ensures Grows(t, r.1) && Frozen(t, r.1)
    ensures Valid(t) ==> Valid(r.1)
    decreases fields, 0
  {
    if |fields| == 0 then ([], t)
    else
      var e := EncodeValue(env, infos, None, -1, fields[0].val, t);
      var (rest, u) := EncodeFields(env, infos, fields[1..], e.tables);
      GrowsTrans(t, e.tables, u);
      (["\"" + fields[0].key + "\": " + TemplateText(e.text)] + rest, u)
  }

  /** The arguments of one call, left to right, position `from + i` for
      the `i`-th. */
  function EncodeList(env: Enums.Env, infos: map<ObjId, Info>, d: Option<Descriptor>, args: seq<Value>, from: nat, t: Tables): (r: (seq<Option<string>>, Tables))
    ensures |r.0| == |args|
    ensures Grows(t, r.1) && Frozen(t, r.1)
    ensures Valid(t) ==> Valid(r.1)
    decreases |args|
  {
    if |args| == 0 then ([], t)
    else
      var e := EncodeValue(env, infos, d, from, args[0], t);
      var (rest, u) := EncodeList(env, infos, d, args[1..], from + 1, e.tables);
      GrowsTrans(t, e.tables, u);
      ([e.text] + rest, u)
  }

  /** Numbers and strings are written without touching the tables. */
  lemma PlainText(env: Enums.Env, infos: map<ObjId, Info>, d: Option<Descriptor>, index: int, v: Value, t: Tables)
    ensures v.Num? ==> EncodeValue(env, infos, d, index, v, t) == Encoded(NumberText(env, d, index, v.n), t)
    ensures v.Str? ==> EncodeValue(env, infos, d, index, v, t) == Encoded(Some(Json.Quote(v.s)), t)
  {
  }

  /** Numbers and strings in an argument list are written as their own
      text, whatever the arguments before them stored. */
  lemma EncodeListPlain(env: Enums.Env, infos: map<ObjId, Info>, d: Option<Descriptor>, args: seq<Value>, t: Tables)
    ensures var r := EncodeList(env, infos, d, args, 0, t);
      && (forall i :: 0 <= i < |args| && args[i].Num? ==> r.0[i] == NumberText(env, d, i, args[i].n))
      && (forall i :: 0 <= i < |args| && args[i].Str? ==> r.0[i] == Some(Json.Quote(args[i].s)))
  {
    forall i | 0 <= i < |args|
      ensures args[i].Num? ==> EncodeList(env, infos, d, args, 0, t).0[i] == NumberText(env, d, i, args[i].n)
      ensures args[i].Str? ==> EncodeList(env, infos, d, args, 0, t).0[i] == Some(Json.Quote(args[i].s))
    {
      PlainAt(env, infos, d, args, 0, t, i, i);
    }
  }

  lemma PlainAt(env: Enums.Env, infos: map<ObjId, Info>, d: Option<Descriptor>, args: seq<Value>, from: nat, t: Tables, i: nat, k: int)
    requires i < |args| && k == from + i
    ensures args[i].Num? ==> EncodeList(env, infos, d, args, from, t).0[i] == NumberText(env, d, k, args[i].n)
    ensures args[i].Str? ==> EncodeList(env, infos, d, args, from, t).0[i] == Some(Json.Quote(args[i].s))
  {
    EncodeListAt(env, infos, d, args, from, t, i, k);
    PlainText(env, infos, d, k, args[i], EncodeList(env, infos, d, args[..i], from, t).1);
  }

  /** Argument `i` (at position `k` of the call) is encoded against the
      tables as the arguments before it left them. */
  lemma {:induction false} EncodeListAt(env: Enums.Env, infos: map<ObjId, Info>, d: Option<Descriptor>, args: seq<Value>, from: nat, t: Tables, i: nat, k: int)
    requires i < |args| && k == from + i
    ensures EncodeList(env, infos, d, args, from, t).0[i]
      == EncodeValue(env, infos, d, k, args[i], EncodeList(env, infos, d, args[..i], from, t).1).text
    decreases i
  {
    if i > 0 {
      var u := EncodeValue(env, infos, d, from, args[0], t).tables;
      EncodeListAt(env, infos, d, args[1..], from + 1, u, i - 1, k);
      EncodeListTail(env, infos, d, args, from, t, i);
    } else {
      EncodeListHead(env, infos, d, args, from, t);
    }
  }

  lemma EncodeListHead(env: Enums.Env, infos: map<ObjId, Info>, d: Option<Descriptor>, args: seq<Value>, from: nat, t: Tables)
    requires 0 < |args|
    ensures EncodeList(env, infos, d, args, from, t).0[0] == EncodeValue(env, infos, d, from, args[0], t).text
    ensures EncodeList(env, infos, d, args[..0], from, t).1 == t
  {
    assert args[..0] == [];
  }

  /** The step of `EncodeListAt`: position `i` of a list is position
      `i - 1` of its tail, encoded from the tables its head left. */
  lemma EncodeListTail(env: Enums.Env, infos: map<ObjId, Info>, d: Option<Descriptor>, args: seq<Value>, from: nat, t: Tables, i: nat)
    requires 0 < i < |args|
    ensures var u := EncodeValue(env, infos, d, from, args[0], t).tables;
      && EncodeList(env, infos, d, args, from, t).0[i] == EncodeList(env, infos, d, args[1..], from + 1, u).0[i - 1]
      && EncodeList(env, infos, d, args[..i], from, t).1 == EncodeList(env, infos, d, args[1..][..i - 1], from + 1, u).1
      && args[1..][i - 1] == args[i]
  {
    var pre := args[..i];
    assert pre[0] == args[0] && pre[1..] == args[1..][..i - 1];
  }

  /** `glArgsToStringList(ctx, name, args, helper)`: the rewritten argument
      list, encoded against the descriptor for its own (new) length. */
  function EncodeArgs(env: Enums.Env, infos: map<ObjId, Info>, name: string, args: seq<Value>, t: Tables): (r: (seq<Option<string>>, Tables))
    ensures var a := Rewrite.RewriteArgs(name, args);
      && |r.0| == |a|
      && (forall i :: 0 <= i < |a| && a[i].Num? ==> r.0[i] == NumberText(env, Lookup(name, |a|), i, a[i].n))
      && (forall i :: 0 <= i < |a| && a[i].Str? ==> r.0[i] == Some(Json.Quote(a[i].s)))
    ensures Grows(t, r.1) && Frozen(t, r.1)
    ensures Valid(t) ==> Valid(r.1)
  {
    var a := Rewrite.RewriteArgs(name, args);
    EncodeListPlain(env, infos, Lookup(name, |a|), a, t);
    EncodeList(env, infos, Lookup(name, |a|), a, 0, t)
  }

  /** Argument `i` of the rewritten list is encoded at position `i` against
      the tables the arguments before it left: a payload seen earlier in
      the same call is reused, not stored twice. */
  lemma EncodeArgsAt(env: Enums.Env, infos: map<ObjId, Info>, name: string, args: seq<Value>, t: Tables, i: nat)
    requires i < |Rewrite.RewriteArgs(name, args)|
    ensures var a := Rewrite.RewriteArgs(name, args);
      var d := Lookup(name, |a|);
      EncodeArgs(env, infos, name, args, t).0[i]
        == EncodeValue(env, infos, d, i, a[i], EncodeList(env, infos, d, a[..i], 0, t).1).text
  {
    var a := Rewrite.RewriteArgs(name, args);
    EncodeListAt(env, infos, Lookup(name, |a|), a, 0, t, i, i);
  }

  /** `glArgsToString`: the encoded arguments joined with commas. */
  function ArgsText(env: Enums.Env, infos: map<ObjId, Info>, name: string, args: seq<Value>, t: Tables): (r: (string, Tables))
    ensures Grows(t, r.1) && Frozen(t, r.1)
    ensures Valid(t) ==> Valid(r.1)
  {
    var (texts, u) := EncodeArgs(env, infos, name, args, t);
    (JoinMaybe(texts, ","), u)
  }

  /** The number of elements, bytes or pixels the budget test compares
      with `HydMaxArraySize` for a payload value. */
  function PayloadCount(v: Value): nat
  {
    match v
    case Typed(kind, bytes) => |bytes| / kind.BytesPerElement()
    case Buffer(bytes) => |bytes|
    case Canvas(w, h, _) => w * h
    case Pixels(w, h, _) => w * h
    case ImageElement(_, w, h, _, _) => w * h
    case Bitmap(w, h, _) => w * h
    case _ => 0
  }

  predicate IsPayload(v: Value)
  {
    v.Typed? || v.Buffer? || v.Canvas? || v.Pixels? || v.ImageElement? || v.Bitmap?
  }

  // ---- Replay of stored payloads ----

  const KeyPrefix := "base64ToTypedArray(\""

  /** How the replay page reads a stored payload expression: the bytes
      decoded from the quoted base64 text, and the constructor name after
      the comma. */
  function ReadKey(key: string): Option<(seq<byte>, string)>
  {
    if !StartsWith(key, KeyPrefix) then None
    else
      var rest := key[|KeyPrefix|..];
      if '"' !in rest then None
      else
        var q := IndexOf(rest, '"');
        var data := Base64.Decode(rest[..q]);
        var tail := rest[q + 1..];
        if data.None? || |tail| < 2 || tail[0] != ',' || tail[|tail| - 1] != ')' then None
        else if tail[1] == ' ' then Some((data.value, tail[2..|tail| - 1]))
        else Some((data.value, tail[1..|tail| - 1]))
  }

  /** The first quote of `e + "\"" + after`, for a quote-free `e`, is the
      one after `e`. */
  lemma QuoteAfter(e: string, after: string)
    requires '"' !in e
    ensures var rest := e + "\"" + after;
      && '"' in rest && IndexOf(rest, '"') == |e|
      && rest[..|e|] == e && rest[|e| + 1..] == after
  {
    var rest := e + "\"" + after;
    assert rest[|e|] == '"';
    assert forall j :: 0 <= j < |e| ==> rest[j] == e[j];
    assert rest[..|e|] == e;
    assert rest[|e| + 1..] == after;
  }

  /** Reading a key made of the prefix, a quote-free base64 text, a
      closing quote and `after`. */
  lemma ReadKeyOf(e: string, after: string, b: seq<byte>)
    requires '"' !in e && Base64.Decode(e) == Some(b)
    requires |after| >= 2 && after[0] == ',' && after[|after| - 1] == ')'
    ensures ReadKey(KeyPrefix + (e + "\"" + after))
      == if after[1] == ' ' then Some((b, after[2..|after| - 1])) else Some((b, after[1..|after| - 1]))
  {
    var rest := e + "\"" + after;
    var key := KeyPrefix + rest;
    assert StartsWith(key, KeyPrefix) && key[|KeyPrefix|..] == rest by {
      assert key[..|KeyPrefix|] == KeyPrefix;
    }
    QuoteAfter(e, after);
  }

  /** A stored typed array replays as the same bytes in the same typed
      array type. */
  lemma ReadTypedKey(kind: TypedKind, bytes: seq<byte>)
    ensures ReadKey(TypedKey(kind, bytes)) == Some((bytes, kind.Name()))
  {
    var e := Base64.Encode(bytes);
    TypedKeyShape(e, kind.Name());
    Base64.EncodeHasNoQuote(bytes);
    Base64.RoundTrip(bytes);
    ReadKeyOf(e, ", " + kind.Name() + ")", bytes);
  }

  /** A typed array's key splits into the prefix, the quoted base64 text
      and `, Name)`. */
  lemma TypedKeyShape(e: string, name: string)
    ensures var after := ", " + name + ")";
      && "base64ToTypedArray(\"" + e + "\", " + name + ")" == KeyPrefix + (e + "\"" + after)
      && |after| >= 2 && after[0] == ',' && after[|after| - 1] == ')'
      && after[1] == ' ' && after[2..|after| - 1] == name
  {
    var after := ", " + name + ")";
    assert after[2..|after| - 1] == name;
  }

  /** A stored `ArrayBuffer` replays as the same bytes. */
  lemma ReadBufferKey(bytes: seq<byte>)
    ensures ReadKey(BufferKey(bytes)) == Some((bytes, "Uint8Array"))
  {
    var e := Base64.Encode(bytes);
    var name := "Uint8Array";
    var after := "," + name + ")";
    assert BufferKey(bytes) == KeyPrefix + (e + "\"" + after);
    assert '"' !in e && Base64.Decode(e) == Some(bytes) by {
      Base64.EncodeHasNoQuote(bytes);
      Base64.RoundTrip(bytes);
    }
    ReadKeyOf(e, after, bytes);
    assert after[1] == name[0] == 'U';
    assert after[1..|after| - 1] == name;
  }

  lemma TypedNameInjective(a: TypedKind, b: TypedKind)
    requires a.Name() == b.Name()
    ensures a == b
  {
  }

  /** Two typed arrays share a payload slot only when they have the same
      type and the same bytes. */
  lemma TypedKeyInjective(k1: TypedKind, b1: seq<byte>, k2: TypedKind, b2: seq<byte>)
    requires TypedKey(k1, b1) == TypedKey(k2, b2)
    ensures k1 == k2 && b1 == b2
  {
    ReadTypedKey(k1, b1);
    ReadTypedKey(k2, b2);
    TypedNameInjective(k1, k2);
  }

  // ---- Dedup, read-back targets and the budget ----

  /** A typed array that is no read-back target, within budget, is stored
      under its replay expression and referred to by that slot; the size
      grows by the base64 length only when no equal array was stored
      before. */
  lemma TypedStored(env: Enums.Env, infos: map<ObjId, Info>, d: Option<Descriptor>, index: int, kind: TypedKind, bytes: seq<byte>, t: Tables)
    requires !IsRead(d, index) && !OverBudget(t, |bytes| / kind.BytesPerElement())
    ensures var r := EncodeValue(env, infos, d, index, Typed(kind, bytes), t);
      var key := TypedKey(kind, bytes);
      && key in r.tables.typedArrays
      && r.text == Some(Slot("typedArrays", IndexOf(r.tables.typedArrays, key)))
      && (key in t.typedArrays ==> r.tables == t)
      && (key !in t.typedArrays ==>
            r.tables == t.(typedArrays := t.typedArrays + [key],
                           serializeLength := t.serializeLength + |Base64.Encode(bytes)|))
  {
    assert EncodeValue(env, infos, d, index, Typed(kind, bytes), t) == EncodeTyped(t, d, index, kind, bytes);
    StorePayloadSlot(t, TypedKey(kind, bytes), |Base64.Encode(bytes)|);
  }

  /** An `ArrayBuffer` within budget is stored under its replay expression
      and referred to as the buffer of that slot's array; the size grows by
      the base64 length only when no equal buffer was stored before. */
  lemma BufferStored(env: Enums.Env, infos: map<ObjId, Info>, d: Option<Descriptor>, index: int, bytes: seq<byte>, t: Tables)
    requires !OverBudget(t, |bytes|)
    ensures var r := EncodeValue(env, infos, d, index, Buffer(bytes), t);
      var key := BufferKey(bytes);
      && key in r.tables.typedArrays
      && r.text == Some(Slot("typedArrays", IndexOf(r.tables.typedArrays, key)) + ".buffer")
      && (key in t.typedArrays ==> r.tables == t)
      && (key !in t.typedArrays ==>
            r.tables == t.(typedArrays := t.typedArrays + [key],
                           serializeLength := t.serializeLength + |Base64.Encode(bytes)|))
  {
    assert EncodeValue(env, infos, d, index, Buffer(bytes), t) == EncodeBuffer(t, bytes);
    StorePayloadSlot(t, BufferKey(bytes), |Base64.Encode(bytes)|);
  }

  /** The slot `StorePayload` returns holds the key. */
  lemma StorePayloadSlot(t: Tables, key: string, size: nat)
    ensures var (pos, u) := StorePayload(t, key, size);
      key in u.typedArrays && pos == IndexOf(u.typedArrays, key)
  {
    if key !in t.typedArrays {
      var s := t.typedArrays + [key];
      assert s[|t.typedArrays|] == key;
      assert IndexOf(s, key) == |t.typedArrays|;
    }
  }

  /** Encoding the same payload again, while still within budget, refers
      to the same slot and stores nothing: binary data is stored once. */
  lemma PayloadStoredOnce(env: Enums.Env, infos: map<ObjId, Info>, d: Option<Descriptor>, index: int, v: Value, t: Tables)
    requires v.Typed? || v.Buffer?
    requires v.Typed? ==> !IsRead(d, index)
    requires !OverBudget(EncodeValue(env, infos, d, index, v, t).tables, PayloadCount(v))
    ensures var r := EncodeValue(env, infos, d, index, v, t);
      EncodeValue(env, infos, d, index, v, r.tables) == r
  {
    var r := EncodeValue(env, infos, d, index, v, t);
    assert !OverBudget(t, PayloadCount(v));
    if v.Typed? {
      TypedStored(env, infos, d, index, v.kind, v.bytes, t);
      TypedStored(env, infos, d, index, v.kind, v.bytes, r.tables);
    } else {
      BufferStored(env, infos, d, index, v.bytes, t);
      BufferStored(env, infos, d, index, v.bytes, r.tables);
    }
  }

  /** A read-back target (the destination of `readPixels` or
      `getBufferSubData`) is never serialized: the call refers to a zero
      array of the same type and length, and the payload tables, the size
      and the flag are untouched. */
  lemma ReadTargetNotRecorded(env: Enums.Env, infos: map<ObjId, Info>, d: Option<Descriptor>, index: int, kind: TypedKind, bytes: seq<byte>, t: Tables)
    requires Valid(t) && IsRead(d, index)
    ensures var r := EncodeValue(env, infos, d, index, Typed(kind, bytes), t);
      var z := ZeroTyped(kind, |bytes| / kind.BytesPerElement());
      && z in r.tables.zeroArrays
      && r.text == Some(Slot("zeroArrays", IndexOf(r.tables.zeroArrays, z)))
      && r.tables.typedArrays == t.typedArrays
      && r.tables.images == t.images
      && r.tables.serializeLength == t.serializeLength
      && r.tables.allSerialized == t.allSerialized
  {
  }

  /** Over budget, a payload is replaced by a zero placeholder of its
      size, nothing is stored, and the capture is flagged incomplete. */
  lemma OverBudgetPlaceholder(env: Enums.Env, infos: map<ObjId, Info>, d: Option<Descriptor>, index: int, v: Value, t: Tables)
    requires IsPayload(v) && !(v.Typed? && IsRead(d, index))
    requires OverBudget(t, PayloadCount(v))
    ensures var r := EncodeValue(env, infos, d, index, v, t);
      && !r.tables.allSerialized
      && r.tables.typedArrays == t.typedArrays
      && r.tables.images == t.images
      && r.tables.serializeLength == t.serializeLength
      && (v.Typed? ==> ZeroTyped(v.kind, PayloadCount(v)) in r.tables.zeroArrays)
      && (v.Buffer? ==> ZeroBuffer(|v.bytes|) in r.tables.zeroArrays)
      && ((v.Canvas? || v.Pixels?) ==> "new " + ZeroImage(v.width, v.height) in r.tables.zeroArrays)
      && ((v.ImageElement? || v.Bitmap?) ==> r.text == Some(ZeroImage(v.width, v.height)))
  {
  }

  /** Within budget, an image loaded from a URL is stored once per URL:
      any element showing the same URL refers to the same slot and stores
      nothing more. */
  lemma SameUrlSameImage(t: Tables, obj1: ObjId, obj2: ObjId, w1: nat, h1: nat, w2: nat, h2: nat, src: string, url1: string, url2: string)
    requires !StartsWith(src, "data:") && !OverBudget(t, w1 * h1)
    requires !OverBudget(ForImage(t, obj1, w1, h1, src, url1).tables, w2 * h2)
    ensures var r := ForImage(t, obj1, w1, h1, src, url1);
      ForImage(r.tables, obj2, w2, h2, src, url2) == r
  {
  }

  /** Within budget, an image loaded from a URL is referred to by the one
      image id its URL maps to, and that id names a stored image: a new URL
      gets the next id, holding its data URL, and adds one image; a known
      URL adds none. */
  lemma UrlImageStored(t: Tables, obj: ObjId, w: nat, h: nat, src: string, url: string)
    requires Valid(t) && !StartsWith(src, "data:") && !OverBudget(t, w * h)
    ensures var r := ForImage(t, obj, w, h, src, url);
      var id := r.tables.imageUrlIds[src];
      && r.text == Some(Slot("imagesBase64", id))
      && id < |r.tables.images|
      && |r.tables.images| == |t.images| + (if src in t.imageUrlIds then 0 else 1)
      && (src in t.imageUrlIds ==> id == t.imageUrlIds[src] && r.tables == t)
      && (src !in t.imageUrlIds ==>
            && id == |t.images| && r.tables.images[id] == url
            && r.tables.serializeLength == t.serializeLength + |url|)
  {
  }

  /** An image whose `src` is already a data URL is stored once per
      element, and storing it does not count towards the budget. */
  lemma DataUrlImagePerElement(t: Tables, obj: ObjId, w: nat, h: nat, src: string, url: string)
    requires StartsWith(src, "data:") && !OverBudget(t, w * h)
    ensures var r := ForImage(t, obj, w, h, src, url);
      && r.tables.serializeLength == t.serializeLength
      && obj in r.tables.inlineImageIds
      && r.text == Some(Slot("imagesBase64", r.tables.inlineImageIds[obj]))
      && (obj !in t.inlineImageIds ==> r.tables.images == t.images + [src])
      && ForImage(r.tables, obj, w, h, src, url) == r
  {
  }

  /** Image data that is drawn through a canvas (canvases, `ImageData`,
      bitmaps) is stored anew on every call, within budget. */
  lemma CanvasStoredEveryTime(env: Enums.Env, infos: map<ObjId, Info>, d: Option<Descriptor>, index: int, v: Value, t: Tables)
    requires (v.Canvas? || v.Pixels? || v.Bitmap?) && !OverBudget(t, PayloadCount(v))
    ensures var r := EncodeValue(env, infos, d, index, v, t);
      && r.tables.images == t.images + [v.dataUrl]
      && r.tables.serializeLength == t.serializeLength + |v.dataUrl|
      && r.text == Some(Slot("imagesBase64", |t.images|))
  {
  }

  // ---- Plain arrays ----

  /** Splitting into lines loses, adds and reorders nothing: the chunks
      joined with commas are the elements joined with commas. */
  lemma {:induction false} ChunksFlatten(items: seq<string>, size: nat)
    requires size > 0
    ensures Join(Chunks(items, size), ",") == Join(items, ",")
    decreases |items|
  {
    if |items| > size {
      var c := Chunks(items[size..], size);
      ChunksFlatten(items[size..], size);
      JoinConcat(items[..size], items[size..], ",");
      assert items[..size] + items[size..] == items;
      assert ([Join(items[..size], ",")] + c)[1..] == c;
    }
  }

  /** Each chunk holds at most `size` elements, so at most `size` commas
      separate them. */
  lemma {:induction false} ChunksAreLines(items: seq<string>, size: nat)
    requires size > 0
    requires forall i :: 0 <= i < |items| ==> '\n' !in items[i]
    ensures forall j :: 0 <= j < |Chunks(items, size)| ==> '\n' !in Chunks(items, size)[j]
    decreases |items|
  {
    if |items| > 0 {
      var k := if |items| <= size then |items| else size;
      assert forall i :: 0 <= i < k ==> items[..k][i] == items[i];
      JoinNoNewline(items[..k], ",");
      if |items| > size {
        var rest := items[size..];
        assert forall i :: 0 <= i < |rest| ==> rest[i] == items[size + i];
        ChunksAreLines(rest, size);
        var c := Chunks(items, size);
        assert c == [Join(items[..k], ",")] + Chunks(rest, size);
        assert forall j :: 1 <= j < |c| ==> c[j] == Chunks(rest, size)[j - 1];
      } else {
        assert items[..k] == items;
      }
    }
  }

  lemma NatTextHasNoNewline(n: nat)
    ensures '\n' !in NatToString(n)
  {
    var s := NatToString(n);
    assert forall i :: 0 <= i < |s| ==> '0' <= s[i] <= '9';
  }

  lemma ElementHasNoNewline(x: Scalar)
    ensures '\n' !in ElementText(x)
  {
    match x
    case SNum(n) => NatTextHasNoNewline(if n < 0 then -n else n);
    case SStr(s) => Json.EscapeHasNoNewline(s);
    case SBool(_) =>
  }

  /** A plain array is written as its elements, in order, comma-separated,
      with each line holding one chunk: no element text spans a line. */
  lemma ListLayout(items: seq<Scalar>)
    ensures var chunks := Chunks(ElementTexts(items), 32);
      && ListText(items) == "\n[\n" + Join(chunks, ",\n") + "\n]"
      && Join(chunks, ",") == Join(ElementTexts(items), ",")
      && forall j :: 0 <= j < |chunks| ==> '\n' !in chunks[j]
  {
    var texts := ElementTexts(items);
    forall i | 0 <= i < |texts|
      ensures '\n' !in texts[i]
    {
      ElementHasNoNewline(items[i]);
    }
    ChunksFlatten(texts, 32);
    ChunksAreLines(texts, 32);
  }
}

=== FILE: enums.dfy ===
/** The two enum tables shared by every wrapped object, and the bit-field
    rendering built on them (webgl-capture.js lines 46-115 and 857-877). */
module Enums {
  import opened Base

  /** A numeric own property of a wrapped context or extension object. Only
      numeric properties take part in enum registration. */
  datatype Constant = Constant(name: string, value: int)

  /** `glEnums` (value to `"api.NAME"`), `enumStringToValue` (bare name to
      value) and the object types already entered into the latter. */
  datatype Env = Env(names: map<int, string>, values: map<string, int>, mapped: set<string>)

  const EmptyEnv := Env(map[], map[], {})

  /** `glEnums[value]`: `None` is the `undefined` of a missing key. */
  function EnumName(env: Env, value: int): Option<string>
  {
    if value in env.names then Some(env.names[value]) else None
  }

  /** The `glEnums` writes of one `makeWrapper` pass, in property order: each
      constant overwrites whatever name its value had. */
  function Register(names: map<int, string>, api: string, cs: seq<Constant>): map<int, string>
  {
    if |cs| == 0 then names
    else
      var last := cs[|cs| - 1];
      Register(names, api, cs[..|cs| - 1])[last.value := api + "." + last.name]
  }

  /** Name of the last constant in `cs` whose value is `v`. */
  function LastNamed(cs: seq<Constant>, v: int): (r: Option<string>)
    ensures r.Some? <==> exists i :: 0 <= i < |cs| && cs[i].value == v
  {
    if |cs| == 0 then None
    else if cs[|cs| - 1].value == v then Some(cs[|cs| - 1].name)
    else LastNamed(cs[..|cs| - 1], v)
  }

  /** When several properties share a value, `glEnums` keeps the name of the
      last one registered; values no constant has keep their old name. */
  lemma {:induction false} RegisterLastWins(names: map<int, string>, api: string, cs: seq<Constant>, v: int)
    ensures v in Register(names, api, cs) <==> v in names || LastNamed(cs, v).Some?
    ensures LastNamed(cs, v).Some? ==> Register(names, api, cs)[v] == api + "." + LastNamed(cs, v).value
    ensures LastNamed(cs, v).None? && v in names ==> Register(names, api, cs)[v] == names[v]
  {
    if |cs| > 0 {
      RegisterLastWins(names, api, cs[..|cs| - 1], v);
    }
  }

  /** The `enumStringToValue` writes of one `addEnumsForContext` pass. */
  function RecordValues(values: map<string, int>, cs: seq<Constant>): map<string, int>
  {
    if |cs| == 0 then values
    else
      var last := cs[|cs| - 1];
      RecordValues(values, cs[..|cs| - 1])[last.name := last.value]
  }

  /** Value of the last constant in `cs` named `name`. */
  function LastValue(cs: seq<Constant>, name: string): (r: Option<int>)
    ensures r.Some? <==> exists i :: 0 <= i < |cs| && cs[i].name == name
  {
    if |cs| == 0 then None
    else if cs[|cs| - 1].name == name then Some(cs[|cs| - 1].value)
    else LastValue(cs[..|cs| - 1], name)
  }

  /** When several properties share a name (a context and an extension, or
      a repeated key), `enumStringToValue` keeps the value of the last one;
      names no constant has keep their old value. */
  lemma {:induction false} RecordValuesLastWins(values: map<string, int>, cs: seq<Constant>, name: string)
    ensures name in RecordValues(values, cs) <==> name in values || LastValue(cs, name).Some?
    ensures LastValue(cs, name).Some? ==> RecordValues(values, cs)[name] == LastValue(cs, name).value
    ensures LastValue(cs, name).None? && name in values ==> RecordValues(values, cs)[name] == values[name]
  {
    if |cs| > 0 {
      RecordValuesLastWins(values, cs[..|cs| - 1], name);
    }
  }

  /** `addEnumsForContext`: only the first object of each type fills the
      name-to-value table. */
  function AddEnumsForContext(env: Env, objType: string, cs: seq<Constant>): (r: Env)
    ensures r.names == env.names
    ensures r.mapped == env.mapped + {objType}
    ensures objType in env.mapped ==> r.values == env.values
  {
    if objType in env.mapped then env
    else env.(values := RecordValues(env.values, cs), mapped := env.mapped + {objType})
  }

  /** The first object of a type maps each of its names to the value of the
      last property so named; every other name keeps its entry. */
  lemma FirstContextRecords(env: Env, objType: string, cs: seq<Constant>, name: string)
    requires objType !in env.mapped
    ensures var r := AddEnumsForContext(env, objType, cs);
      && (name in r.values <==> name in env.values || LastValue(cs, name).Some?)
      && (LastValue(cs, name).Some? ==> r.values[name] == LastValue(cs, name).value)
      && (LastValue(cs, name).None? && name in env.values ==> r.values[name] == env.values[name])
  {
    RecordValuesLastWins(env.values, cs, name);
  }

  /** The enum side of `makeWrapper(api, original, ...)`: register every
      numeric property under `api`, then map the object's names, using `api`
      as its type. */
  function WrapObject(env: Env, api: string, cs: seq<Constant>): Env
  {
    AddEnumsForContext(env.(names := Register(env.names, api, cs)), api, cs)
  }

  /** A second context of the same type renames values in `glEnums` but does
      not change which value a name stands for. */
  lemma SecondContextKeepsValues(env: Env, api: string, cs1: seq<Constant>, cs2: seq<Constant>, v: int)
    ensures WrapObject(WrapObject(env, api, cs1), api, cs2).values == WrapObject(env, api, cs1).values
    ensures LastNamed(cs2, v).Some? ==>
      EnumName(WrapObject(WrapObject(env, api, cs1), api, cs2), v) == Some(api + "." + LastNamed(cs2, v).value)
  {
    RegisterLastWins(WrapObject(env, api, cs1).names, api, cs2, v);
  }

  /** `{ i + 1 | i in s }`: the bits of a number doubled. */
  function Shift(s: set<nat>): set<nat>
  {
    set i | i in s :: i + 1
  }

  /** The positions of the one-bits of `n`. */
  function BitsOf(n: nat): set<nat>
  {
    if n == 0 then {} else (if n % 2 == 1 then {0} else {}) + Shift(BitsOf(n / 2))
  }

  /** `ToInt32(x)` as the set of its bit positions; the operands of `&` and
      `|` are seen this way. */
  function Int32Bits(x: int): set<nat>
  {
    BitsOf(x % 0x1_0000_0000)
  }

  /** `orResult === value` where `orResult` is the `int32` with bits `bits`:
      `value` must itself be an `int32` with those bits (the
      `Int32BitsInjective` lemma shows no other `int32` has them). */
  predicate Int32Equals(bits: set<nat>, value: int)
  {
    -0x8000_0000 <= value < 0x8000_0000 && Int32Bits(value) == bits
  }

  lemma {:induction false} BitsOfNonEmpty(n: nat)
    requires n > 0
    ensures BitsOf(n) != {}
  {
    if n % 2 == 0 {
      BitsOfNonEmpty(n / 2);
      var i :| i in BitsOf(n / 2);
      assert i + 1 in BitsOf(n);
    } else {
      assert 0 in BitsOf(n);
    }
  }

  lemma ShiftInjective(a: set<nat>, b: set<nat>)
    requires Shift(a) == Shift(b)
    ensures a == b
  {
    forall i | i in a ensures i in b {
      assert i + 1 in Shift(a);
    }
    forall i | i in b ensures i in a {
      assert i + 1 in Shift(b);
    }
  }

  /** Distinct numbers have distinct bits. */
  lemma {:induction false} BitsOfInjective(a: nat, b: nat)
    requires BitsOf(a) == BitsOf(b)
    ensures a == b
  {
    if a == 0 || b == 0 {
      if a != 0 { BitsOfNonEmpty(a); }
      if b != 0 { BitsOfNonEmpty(b); }
    } else {
      assert 0 !in Shift(BitsOf(a / 2)) && 0 !in Shift(BitsOf(b / 2));
      assert (0 in BitsOf(a)) == (a % 2 == 1);
      assert (0 in BitsOf(b)) == (b % 2 == 1);
      assert Shift(BitsOf(a / 2)) == BitsOf(a) - {0};
      assert Shift(BitsOf(b / 2)) == BitsOf(b) - {0};
      ShiftInjective(BitsOf(a / 2), BitsOf(b / 2));
      BitsOfInjective(a / 2, b / 2);
    }
  }

  /** `ToInt32` is one-to-one on the `int32` range. */
  lemma Int32BitsInjective(x: int, y: int)
    requires -0x8000_0000 <= x < 0x8000_0000 && -0x8000_0000 <= y < 0x8000_0000
    requires Int32Bits(x) == Int32Bits(y)
    ensures x == y
  {
    BitsOfInjective(x % 0x1_0000_0000, y % 0x1_0000_0000);
  }

  /** `enumStringToValue[name]` as an operand of `&`/`|`: `undefined` is 0,
      which has no bits. */
  function FlagBits(env: Env, flag: string): set<nat>
  {
    if flag in env.values then Int32Bits(env.values[flag]) else {}
  }

  /** `(value & enumValue) !== 0`, with `mask` the bits of `value`. */
  predicate Hit(env: Env, flag: string, mask: set<nat>)
  {
    mask * FlagBits(env, flag) != {}
  }

  /** The listed flags sharing a bit with `mask`, in list order. */
  function Hits(env: Env, flags: seq<string>, mask: set<nat>): (r: seq<string>)
    ensures forall f :: f in r <==> f in flags && Hit(env, f, mask)
  {
    if |flags| == 0 then []
    else
      var f := flags[|flags| - 1];
      Hits(env, flags[..|flags| - 1], mask) + (if Hit(env, f, mask) then [f] else [])
  }

  /** The bitwise or of the listed flags' values. */
  function OrOf(env: Env, flags: seq<string>): set<nat>
  {
    if |flags| == 0 then {} else OrOf(env, flags[..|flags| - 1]) + FlagBits(env, flags[|flags| - 1])
  }

  /** `glEnumToString(enumStringToValue[flag])`. */
  function FlagName(env: Env, flag: string): Option<string>
  {
    if flag in env.values then EnumName(env, env.values[flag]) else None
  }

  function FlagNames(env: Env, flags: seq<string>): (r: seq<Option<string>>)
    ensures |r| == |flags|
    ensures forall i :: 0 <= i < |flags| ==> r[i] == FlagName(env, flags[i])
  {
    seq(|flags|, i requires 0 <= i < |flags| => FlagName(env, flags[i]))
  }

  /** What the function `makeBitFieldToStringFunc(flags)` returns makes of
      `value`: when the flags it hits or together to exactly `value`, `"0"`
      followed by their names joined with `" | "` (a missing name joins as
      the empty string); otherwise the plain enum name of `value`, possibly
      `undefined`. */
  function BitfieldText(env: Env, flags: seq<string>, value: int): Option<string>
  {
    var hits := Hits(env, flags, Int32Bits(value));
    if Int32Equals(OrOf(env, hits), value) then Some(JoinMaybe([Some("0")] + FlagNames(env, hits), " | "))
    else EnumName(env, value)
  }

  /** The loop of `makeBitFieldToStringFunc`, step by step. */
  method BitfieldToString(env: Env, flags: seq<string>, value: int) returns (r: Option<string>)
    ensures r == BitfieldText(env, flags, value)
  {
    var mask := Int32Bits(value);
    var orResult: set<nat> := {};
    var orEnums: seq<Option<string>> := [Some("0")];
    for i := 0 to |flags|
      invariant orResult == OrOf(env, Hits(env, flags[..i], mask))
      invariant orEnums == [Some("0")] + FlagNames(env, Hits(env, flags[..i], mask))
    {
      assert flags[..i + 1][..i] == flags[..i];
      var hitsBefore := Hits(env, flags[..i], mask);
      var enumValue := FlagBits(env, flags[i]);
      if mask * enumValue != {} {
        orResult := orResult + enumValue;
        orEnums := orEnums + [FlagName(env, flags[i])];
        assert (hitsBefore + [flags[i]])[..|hitsBefore|] == hitsBefore;
      } else {
        assert hitsBefore + [] == hitsBefore;
      }
    }
    assert flags[..|flags|] == flags;
    if Int32Equals(orResult, value) {
      r := Some(JoinMaybe(orEnums, " | "));
    } else {
      r := EnumName(env, value);
    }
  }

  lemma {:induction false} NoHitsOnZero(env: Env, flags: seq<string>)
    ensures Hits(env, flags, {}) == []
  {
    if |flags| > 0 {
      NoHitsOnZero(env, flags[..|flags| - 1]);
    }
  }

  /** A zero mask renders as the literal `0`. */
  lemma BitfieldOfZero(env: Env, flags: seq<string>)
    ensures BitfieldText(env, flags, 0) == Some("0")
  {
    assert Int32Bits(0) == {};
    NoHitsOnZero(env, flags);
  }

  /** The bits of all listed flags. */
  function AllBits(env: Env, flags: seq<string>): set<nat>
  {
    OrOf(env, flags)
  }

  lemma {:induction false} HitsWithin(env: Env, flags: seq<string>, mask: set<nat>)
    ensures OrOf(env, Hits(env, flags, mask)) <= AllBits(env, flags)
  {
    if |flags| > 0 {
      var init := flags[..|flags| - 1];
      var f := flags[|flags| - 1];
      HitsWithin(env, init, mask);
      var h := Hits(env, init, mask);
      if Hit(env, f, mask) {
        assert (h + [f])[..|h|] == h;
      } else {
        assert h + [] == h;
      }
    }
  }

  /** A mask with a bit outside every listed flag is never shown as a
      combination of flags: it falls back to the plain enum name. */
  lemma BitfieldRejectsUncovered(env: Env, flags: seq<string>, value: int)
    requires !(Int32Bits(value) <= AllBits(env, flags))
    ensures BitfieldText(env, flags, value) == EnumName(env, value)
  {
    HitsWithin(env, flags, Int32Bits(value));
  }

  /** The flag lies inside `mask` or misses it entirely. */
  predicate AlignedFlag(env: Env, flag: string, mask: set<nat>)
  {
    FlagBits(env, flag) <= mask || mask * FlagBits(env, flag) == {}
  }

  /** Every listed flag lies inside `mask` or misses it entirely. */
  predicate Aligned(env: Env, flags: seq<string>, mask: set<nat>)
  {
    |flags| == 0 || (Aligned(env, flags[..|flags| - 1], mask) && AlignedFlag(env, flags[|flags| - 1], mask))
  }

  lemma {:induction false} HitsCoverMask(env: Env, flags: seq<string>, mask: set<nat>)
    requires Aligned(env, flags, mask)
    ensures OrOf(env, Hits(env, flags, mask)) == mask * AllBits(env, flags)
  {
    if |flags| > 0 {
      var init := flags[..|flags| - 1];
      var f := flags[|flags| - 1];
      HitsCoverMask(env, init, mask);
      var h := Hits(env, init, mask);
      if Hit(env, f, mask) {
        assert (h + [f])[..|h|] == h;
      } else {
        assert h + [] == h;
      }
    }
  }

  /** An `int32` mask made only of whole listed flags renders as `0`
      followed by the names of exactly the flags it contains. */
  lemma BitfieldDecomposes(env: Env, flags: seq<string>, value: int)
    requires -0x8000_0000 <= value < 0x8000_0000
    requires Int32Bits(value) <= AllBits(env, flags)
    requires Aligned(env, flags, Int32Bits(value))
    ensures BitfieldText(env, flags, value) ==
      Some(JoinMaybe([Some("0")] + FlagNames(env, Hits(env, flags, Int32Bits(value))), " | "))
  {
    HitsCoverMask(env, flags, Int32Bits(value));
  }
}

=== FILE: generator.dfy ===
/** `generate()` (webgl-capture.js lines 900-1027): the page that replays a
    recording, as the list of chunks handed to `pushLine` (each chunk is
    followed by a line feed in the page). The deflate and base64 steps that
    turn the page into a `data:` URL are not part of this module. */
module Generator {
  import opened Base
  import opened Values
  import opened Session
  import opened Tracker
  import Encoder
  import Descriptors
  import Template

  /** The fixed blocks of every page: the helpers (the base64 decoder for
      binary payloads and the blank-image factory for placeholders), the
      two ends of the image loader, and the two ends of the frame
      generator, which the closing part drives one frame per animation
      frame. */
  datatype Fixed = Prelude | LoaderHead | LoaderTail | RenderHead | RenderTail

  /** One `pushLine` argument: computed text, or a fixed block. */
  datatype Chunk = Line(text: string) | Block(block: Fixed)

  function FixedText(f: Fixed): string
  {
    match f
    case Prelude => "\nwindow.captureDone = false;\nfunction base64ToTypedArray(b64, dt) {\n  const bs = window.atob(b64);\n  const u8a = new Uint8Array(bs.length);\n  for (let i = 0; i < bs.length; i++) {\n    u8a[i] = bs.charCodeAt(i);\n  }\n  return new dt(u8a.buffer);\n}\nfunction generateZeroImageData(width, height) {\n  const canvas = document.createElement('canvas');\n  canvas.width = width;\n  canvas.height = height;\n  const ctx = canvas.getContext('2d');\n  const imageData = ctx.createImageData(width, height);\n  canvas.remove();\n  return imageData;\n}\n    "
    case LoaderHead => "\n      const imagesUrl = { };\n      const imagesBase64 = { };\n      function loadImages() {\n"
    case LoaderTail => "\n      }\n      "
    case RenderHead => "\nfunction* renderGenerator() {\n"
    case RenderTail => "\n}\nconst renderIterator = renderGenerator();\n\nfunction render() {\n  if (renderIterator.next().done) {\n    window.captureDone = true;\n  } else {\n    requestAnimationFrame(render);\n  }\n}\n"
  }

  function ChunkText(c: Chunk): string
  {
    match c
    case Line(text) => text
    case Block(f) => FixedText(f)
  }

  /** The page's text before compression: every chunk followed by a line
      feed. */
  function PageText(page: seq<Chunk>): string
  {
    if |page| == 0 then "" else PageText(page[..|page| - 1]) + ChunkText(page[|page| - 1]) + "\n"
  }

  /** The text of a page is the text of its parts, in order. */
  lemma {:induction false} PageTextAppend(a: seq<Chunk>, b: seq<Chunk>)
    ensures PageText(a + b) == PageText(a) + PageText(b)
    decreases |b|
  {
    if |b| == 0 {
      assert a + b == a;
    } else {
      var b', c := b[..|b| - 1], b[|b| - 1];
      PageTextAppend(a, b');
      PageTextAppendStep(a, b', c);
      Snoc(b);
    }
  }

  /** The step of `PageTextAppend`: one chunk more at the end of `b`. */
  lemma PageTextAppendStep(a: seq<Chunk>, b: seq<Chunk>, c: Chunk)
    requires PageText(a + b) == PageText(a) + PageText(b)
    ensures PageText(a + (b + [c])) == PageText(a) + PageText(b + [c])
  {
    var last := ChunkText(c) + "\n";
    Assoc(a, b, [c]);
    PageTextSnoc(a + b, c);
    PageTextSnoc(b, c);
    Assoc(PageText(a), PageText(b), last);
  }

  lemma Snoc<T>(b: seq<T>)
    requires |b| > 0
    ensures b[..|b| - 1] + [b[|b| - 1]] == b
  {
  }

  lemma Assoc<T>(x: seq<T>, y: seq<T>, z: seq<T>)
    ensures x + (y + z) == (x + y) + z
  {
  }

  /** One more chunk adds its text and a line feed at the end. */
  lemma PageTextSnoc(p: seq<Chunk>, c: Chunk)
    ensures PageText(p + [c]) == PageText(p) + (ChunkText(c) + "\n")
  {
    var q := p + [c];
    assert q[..|q| - 1] == p && q[|q| - 1] == c;
  }

  function BoolText(b: bool): string
  {
    if b then "true" else "false"
  }

  /** The hidden element that carries image `i`. */
  function ImageTag(i: nat, dataUrl: string): string
  {
    "<img id=\"__hyd_img_b64_" + NatToString(i) + "__\" src=\"" + dataUrl + "\" hidden>"
  }

  /** The loader line that makes image `i` reachable as `imagesBase64[i]`. */
  function LoaderLine(i: nat): string
  {
    "imagesBase64[\"" + NatToString(i) + "\"] = document.getElementById(\"__hyd_img_b64_" + NatToString(i) + "__\");"
  }

  /** The page up to and including the helper prelude. */
  function Opening(ctx: Context, width: int, height: int): (r: seq<Chunk>)
    ensures |r| == |ctx.tables.images| + 8
    ensures forall j :: 3 <= j < 3 + |ctx.tables.images| ==> r[j] == Line(ImageTag(j - 3, ctx.tables.images[j - 3]))
  {
    var images := ctx.tables.images;
    [Line("<!-- length of the captured commands: " + NatToString(|ctx.cap.data|) + "-->"),
     Line("<!-- all serialized: " + BoolText(ctx.tables.allSerialized) + "-->"),
     Line("<canvas id=\"__main-canvas__\" width=\"" + IntToString(width) + "\" height=\"" + IntToString(height) + "\"></canvas>")]
    + seq(|images|, i requires 0 <= i < |images| => Line(ImageTag(i, images[i])))
    + [Line("<script>"),
       Line("window.HydAllSerialized = " + BoolText(ctx.tables.allSerialized) + ";"),
       Line("window.HydMaxSerializeSize = 268435456;"),
       Line("window.HydMaxArraySize = 16777216;"),
       Block(Prelude)]
  }

  /** The length of a block of `n` lines between an opening and a closing
      line, left out altogether when `n` is zero. */
  function BlockLen(n: nat): nat
  {
    if n == 0 then 0 else n + 2
  }

  /** The line that makes `key` the value of slot `k`. */
  function SlotLine(k: nat, key: string): string
  {
    NatToString(k) + ": " + key + ","
  }

  /** A slot table of the page: `slot: expression,` per key, in slot order,
      and nothing at all for an empty table. */
  function SlotBlock(table: string, keys: seq<string>): (r: seq<Chunk>)
    ensures |r| == BlockLen(|keys|)
    ensures |keys| > 0 ==> r[0] == Line("const " + table + " = {") && r[|keys| + 1] == Line("};")
    ensures forall k :: 0 <= k < |keys| ==> r[1 + k] == Line(SlotLine(k, keys[k]))
  {
    if |keys| == 0 then []
    else
      [Line("const " + table + " = {")]
      + seq(|keys|, k requires 0 <= k < |keys| => Line(SlotLine(k, keys[k])))
      + [Line("};")]
  }

  /** One shader source as a template literal with only its backticks
      escaped, as the recorder writes it; `replace` on anything but a
      string throws. */
  function ShaderLiteral(source: Value): (r: Option<string>)
    ensures r.Some? <==> source.Str?
    ensures r.Some? ==> |r.value| >= 2 && r.value[0] == '`' && r.value[|r.value| - 1] == '`'
  {
    if source.Str? then Some("`" + Template.EscapeBackticks(source.s) + "`") else None
  }

  /** The literal the page needs: every character that the parser would
      otherwise interpret escaped. */
  function CorrectedShaderLiteral(source: Value): (r: Option<string>)
    ensures r.Some? <==> source.Str?
  {
    if source.Str? then Some("`" + Template.EscapeTemplate(source.s) + "`") else None
  }

  function ShaderLiterals(sources: seq<Value>): (r: Option<seq<string>>)
    ensures r.None? <==> exists j :: 0 <= j < |sources| && !sources[j].Str?
    ensures r.Some? ==>
      && |r.value| == |sources|
      && forall j :: 0 <= j < |sources| ==> Some(r.value[j]) == ShaderLiteral(sources[j])
  {
    if |sources| == 0 then Some([])
    else
      var head := ShaderLiteral(sources[0]);
      var rest := ShaderLiterals(sources[1..]);
      if head.None? then None
      else if rest.None? then
        var j :| 0 <= j < |sources[1..]| && !sources[1..][j].Str?;
        assert !sources[j + 1].Str?;
        None
      else
        var r := [head.value] + rest.value;
        assert forall j :: 1 <= j < |sources| ==> sources[j] == sources[1..][j - 1];
        Some(r)
  }

  /** The shader-source array: the literals joined into one chunk. */
  function ShaderBlock(sources: seq<Value>): (r: Option<seq<Chunk>>)
    ensures r.None? <==> exists j :: 0 <= j < |sources| && !sources[j].Str?
    ensures r.Some? ==> |r.value| == if |sources| == 0 then 0 else 3
    ensures r.Some? && |sources| > 0 ==>
      r.value == [Line("const shaderSources = ["), Line(Join(ShaderLiterals(sources).value, ",\n")), Line("];")]
  {
    if |sources| == 0 then Some([])
    else
      var lits := ShaderLiterals(sources);
      if lits.None? then None
      else Some([Line("const shaderSources = ["), Line(Join(lits.value, ",\n")), Line("];")])
  }

  /** The image loader, present only when there are images. */
  function ImageLoader(n: nat): (r: seq<Chunk>)
    ensures |r| == BlockLen(n)
    ensures forall i :: 0 <= i < n ==> r[1 + i] == Line(LoaderLine(i))
  {
    if n == 0 then []
    else [Block(LoaderHead)] + seq(n, i requires 0 <= i < n => Line(LoaderLine(i))) + [Block(LoaderTail)]
  }

  /** The context attributes as the page passes them to `getContext`:
      encoded as an argument of `getContextAttributes`. */
  function AttributesText(ctx: Context, attributes: Value): string
  {
    TemplateText(Encoder.EncodeValue(ctx.env, ctx.infos, Descriptors.Lookup("getContextAttributes", 0), -1, attributes, ctx.tables).text)
  }

  /** The context the replay draws into, the extension objects and the
      resource arrays, up to the opening of the frame generator. */
  function ContextLines(ctx: Context, canvasType: string, attrs: string): (r: seq<Chunk>)
    ensures |r| == 3 + |ctx.extensions| + |ctx.ids|
    ensures r[0] == Line(CanvasLine)
    ensures r[1] == Line(GlLine(canvasType, attrs))
    ensures forall i :: 0 <= i < |ctx.extensions| ==> r[2 + i] == Line(ExtensionLine(ctx.extensions[i].name))
    ensures forall i :: 0 <= i < |ctx.ids| ==> r[2 + |ctx.extensions| + i] == Line("const " + ctx.ids[i].kind + " = [];")
  {
    var exts := ctx.extensions;
    var kinds := Kinds(ctx.ids);
    [Line(CanvasLine), Line(GlLine(canvasType, attrs))]
    + seq(|exts|, i requires 0 <= i < |exts| => Line(ExtensionLine(exts[i].name)))
    + seq(|kinds|, i requires 0 <= i < |kinds| => Line("const " + kinds[i] + " = [];"))
    + [Block(RenderHead)]
  }

  /** The line that finds the page's canvas, on which `gl` is opened. */
  const CanvasLine := "const canvas = document.getElementById(\"__main-canvas__\");"

  /** The line that names the replay's context `gl`. */
  function GlLine(canvasType: string, attrs: string): string
  {
    GlHead(canvasType) + attrs + ");"
  }

  /** The start of that line, up to the encoded context attributes. */
  function GlHead(canvasType: string): string
  {
    "const gl = canvas.getContext(\"" + canvasType + "\", "
  }

  /** The line that declares a cached extension under its name. */
  function ExtensionLine(name: string): string
  {
    "const " + name + " = gl.getExtension(\"" + name + "\");"
  }

  /** What calling one recorded entry produces; the binding dump reads the
      program's bindings as they are when the page is generated. */
  function EntryLine(infos: map<ObjId, Info>, e: Entry): Option<string>
  {
    if e.LinkBindings? then DumpAttribBindings(infos, e.program) else Some(EntryText(e))
  }

  /** Fails on a binding dump for a missing program */
  predicate DumpFails(e: Entry)
  {
    e.LinkBindings? && (e.program.Null? || e.program.Undefined?)
  }

  /** Every recorded entry, in recording order, one chunk each. */
  function Entries(infos: map<ObjId, Info>, data: seq<Entry>): (r: Option<seq<Chunk>>)
    ensures r.None? <==> exists i :: 0 <= i < |data| && DumpFails(data[i])
    ensures r.Some? ==>
      && |r.value| == |data|
      && forall i :: 0 <= i < |data| ==> r.value[i].Line? && Some(r.value[i].text) == EntryLine(infos, data[i])
  {
    if |data| == 0 then Some([])
    else
      var head := EntryLine(infos, data[0]);
      var rest := Entries(infos, data[1..]);
      if head.None? then None
      else if rest.None? then
        var i :| 0 <= i < |data[1..]| && DumpFails(data[1..][i]);
        assert DumpFails(data[i + 1]);
        None
      else
        assert forall i :: 1 <= i < |data| ==> data[i] == data[1..][i - 1];
        Some([Line(head.value)] + rest.value)
  }

  /** The end of the page. */
  function Closing(numImages: nat): (r: seq<Chunk>)
    ensures |r| == if numImages > 0 then 4 else 3
    ensures r[|r| - 1] == Line("</script>")
  {
    [Block(RenderTail)] + (if numImages > 0 then [Line("loadImages();")] else []) + [Line("requestAnimationFrame(render);"), Line("</script>")]
  }

  /** Where each part of the page starts, counted from the sizes of the
      tables alone: the `zeroArrays` table after the opening, then the
      `typedArrays` table, the shader sources, the image loader, the
      context lines and the recorded entries. */
  function ZeroStart(ctx: Context): nat
  {
    |ctx.tables.images| + 8
  }

  function TypedStart(ctx: Context): nat
  {
    ZeroStart(ctx) + BlockLen(|ctx.tables.zeroArrays|)
  }

  function ShaderStart(ctx: Context): nat
  {
    TypedStart(ctx) + BlockLen(|ctx.tables.typedArrays|)
  }

  function LoaderStart(ctx: Context): nat
  {
    ShaderStart(ctx) + (if |ctx.shaderSources| == 0 then 0 else 3)
  }

  function ContextStart(ctx: Context): nat
  {
    LoaderStart(ctx) + BlockLen(|ctx.tables.images|)
  }

  function EntriesStart(ctx: Context): nat
  {
    ContextStart(ctx) + 3 + |ctx.extensions| + |ctx.ids|
  }

  /** `part` occupies the chunks of `r` from `at` on. */
  ghost predicate PlacedAt(r: seq<Chunk>, at: nat, part: seq<Chunk>)
  {
    at + |part| <= |r| && forall k :: 0 <= k < |part| ==> r[at + k] == part[k]
  }

  /** `r` begins with the chunks of `p`. */
  ghost predicate Extends(r: seq<Chunk>, p: seq<Chunk>)
  {
    |p| <= |r| && forall i :: 0 <= i < |p| ==> r[i] == p[i]
  }

  lemma PlacedLast(a: seq<Chunk>, b: seq<Chunk>)
    ensures PlacedAt(a + b, |a|, b)
  {
  }

  lemma PlacedKept(r: seq<Chunk>, at: nat, part: seq<Chunk>, s: seq<Chunk>)
    requires PlacedAt(r, at, part) && Extends(s, r)
    ensures PlacedAt(s, at, part)
  {
    forall k | 0 <= k < |part| ensures s[at + k] == part[k] {
      assert r[at + k] == part[k];
    }
  }

  /** A slot table declared at `at`: slot `k` holds key `k`. */
  ghost predicate SlotsDeclared(r: seq<Chunk>, at: nat, table: string, keys: seq<string>)
  {
    && at + BlockLen(|keys|) <= |r|
    && (|keys| > 0 ==> r[at] == Line("const " + table + " = {") && r[at + |keys| + 1] == Line("};"))
    && (forall k :: 0 <= k < |keys| ==> r[at + 1 + k] == Line(SlotLine(k, keys[k])))
  }

  /** The shader-source array declared at `at`, holding the literals of the
      sources in slot order. */
  ghost predicate ShadersDeclared(r: seq<Chunk>, at: nat, sources: seq<Value>)
  {
    |sources| > 0 && ShaderLiterals(sources).Some? ==>
      && at + 3 <= |r|
      && r[at] == Line("const shaderSources = [")
      && r[at + 1] == Line(Join(ShaderLiterals(sources).value, ",\n"))
      && r[at + 2] == Line("];")
  }

  /** The loader from `at` on makes image `i` reachable as
      `imagesBase64[i]`. */
  ghost predicate ImagesDeclared(r: seq<Chunk>, at: nat, n: nat)
  {
    at + BlockLen(n) <= |r| && forall i :: 0 <= i < n ==> r[at + 1 + i] == Line(LoaderLine(i))
  }

  /** From `at` on: the page's canvas, the context `gl` of type
      `canvasType` opened on it, then every cached extension under its
      name, then one array per resource kind. */
  ghost predicate ContextDeclared(r: seq<Chunk>, at: nat, ctx: Context, canvasType: string)
  {
    && at + 3 + |ctx.extensions| + |ctx.ids| <= |r|
    && r[at] == Line(CanvasLine)
    && r[at + 1].Line? && StartsWith(r[at + 1].text, GlHead(canvasType))
    && (forall i :: 0 <= i < |ctx.extensions| ==> r[at + 2 + i] == Line(ExtensionLine(ctx.extensions[i].name)))
    && (forall i :: 0 <= i < |ctx.ids| ==> r[at + 2 + |ctx.extensions| + i] == Line("const " + ctx.ids[i].kind + " = [];"))
  }

  /** The declarations the recorded lines refer to, each at its place
      before the entries: slot `k` of `zeroArrays` and of `typedArrays`
      holds the table's key `k`; the shader sources are the literals of
      the stored sources, in slot order; image `i` is loaded as
      `imagesBase64[i]`; the context is `gl`; and every cached extension
      and every resource kind is declared. */
  ghost predicate Declares(ctx: Context, canvasType: string, r: seq<Chunk>)
  {
    && |r| >= EntriesStart(ctx)
    && SlotsDeclared(r, ZeroStart(ctx), "zeroArrays", ctx.tables.zeroArrays)
    && SlotsDeclared(r, TypedStart(ctx), "typedArrays", ctx.tables.typedArrays)
    && ShadersDeclared(r, ShaderStart(ctx), ctx.shaderSources)
    && ImagesDeclared(r, LoaderStart(ctx), |ctx.tables.images|)
    && ContextDeclared(r, ContextStart(ctx), ctx, canvasType)
  }

  lemma SlotsPlaced(r: seq<Chunk>, at: nat, table: string, keys: seq<string>)
    requires PlacedAt(r, at, SlotBlock(table, keys))
    ensures SlotsDeclared(r, at, table, keys)
  {
    var b := SlotBlock(table, keys);
    if |keys| > 0 {
      assert r[at + 0] == b[0];
      assert r[at + (|keys| + 1)] == b[|keys| + 1];
    }
    forall k | 0 <= k < |keys| ensures r[at + 1 + k] == Line(SlotLine(k, keys[k])) {
      assert r[at + (1 + k)] == b[1 + k];
    }
  }

  lemma ShadersPlaced(r: seq<Chunk>, at: nat, sources: seq<Value>, shaders: seq<Chunk>)
    requires ShaderBlock(sources) == Some(shaders) && PlacedAt(r, at, shaders)
    ensures ShadersDeclared(r, at, sources)
  {
    if |sources| > 0 && ShaderLiterals(sources).Some? {
      assert r[at + 0] == shaders[0] && r[at + 1] == shaders[1] && r[at + 2] == shaders[2];
    }
  }

  lemma ImagesPlaced(r: seq<Chunk>, at: nat, n: nat)
    requires PlacedAt(r, at, ImageLoader(n))
    ensures ImagesDeclared(r, at, n)
  {
    var b := ImageLoader(n);
    forall i | 0 <= i < n ensures r[at + 1 + i] == Line(LoaderLine(i)) {
      assert r[at + (1 + i)] == b[1 + i];
    }
  }

  lemma ContextPlaced(r: seq<Chunk>, at: nat, ctx: Context, canvasType: string, attrs: string)
    requires PlacedAt(r, at, ContextLines(ctx, canvasType, attrs))
    ensures ContextDeclared(r, at, ctx, canvasType)
  {
    var b := ContextLines(ctx, canvasType, attrs);
    var e := |ctx.extensions|;
    assert r[at + 0] == b[0];
    assert r[at + 1] == b[1];
    assert GlLine(canvasType, attrs)[..|GlHead(canvasType)|] == GlHead(canvasType);
    forall i | 0 <= i < e ensures r[at + 2 + i] == Line(ExtensionLine(ctx.extensions[i].name)) {
      assert r[at + (2 + i)] == b[2 + i];
    }
    forall i | 0 <= i < |ctx.ids| ensures r[at + 2 + e + i] == Line("const " + ctx.ids[i].kind + " = [];") {
      assert r[at + (2 + e + i)] == b[2 + e + i];
    }
  }

  /** The declarations stay in place when more chunks follow. */
  lemma DeclaresKept(ctx: Context, canvasType: string, r: seq<Chunk>, s: seq<Chunk>)
    requires Declares(ctx, canvasType, r) && Extends(s, r)
    ensures Declares(ctx, canvasType, s)
  {
    var t := ctx.tables;
    forall k | 0 <= k < |t.zeroArrays| ensures s[ZeroStart(ctx) + 1 + k] == Line(SlotLine(k, t.zeroArrays[k])) {
      assert r[ZeroStart(ctx) + 1 + k] == Line(SlotLine(k, t.zeroArrays[k]));
    }
    forall k | 0 <= k < |t.typedArrays| ensures s[TypedStart(ctx) + 1 + k] == Line(SlotLine(k, t.typedArrays[k])) {
      assert r[TypedStart(ctx) + 1 + k] == Line(SlotLine(k, t.typedArrays[k]));
    }
    forall i | 0 <= i < |t.images| ensures s[LoaderStart(ctx) + 1 + i] == Line(LoaderLine(i)) {
      assert r[LoaderStart(ctx) + 1 + i] == Line(LoaderLine(i));
    }
    var c, e := ContextStart(ctx), |ctx.extensions|;
    forall i | 0 <= i < e ensures s[c + 2 + i] == Line(ExtensionLine(ctx.extensions[i].name)) {
      assert r[c + 2 + i] == Line(ExtensionLine(ctx.extensions[i].name));
    }
    forall i | 0 <= i < |ctx.ids| ensures s[c + 2 + e + i] == Line("const " + ctx.ids[i].kind + " = [];") {
      assert r[c + 2 + e + i] == Line("const " + ctx.ids[i].kind + " = [];");
    }
  }

  /** Everything before the recorded entries, given the shader block. */
  function Preamble(ctx: Context, width: int, height: int, canvasType: string, attrs: string, shaders: seq<Chunk>): (r: seq<Chunk>)
    requires ShaderBlock(ctx.shaderSources) == Some(shaders)
    ensures |r| == EntriesStart(ctx)
    ensures forall j :: 3 <= j < 3 + |ctx.tables.images| ==> r[j] == Line(ImageTag(j - 3, ctx.tables.images[j - 3]))
  {
    var opening := Opening(ctx, width, height);
    var r := opening + Declarations(ctx, canvasType, attrs, shaders);
    assert forall i :: 0 <= i < |opening| ==> r[i] == opening[i];
    r
  }

  /** The part of the preamble between the helper prelude and the context
      lines' end: the slot tables, the shader sources, the image loader and
      the context lines. */
  function Declarations(ctx: Context, canvasType: string, attrs: string, shaders: seq<Chunk>): (r: seq<Chunk>)
    requires ShaderBlock(ctx.shaderSources) == Some(shaders)
    ensures |r| == EntriesStart(ctx) - ZeroStart(ctx)
  {
    var t := ctx.tables;
    SlotBlock("zeroArrays", t.zeroArrays) + SlotBlock("typedArrays", t.typedArrays)
      + shaders + ImageLoader(|t.images|) + ContextLines(ctx, canvasType, attrs)
  }

  lemma PlacedShift(a: seq<Chunk>, b: seq<Chunk>, at: nat, part: seq<Chunk>, to: nat)
    requires PlacedAt(b, at, part) && to == |a| + at
    ensures PlacedAt(a + b, to, part)
  {
    forall k | 0 <= k < |part| ensures (a + b)[to + k] == part[k] {
      assert b[at + k] == part[k];
    }
  }

  /** The preamble declares everything the recorded lines refer to. */
  lemma PreambleDeclares(ctx: Context, width: int, height: int, canvasType: string, attrs: string, shaders: seq<Chunk>)
    requires ShaderBlock(ctx.shaderSources) == Some(shaders)
    ensures Declares(ctx, canvasType, Preamble(ctx, width, height, canvasType, attrs, shaders))
  {
    var t := ctx.tables;
    var opening := Opening(ctx, width, height);
    var zeros := SlotBlock("zeroArrays", t.zeroArrays);
    var typed := SlotBlock("typedArrays", t.typedArrays);
    var loader := ImageLoader(|t.images|);
    var lines := ContextLines(ctx, canvasType, attrs);
    var p2 := zeros + typed;
    var p3 := p2 + shaders;
    var p4 := p3 + loader;
    var body := p4 + lines;
    assert body == Declarations(ctx, canvasType, attrs, shaders);
    var r := opening + body;
    assert |opening| == ZeroStart(ctx) && |opening| + |zeros| == TypedStart(ctx) && |opening| + |p2| == ShaderStart(ctx);
    assert |opening| + |p3| == LoaderStart(ctx) && |opening| + |p4| == ContextStart(ctx) && |r| == EntriesStart(ctx);
    assert PlacedAt(p2, 0, zeros);
    PlacedLast(zeros, typed);
    PlacedLast(p2, shaders);
    PlacedLast(p3, loader);
    PlacedLast(p4, lines);
    PlacedKept(p4, |p3|, loader, body);
    PlacedKept(p3, |p2|, shaders, p4);
    PlacedKept(p4, |p2|, shaders, body);
    PlacedKept(p2, |zeros|, typed, p3);
    PlacedKept(p3, |zeros|, typed, p4);
    PlacedKept(p4, |zeros|, typed, body);
    PlacedKept(p2, 0, zeros, p3);
    PlacedKept(p3, 0, zeros, p4);
    PlacedKept(p4, 0, zeros, body);
    PlacedShift(opening, body, 0, zeros, ZeroStart(ctx));
    PlacedShift(opening, body, |zeros|, typed, TypedStart(ctx));
    PlacedShift(opening, body, |p2|, shaders, ShaderStart(ctx));
    PlacedShift(opening, body, |p3|, loader, LoaderStart(ctx));
    PlacedShift(opening, body, |p4|, lines, ContextStart(ctx));
    SlotsPlaced(r, ZeroStart(ctx), "zeroArrays", t.zeroArrays);
    SlotsPlaced(r, TypedStart(ctx), "typedArrays", t.typedArrays);
    ShadersPlaced(r, ShaderStart(ctx), ctx.shaderSources, shaders);
    ImagesPlaced(r, LoaderStart(ctx), |t.images|);
    ContextPlaced(r, ContextStart(ctx), ctx, canvasType, attrs);
  }

  /** `Preamble`, computed. */
  method BuildPreamble(ctx: Context, width: int, height: int, canvasType: string, attrs: string, shaders: seq<Chunk>) returns (r: seq<Chunk>)
    requires ShaderBlock(ctx.shaderSources) == Some(shaders)
    ensures |r| == EntriesStart(ctx)
    ensures forall j :: 3 <= j < 3 + |ctx.tables.images| ==> r[j] == Line(ImageTag(j - 3, ctx.tables.images[j - 3]))
    ensures Declares(ctx, canvasType, r)
  {
    r := Preamble(ctx, width, height, canvasType, attrs, shaders);
    PreambleDeclares(ctx, width, height, canvasType, attrs, shaders);
  }

  /** `AttributesText`, computed; nothing in the layout depends on it. */
  method EncodeAttributes(ctx: Context, attributes: Value) returns (attrs: string)
  {
    attrs := AttributesText(ctx, attributes);
  }

  /** The three parts of a page, in order. */
  function Assemble(before: seq<Chunk>, entries: seq<Chunk>, closing: seq<Chunk>): (r: seq<Chunk>)
    requires |closing| > 0
    ensures |r| == |before| + |entries| + |closing|
    ensures forall i :: 0 <= i < |before| ==> r[i] == before[i]
    ensures forall i :: 0 <= i < |entries| ==> r[|before| + i] == entries[i]
    ensures r[|r| - 1] == closing[|closing| - 1]
  {
    before + entries + closing
  }

  /** The replay page for a context drawn on a `width` x `height` canvas of
      type `canvasType`, whose `getContextAttributes()` answered
      `attributes`. It fails exactly when a shader source is not a string
      or a recorded binding dump is for a missing program. Otherwise the
      image elements follow the header in id order, the entry chunks follow
      a preamble whose length depends only on the table sizes, one chunk
      per entry and in recording order, and the page ends by closing the
      script. Before the entries, the page declares everything they refer
      to (`Declares`): the slot tables with key `k` in slot `k`, the shader
      sources, the image loader, `gl`, the extensions and one array per
      resource kind. */
  method Generate(ctx: Context, width: int, height: int, canvasType: string, attributes: Value) returns (r: Option<seq<Chunk>>)
    ensures r.None? <==>
      (exists j :: 0 <= j < |ctx.shaderSources| && !ctx.shaderSources[j].Str?)
      || (exists i :: 0 <= i < |ctx.cap.data| && DumpFails(ctx.cap.data[i]))
    ensures r.Some? ==>
      && |r.value| == EntriesStart(ctx) + |ctx.cap.data| + (if |ctx.tables.images| > 0 then 4 else 3)
      && r.value[|r.value| - 1] == Line("</script>")
      && (forall j :: 3 <= j < 3 + |ctx.tables.images| ==> r.value[j] == Line(ImageTag(j - 3, ctx.tables.images[j - 3])))
      && (forall i :: 0 <= i < |ctx.cap.data| ==>
            r.value[EntriesStart(ctx) + i].Line?
            && Some(r.value[EntriesStart(ctx) + i].text) == EntryLine(ctx.infos, ctx.cap.data[i]))
      && Declares(ctx, canvasType, r.value)
  {
    var shaders := ShaderBlock(ctx.shaderSources);
    var entries := Entries(ctx.infos, ctx.cap.data);
    if shaders.None? || entries.None? {
      return None;
    }
    var attrs := EncodeAttributes(ctx, attributes);
    var before := BuildPreamble(ctx, width, height, canvasType, attrs, shaders.value);
    var page := Assemble(before, entries.value, Closing(|ctx.tables.images|));
    DeclaresKept(ctx, canvasType, before, page);
    r := Some(page);
  }

  /** The body of a shader literal, between its two backticks. */
  function LiteralBody(lit: string): string
    requires |lit| >= 2
  {
    lit[1..|lit| - 1]
  }

  /** A shader source without backslashes, carriage returns or `${` is
      read back from the page exactly as it was recorded. */
  lemma ShaderLiteralReadsBack(source: Value)
    requires source.Str? && Template.LiteralSafe(source.s)
    ensures Template.ReadTemplate(LiteralBody(ShaderLiteral(source).value)) == Some(source.s)
  {
    var body := Template.EscapeBackticks(source.s);
    var lit := "`" + body + "`";
    assert lit[1..|lit| - 1] == body;
    Template.EscapeBackticksRoundTrip(source.s);
  }

  /** A shader whose source holds a backslash followed by `n` is replayed
      with a line feed in their place. */
  lemma ShaderLiteralAltersSource()
    ensures var source := Str("\\n");
      && ShaderLiteral(source) == Some("`\\n`")
      && Template.ReadTemplate(LiteralBody(ShaderLiteral(source).value)) == Some("\n")
      && Some("\n") != Some(source.s)
  {
    var source := Str("\\n");
    Template.BackticksOnlyAltersSource();
    assert Template.EscapeBackticks(source.s) == source.s;
    var lit := ShaderLiteral(source).value;
    assert lit == "`\\n`";
    assert LiteralBody(lit) == "\\n";
  }

  /** The corrected literal is backtick-delimited and reads back as exactly
      the recorded source, whatever it holds. */
  lemma CorrectedShaderLiteralReadsBack(source: Value)
    requires source.Str?
    ensures var lit := CorrectedShaderLiteral(source).value;
      && |lit| >= 2 && lit[0] == '`' && lit[|lit| - 1] == '`'
      && Template.ReadTemplate(LiteralBody(lit)) == Some(source.s)
  {
    var body := Template.EscapeTemplate(source.s);
    var lit := "`" + body + "`";
    assert lit[1..|lit| - 1] == body;
    Template.EscapeTemplateRoundTrip(source.s);
  }

  /** The binding dump queued at link time is evaluated when the page is
      generated: an attribute location the program is asked for after the
      link still shows in the dump's chunk. */
  lemma LinkDumpSeesLaterBindings(ctx: Context, i: nat, prog: ObjId, a: string, location: nat)
    requires i < |ctx.cap.data| && ctx.cap.data[i] == LinkBindings(Handle(prog))
    requires prog in ctx.infos
    requires FindBinding(ctx.infos[prog].attribs, "getAttribLocation").None?
    ensures var ctx2 := GetAttribLocation(ctx, "getAttribLocation", [Handle(prog), Str(a)], Num(location)).ctx;
      var bs := ctx2.infos[prog].attribs;
      && ctx2.cap == ctx.cap
      && (exists k :: 0 <= k < |bs| && bs[k] == Binding(a, Num(location)))
      && EntryLine(ctx2.infos, ctx2.cap.data[i])
           == Some(Join(seq(|bs|, k requires 0 <= k < |bs| => BindingLine(TagName(ctx.infos[prog].tag), bs[k])), "\n"))
  {
    AttribLocationStored(ctx, prog, a, location);
  }
}

=== FILE: json.dfy ===
/** `JSON.stringify` of a string, which the recorder uses for every string
    argument, and a reader for what it writes. The reader is the replay side:
    evaluating the quoted literal gives back the original string. */
module Json {
  import opened Base

  const HexDigits: string := "0123456789abcdef"
  const Backspace: char := 8 as char
  const FormFeed: char := 12 as char

  /** The escape JSON uses for one character (section 25.5.2.3 of ECMA-262,
      QuoteJSONString): short escapes first, `\u00xx` for the other control
      characters, the character itself otherwise. */
  function EscapeChar(c: char): string
  {
    if c == Backspace then "\\b"
    else if c == '\t' then "\\t"
    else if c == '\n' then "\\n"
    else if c == FormFeed then "\\f"
    else if c == '\r' then "\\r"
    else if c == '"' then "\\\""
    else if c == '\\' then "\\\\"
    else if (c as int) < 0x20 then ControlEscape(c)
    else [c]
  }

  /** `\u00xx` with the character's code in two lower-case hex digits. */
  function ControlEscape(c: char): (r: string)
    requires (c as int) < 0x20
    ensures |r| == 6 && r[0] == '\\' && r[1] == 'u'
  {
    ['\\', 'u', '0', '0', HexDigits[c as int / 16], HexDigits[c as int % 16]]
  }

  function Escape(s: string): string
  {
    if |s| == 0 then "" else EscapeChar(s[0]) + Escape(s[1..])
  }

  /** `JSON.stringify(s)` for a string `s`. */
  function Quote(s: string): string
  {
    "\"" + Escape(s) + "\""
  }

  function HexValue(c: char): Option<nat>
  {
    if '0' <= c <= '9' then Some(c as int - '0' as int)
    else if 'a' <= c <= 'f' then Some(c as int - 'a' as int + 10)
    else if 'A' <= c <= 'F' then Some(c as int - 'A' as int + 10)
    else None
  }

  /** The character a `\uXXXX` escape stands for, when it is a scalar value. */
  function UnicodeEscape(h: string): Option<char>
    requires |h| == 4
  {
    var d0 := HexValue(h[0]);
    var d1 := HexValue(h[1]);
    var d2 := HexValue(h[2]);
    var d3 := HexValue(h[3]);
    if d0.None? || d1.None? || d2.None? || d3.None? then None
    else
      var v := ((d0.value * 16 + d1.value) * 16 + d2.value) * 16 + d3.value;
      if v < 0xD800 || (0xE000 <= v < 0x11_0000) then Some(v as char) else None
  }

  /** The character a two-character escape `\e` stands for. */
  function ShortEscape(e: char): Option<char>
  {
    if e == 'b' then Some(Backspace) else if e == 't' then Some('\t')
    else if e == 'n' then Some('\n') else if e == 'f' then Some(FormFeed)
    else if e == 'r' then Some('\r') else if e == '"' then Some('"')
    else if e == '\\' then Some('\\') else if e == '/' then Some('/') else None
  }

  /** Reads the body of a JSON string literal (without the quotes). */
  function Unescape(t: string): Option<string>
    decreases |t|
  {
    if |t| == 0 then Some("")
    else if t[0] == '"' || (t[0] as int) < 0x20 then None
    else if t[0] != '\\' then
      var rest := Unescape(t[1..]);
      if rest.Some? then Some([t[0]] + rest.value) else None
    else if |t| < 2 then None
    else
      var e := t[1];
      var short := ShortEscape(e);
      if short.Some? then
        var rest := Unescape(t[2..]);
        if rest.Some? then Some([short.value] + rest.value) else None
      else if e == 'u' && |t| >= 6 then
        var c := UnicodeEscape(t[2..6]);
        var rest := Unescape(t[6..]);
        if c.Some? && rest.Some? then Some([c.value] + rest.value) else None
      else None
  }

  /** Reads a JSON string literal. */
  function Unquote(t: string): Option<string>
  {
    if |t| >= 2 && t[0] == '"' && t[|t| - 1] == '"' then Unescape(t[1..|t| - 1]) else None
  }

  lemma HexDigitRead(k: nat)
    requires k < 16
    ensures HexValue(HexDigits[k]) == Some(k)
  {
  }

  /** Reading back a `\u00xx` escape of a control character. */
  lemma ControlEscapeRead(c: char, rest: string)
    requires (c as int) < 0x20 && c !in {Backspace, '\t', '\n', FormFeed, '\r'}
    ensures Unescape(EscapeChar(c) + rest) ==
      (var r := Unescape(rest); if r.Some? then Some([c] + r.value) else None)
  {
    var e := ControlEscape(c);
    assert EscapeChar(c) == e;
    var t := e + rest;
    var hi, lo := c as int / 16, c as int % 16;
    HexDigitRead(hi);
    HexDigitRead(lo);
    assert UnicodeEscape(t[2..6]) == Some(c) by {
      assert t[2..6] == ['0', '0', HexDigits[hi], HexDigits[lo]];
    }
    assert t[0] == '\\' && t[1] == 'u' && ShortEscape('u').None?;
    assert t[6..] == rest;
  }

  lemma TwoCharRead(e: char, rest: string)
    requires ShortEscape(e).Some?
    ensures Unescape(['\\', e] + rest) ==
      (var r := Unescape(rest); if r.Some? then Some([ShortEscape(e).value] + r.value) else None)
  {
    var t := ['\\', e] + rest;
    assert t[0] == '\\' && t[1] == e;
    assert t[2..] == rest;
  }

  /** Reading back one of the two-character escapes. */
  lemma ShortEscapeRead(c: char, rest: string)
    requires c in {Backspace, '\t', '\n', FormFeed, '\r', '"', '\\'}
    ensures Unescape(EscapeChar(c) + rest) ==
      (var r := Unescape(rest); if r.Some? then Some([c] + r.value) else None)
  {
    var e := EscapeChar(c)[1];
    assert EscapeChar(c) == ['\\', e] && ShortEscape(e) == Some(c);
    TwoCharRead(e, rest);
  }

  lemma EscapeCharRead(c: char, rest: string)
    ensures Unescape(EscapeChar(c) + rest) ==
      (var r := Unescape(rest); if r.Some? then Some([c] + r.value) else None)
  {
    if c in {Backspace, '\t', '\n', FormFeed, '\r', '"', '\\'} {
      ShortEscapeRead(c, rest);
    } else if (c as int) < 0x20 {
      ControlEscapeRead(c, rest);
    } else {
      var t := EscapeChar(c) + rest;
      assert t[1..] == rest;
    }
  }

  lemma {:induction false} EscapeRoundTrip(s: string)
    ensures Unescape(Escape(s)) == Some(s)
  {
    if |s| > 0 {
      EscapeRoundTrip(s[1..]);
      EscapeCharRead(s[0], Escape(s[1..]));
      assert [s[0]] + s[1..] == s;
    }
  }

  /** Replaying a quoted string gives back the recorded string. */
  lemma QuoteRoundTrip(s: string)
    ensures Unquote(Quote(s)) == Some(s)
  {
    var q := Quote(s);
    assert q[1..|q| - 1] == Escape(s);
    EscapeRoundTrip(s);
  }

  /** The escaped body never holds a raw line break, so a quoted string never
      splits a line of the generated program. */
  lemma {:induction false} EscapeHasNoNewline(s: string)
    ensures '\n' !in Escape(s)
  {
    if |s| > 0 {
      EscapeHasNoNewline(s[1..]);
      EscapeCharHasNoNewline(s[0]);
    }
  }

  lemma EscapeCharHasNoNewline(c: char)
    ensures '\n' !in EscapeChar(c)
  {
    if (c as int) < 0x20 && c !in {Backspace, '\t', '\n', FormFeed, '\r'} {
      assert EscapeChar(c) == ControlEscape(c);
      assert forall k :: 0 <= k < |HexDigits| ==> HexDigits[k] != '\n';
    }
  }
}

=== FILE: rewrite.dfy ===
/** The first half of `glArgsToStringList` (webgl-capture.js lines 756-808):
    before a call is encoded, the first array argument that has an array rule
    is cut down to the range the call passes, and the offset and length
    arguments the rule consumed are dropped from the recorded call. */
module Rewrite {
  import opened Base
  import opened Values
  import opened Descriptors

  /** `args[i]`: `undefined` past the end. */
  function Arg(args: seq<Value>, i: nat): Value
  {
    if i < |args| then args[i] else Undefined
  }

  /** `args.slice(0, -k)` for `k > 0`; the uniform-array rule returns `args`
      itself, which is `k = 0`. */
  function DropLast(args: seq<Value>, k: nat): (r: seq<Value>)
    ensures |r| == if |args| >= k then |args| - k else 0
    ensures r == args[..|r|]
  {
    if |args| >= k then args[..|args| - k] else []
  }

  /** What a rule closure returns: `[offset, length, newArgs]`. */
  datatype Cut = Cut(offset: Value, length: Value, args: seq<Value>)

  /** Runs the closure of `rule` on the call's arguments. Uniform rules use
      `count * 4` as the length; the others read it from an argument. */
  function ApplyRule(rule: ArrayRule, args: seq<Value>): (c: Cut)
    ensures c.args == DropLast(args, rule.Dropped())
    ensures rule.UniformArray? ==> c.offset == Num(0)
    ensures !rule.UniformArray? ==> c.offset == Arg(args, rule.offsetAt)
    ensures (rule.TypedWithOffset? || rule.SourceWithOffset?) ==> c.length == Undefined
    ensures (rule.UniformArray? || rule.UniformWithOffset? || rule.UniformWithOffsetAndLength?) ==>
      c.length == Num(rule.count * 4)
    ensures (rule.TypedWithOffsetAndLength? || rule.SourceWithOffsetAndLength?) ==>
      c.length == Arg(args, rule.lengthAt)
  {
    match rule
    case UniformArray(count) => Cut(Num(0), Num(count * 4), args)
    case UniformWithOffset(o, count) => Cut(Arg(args, o), Num(count * 4), DropLast(args, 1))
    case UniformWithOffsetAndLength(o, count) => Cut(Arg(args, o), Num(count * 4), DropLast(args, 2))
    case TypedWithOffset(o) => Cut(Arg(args, o), Undefined, DropLast(args, 1))
    case TypedWithOffsetAndLength(o, l) => Cut(Arg(args, o), Arg(args, l), DropLast(args, 2))
    case SourceWithOffset(o) => Cut(Arg(args, o), Undefined, DropLast(args, 1))
    case SourceWithOffsetAndLength(o, l) => Cut(Arg(args, o), Arg(args, l), DropLast(args, 2))
  }

  /** `ToIntegerOrInfinity` as `slice` applies it: `NaN` is 0. */
  function Integer(n: Numeric): int
  {
    if n.Finite? then n.n else 0
  }

  /** `value.slice(offset, offset + length)` (or `value.slice(offset)`
      without a length) on an `ArrayBuffer`, done only when `offset` is
      truthy. */
  function CutBuffer(bytes: seq<byte>, c: Cut): seq<byte>
  {
    if !Truthy(c.offset) then bytes
    else if Truthy(c.length) then
      Slice(bytes, Integer(ToNumeric(c.offset)), Some(Integer(Add(ToNumeric(c.offset), ToNumeric(c.length)))))
    else Slice(bytes, Integer(ToNumeric(c.offset)), None)
  }

  lemma WholeElements(len: nat, b: nat)
    requires b > 0
    ensures (len / b) * b <= len
  {
  }

  /** `slice(start, end)` on a typed array: whole elements, as bytes. */
  function SliceElements(kind: TypedKind, bytes: seq<byte>, start: int, end: Option<int>): (r: seq<byte>)
    ensures |r| % kind.BytesPerElement() == 0
  {
    var b := kind.BytesPerElement();
    var n := |bytes| / b;
    WholeElements(|bytes|, b);
    var (from, to) := SliceRange(n, start, end);
    ElementBytes(from, to, n, b);
    bytes[from * b..to * b]
  }

  /** The byte range of the elements `from..to` of an array of `n`
      elements of `b` bytes: a whole number of elements, inside the array. */
  lemma ElementBytes(from: nat, to: nat, n: nat, b: nat)
    requires b > 0 && from <= to <= n
    ensures from * b <= to * b <= n * b
    ensures (to * b - from * b) % b == 0
  {
    MulMono(from, to, b);
    MulMono(to, n, b);
    assert to * b - from * b == (to - from) * b;
    MultipleMod(to - from, b);
  }

  lemma MultipleMod(k: nat, b: nat)
    requires b > 0
    ensures (k * b) % b == 0
  {
    var q, m := (k * b) / b, (k * b) % b;
    assert k * b == q * b + m;
    if q < k {
      MulMono(q + 1, k, b);
    } else if q > k {
      MulMono(k + 1, q, b);
    }
  }

  /** `value.slice(offset / b, offset / b + length / b)` (or
      `value.slice(offset / b)`) on a typed array with `b` bytes per
      element, done only when `offset` is truthy. The offset and length are
      divided by the element size, so they are taken to count bytes. */
  function CutTyped(kind: TypedKind, bytes: seq<byte>, c: Cut): seq<byte>
  {
    var b := kind.BytesPerElement();
    if !Truthy(c.offset) then bytes
    else if Truthy(c.length) then
      SliceElements(kind, bytes, TruncDiv(ToNumeric(c.offset), b),
        Some(TruncDiv(Add(ToNumeric(c.offset), ToNumeric(c.length)), b)))
    else SliceElements(kind, bytes, TruncDiv(ToNumeric(c.offset), b), None)
  }

  /** An argument the rewrite acts on: an `ArrayBuffer` or a typed array. */
  predicate Eligible(v: Value)
  {
    v.Buffer? || v.Typed?
  }

  /** The first argument position, from `from` on, that has an array rule
      and holds an eligible value. */
  function FirstEligible(d: Option<Descriptor>, args: seq<Value>, from: nat): (r: Option<nat>)
    decreases |args| - from
    ensures r.Some? ==> from <= r.value < |args| && ArrayRuleAt(d, r.value).Some? && Eligible(args[r.value])
    ensures r.Some? ==> forall j :: from <= j < r.value ==> !(ArrayRuleAt(d, j).Some? && Eligible(args[j]))
    ensures r.None? ==> forall j :: from <= j < |args| ==> !(ArrayRuleAt(d, j).Some? && Eligible(args[j]))
  {
    if from >= |args| then None
    else if ArrayRuleAt(d, from).Some? && Eligible(args[from]) then Some(from)
    else FirstEligible(d, args, from + 1)
  }

  /** `args[i] = v` on a JavaScript array: writing past the end leaves holes
      that read as `undefined`. */
  function SetIndex(s: seq<Value>, i: nat, v: Value): (r: seq<Value>)
    ensures |r| == if i < |s| then |s| else i + 1
    ensures r[i] == v
    ensures forall j :: 0 <= j < |r| && j != i ==> r[j] == Arg(s, j)
  {
    if i < |s| then s[i := v] else s + seq(i - |s|, _ => Undefined) + [v]
  }

  /** The value that replaces an eligible argument. */
  function CutValue(v: Value, c: Cut): (r: Value)
    requires Eligible(v)
    ensures r.Buffer? == v.Buffer?
    ensures v.Typed? ==> r.Typed? && r.kind == v.kind
  {
    if v.Buffer? then Buffer(CutBuffer(v.bytes, c)) else Typed(v.kind, CutTyped(v.kind, v.bytes, c))
  }

  /** The argument list that gets encoded for a call of `name`. */
  function RewriteArgs(name: string, args: seq<Value>): seq<Value>
  {
    var d := Lookup(name, |args|);
    var i := FirstEligible(d, args, 0);
    if i.None? then args
    else
      var c := ApplyRule(d.value.arrays[i.value], args);
      SetIndex(c.args, i.value, CutValue(args[i.value], c))
  }

  /** A call with no eligible array argument is encoded as made; otherwise
      exactly one argument (the first eligible one) is replaced, the rule's
      trailing arguments are dropped, and every other argument keeps its
      position and value. */
  lemma RewriteChangesOneArgument(name: string, args: seq<Value>)
    ensures var d := Lookup(name, |args|);
      var i := FirstEligible(d, args, 0);
      var r := RewriteArgs(name, args);
      && (i.None? ==> r == args)
      && (i.Some? ==>
            var k := d.value.arrays[i.value].Dropped();
            && |r| == (if i.value + k < |args| then |args| - k else i.value + 1)
            && r[i.value] == CutValue(args[i.value], ApplyRule(d.value.arrays[i.value], args))
            && (forall j :: 0 <= j < |r| && j != i.value ==>
                  r[j] == (if j < |args| - k then args[j] else Undefined)))
  {
  }

  /** With a positive offset and length inside the buffer, the recorded
      buffer is exactly the bytes the call passes. */
  lemma CutBufferExact(bytes: seq<byte>, offset: nat, length: nat, rest: seq<Value>)
    requires 0 < offset && 0 < length && offset + length <= |bytes|
    ensures CutBuffer(bytes, Cut(Num(offset), Num(length), rest)) == bytes[offset..offset + length]
  {
  }

  /** Without a length, the recorded buffer runs from the offset to the
      end. */
  lemma CutBufferTail(bytes: seq<byte>, offset: nat, rest: seq<Value>)
    requires 0 < offset <= |bytes|
    ensures CutBuffer(bytes, Cut(Num(offset), Undefined, rest)) == bytes[offset..]
  {
  }

  /** A zero or missing offset leaves the array whole. */
  lemma NoOffsetNoCut(v: Value, c: Cut)
    requires Eligible(v) && !Truthy(c.offset)
    ensures CutValue(v, c) == v
  {
  }

  /** On a typed array the offset and length are read as byte counts: the
      kept elements run from `offset / b` to `(offset + length) / b`. */
  lemma CutTypedInBytes(kind: TypedKind, bytes: seq<byte>, offset: nat, length: nat, rest: seq<Value>)
    requires 0 < offset && 0 < length
    requires offset + length <= |bytes|
    ensures var b := kind.BytesPerElement();
      var lo, hi := (offset / b) * b, ((offset + length) / b) * b;
      && lo <= hi <= |bytes|
      && CutTyped(kind, bytes, Cut(Num(offset), Num(length), rest)) == bytes[lo..hi]
  {
    var b := kind.BytesPerElement();
    var x, y := offset / b, (offset + length) / b;
    CutTypedOfNats(kind, bytes, offset, length, rest);
    DivMono(offset, offset + length, b);
    DivMono(offset + length, |bytes|, b);
    SliceWholeElements(kind, bytes, x, y);
  }

  /** Positive byte counts are truncated to element indices. */
  lemma CutTypedOfNats(kind: TypedKind, bytes: seq<byte>, offset: nat, length: nat, rest: seq<Value>)
    requires 0 < offset && 0 < length
    ensures var b := kind.BytesPerElement();
      CutTyped(kind, bytes, Cut(Num(offset), Num(length), rest))
        == SliceElements(kind, bytes, offset / b, Some((offset + length) / b))
  {
    var b := kind.BytesPerElement();
    var c := Cut(Num(offset), Num(length), rest);
    assert Truthy(c.offset) && Truthy(c.length);
    assert Add(ToNumeric(c.offset), ToNumeric(c.length)) == Finite(offset + length);
    assert TruncDiv(ToNumeric(c.offset), b) == offset / b by {
      TruncDivOfNat(offset, b);
    }
    assert TruncDiv(Finite(offset + length), b) == (offset + length) / b by {
      TruncDivOfNat(offset + length, b);
    }
  }

  /** Elements `x..y`, inside the array, are its bytes `x * b..y * b`. */
  lemma SliceWholeElements(kind: TypedKind, bytes: seq<byte>, x: nat, y: nat)
    requires x <= y <= |bytes| / kind.BytesPerElement()
    ensures var b := kind.BytesPerElement();
      && x * b <= y * b <= |bytes|
      && SliceElements(kind, bytes, x, Some(y)) == bytes[x * b..y * b]
  {
    var b := kind.BytesPerElement();
    var n := |bytes| / b;
    MulMono(x, y, b);
    MulMono(y, n, b);
    WholeElements(|bytes|, b);
    assert SliceRange(n, x, Some(y)) == (x, y);
  }

  lemma DivMono(x: nat, y: nat, b: nat)
    requires b > 0 && x <= y
    ensures x / b <= y / b
  {
    var qx, qy := x / b, y / b;
    assert x == qx * b + x % b && y == qy * b + y % b;
    if qx > qy {
      MulMono(qy + 1, qx, b);
    }
  }

  lemma MulMono(x: nat, y: nat, b: nat)
    requires x <= y
    ensures x * b <= y * b
  {
  }
}

=== FILE: session.dfy ===
/** The `Capture` class (webgl-capture.js lines 1328-1392), the broadcasts
    over all captured contexts (lines 1435-1458), the `getContext` hook's
    decision (lines 1400-1423) and the frame countdown of `hydRaf`
    (lines 1479-1493). */
module Session {
  import opened Base
  import opened Values

  /** One entry of `capture.data`. Every entry is a thunk the generator
      calls; all but one kind return a fixed string. The link-time binding
      dump is the exception: it reads the program's attribute locations
      when the output is generated, not when it is recorded. */
  datatype Entry =
    | Code(text: string)
    | Debug(text: string)
    | Yield
    | LinkBindings(program: Value)

  /** The text of a fixed entry. */
  function EntryText(e: Entry): string
    requires !e.LinkBindings?
  {
    match e
    case Code(text) => text
    case Debug(text) => "// ** HAN_DEBUG_INFO ** " + text
    case Yield => "yield;"
  }

  /** The recording state of one context. */
  datatype Capture = Capture(capture: bool, lastIsYield: bool, data: seq<Entry>)

  /** A new `Capture`: not recording, nothing recorded. */
  const Initial := Capture(false, false, [])

  /** `addFn`: appends whatever it is given, recording or not. */
  function AddFn(c: Capture, e: Entry): (r: Capture)
    ensures r.data == c.data + [e]
    ensures r.capture == c.capture && r.lastIsYield == c.lastIsYield
  {
    c.(data := c.data + [e])
  }

  /** `addData`: one code line, only while recording. */
  function AddData(c: Capture, text: string): (r: Capture)
    ensures c.capture ==> r.data == c.data + [Code(text)] && !r.lastIsYield
    ensures !c.capture ==> r == c
    ensures r.capture == c.capture
  {
    if c.capture then AddFn(c.(lastIsYield := false), Code(text)) else c
  }

  /** `addDebugInfo`: one marked comment line, only while recording. */
  function AddDebugInfo(c: Capture, text: string): (r: Capture)
    ensures c.capture ==> r.data == c.data + [Debug(text)] && !r.lastIsYield
    ensures !c.capture ==> r == c
    ensures r.capture == c.capture
  {
    if c.capture then AddFn(c.(lastIsYield := false), Debug(text)) else c
  }

  /** `addYield`: a frame boundary, only while recording and only if the
      last line-producing entry was not already one. */
  function AddYield(c: Capture): (r: Capture)
    ensures c.capture && !c.lastIsYield ==> r.data == c.data + [Yield] && r.lastIsYield
    ensures !(c.capture && !c.lastIsYield) ==> r == c
    ensures r.capture == c.capture
  {
    if c.capture && !c.lastIsYield then AddFn(c.(lastIsYield := true), Yield) else c
  }

  function Begin(c: Capture): (r: Capture)
    ensures r.capture && r.data == c.data && r.lastIsYield == c.lastIsYield
  {
    c.(capture := true)
  }

  function End(c: Capture): (r: Capture)
    ensures !r.capture && r.data == c.data && r.lastIsYield == c.lastIsYield
  {
    c.(capture := false)
  }

  /** The last entry that is not a link-time binding dump (`addFn` is the
      only way those are added, and it leaves `lastIsYield` alone). */
  function LastLine(data: seq<Entry>): (r: Option<Entry>)
    ensures r.Some? ==> !r.value.LinkBindings?
  {
    if |data| == 0 then None
    else if data[|data| - 1].LinkBindings? then LastLine(data[..|data| - 1])
    else Some(data[|data| - 1])
  }

  /** No frame boundary follows another with only binding dumps between
      them. */
  predicate Separated(data: seq<Entry>)
  {
    |data| == 0 ||
    (Separated(data[..|data| - 1]) && (data[|data| - 1].Yield? ==> LastLine(data[..|data| - 1]) != Some(Yield)))
  }

  /** `lastIsYield` says exactly whether the last line-producing entry is a
      frame boundary. */
  predicate Valid(c: Capture)
  {
    (c.lastIsYield <==> LastLine(c.data) == Some(Yield)) && Separated(c.data)
  }

  lemma InitialValid()
    ensures Valid(Initial)
  {
  }

  lemma AppendLast(data: seq<Entry>, e: Entry)
    ensures (data + [e])[..|data|] == data
    ensures LastLine(data + [e]) == if e.LinkBindings? then LastLine(data) else Some(e)
  {
    assert (data + [e])[..|data|] == data;
  }

  /** Every operation keeps the flag in step with the data, so frame
      boundaries never pile up. */
  lemma AddDataValid(c: Capture, text: string)
    requires Valid(c)
    ensures Valid(AddData(c, text)) && Valid(AddDebugInfo(c, text))
  {
    AppendLast(c.data, Code(text));
    AppendLast(c.data, Debug(text));
  }

  lemma AddYieldValid(c: Capture)
    requires Valid(c)
    ensures Valid(AddYield(c))
  {
    AppendLast(c.data, Yield);
  }

  lemma AddBindingsValid(c: Capture, program: Value)
    requires Valid(c)
    ensures Valid(AddFn(c, LinkBindings(program)))
  {
    AppendLast(c.data, LinkBindings(program));
  }

  /** Two frame boundaries in a row record one. */
  lemma AddYieldIdempotent(c: Capture)
    ensures AddYield(AddYield(c)) == AddYield(c)
  {
  }

  /** Toggling the flag changes nothing else, and toggling it back restores
      the state. */
  lemma BeginEndOnlyToggle(c: Capture)
    ensures End(Begin(c)) == c.(capture := false)
    ensures !c.capture ==> End(Begin(c)) == c
    ensures c.capture ==> Begin(End(c)) == c
  {
  }

  // ---- All captured contexts ----

  /** What the `getContext` hook checks before it wraps a new context:
      the host returned a context, auto-capture is on, the type is a WebGL
      one, and the context has not been seen. */
  predicate Hooks(ctxReturned: bool, autoCapture: bool, contextType: string, known: bool)
  {
    ctxReturned && autoCapture && contextType in {"experimental-webgl", "webgl", "webgl2"} && !known
  }

  /** `glContexts` and the contexts' capture states, in insertion order,
      with `init`: a hooked context starts recording at once (the hook
      only fires while `autoCapture` is on). */
  function HookGetContext(contexts: seq<ObjId>, captures: seq<Capture>, ctx: Option<ObjId>, autoCapture: bool, contextType: string): (r: (seq<ObjId>, seq<Capture>))
    requires |contexts| == |captures|
    ensures |r.0| == |r.1|
    ensures Hooks(ctx.Some?, autoCapture, contextType, ctx.Some? && ctx.value in contexts)
      ==> r == (contexts + [ctx.value], captures + [Begin(Initial)])
    ensures !Hooks(ctx.Some?, autoCapture, contextType, ctx.Some? && ctx.value in contexts)
      ==> r == (contexts, captures)
  {
    if Hooks(ctx.Some?, autoCapture, contextType, ctx.Some? && ctx.value in contexts)
    then (contexts + [ctx.value], captures + [Begin(Initial)])
    else (contexts, captures)
  }

  /** A context is captured at most once. */
  lemma HookKeepsContextsDistinct(contexts: seq<ObjId>, captures: seq<Capture>, ctx: Option<ObjId>, autoCapture: bool, contextType: string)
    requires |contexts| == |captures| && NoDup(contexts)
    ensures NoDup(HookGetContext(contexts, captures, ctx, autoCapture, contextType).0)
  {
  }

  function Each(cs: seq<Capture>, op: Capture -> Capture): (r: seq<Capture>)
    ensures |r| == |cs|
    ensures forall i :: 0 <= i < |cs| ==> r[i] == op(cs[i])
  {
    seq(|cs|, i requires 0 <= i < |cs| => op(cs[i]))
  }

  function StartAll(cs: seq<Capture>): seq<Capture>
  {
    Each(cs, Begin)
  }

  function StopAll(cs: seq<Capture>): seq<Capture>
  {
    Each(cs, End)
  }

  function AddYieldAll(cs: seq<Capture>): seq<Capture>
  {
    Each(cs, AddYield)
  }

  function DebugInfoAll(cs: seq<Capture>, text: string): seq<Capture>
  {
    Each(cs, c => AddDebugInfo(c, text))
  }

  /** `allStopped`: no context, or none recording. */
  predicate AllStopped(cs: seq<Capture>)
  {
    |cs| == 0 || forall i :: 0 <= i < |cs| ==> !cs[i].capture
  }

  /** The capture flags alone. */
  function Flags(cs: seq<Capture>): (r: seq<bool>)
    ensures |r| == |cs|
    ensures forall i :: 0 <= i < |cs| ==> r[i] == cs[i].capture
  {
    seq(|cs|, i requires 0 <= i < |cs| => cs[i].capture)
  }

  /** Stopping all contexts stops them all; starting them makes every
      context record, so the set is stopped only if it is empty. Frame
      boundaries and debug comments leave every flag as it was. */
  lemma StopStartAll(cs: seq<Capture>, text: string)
    ensures AllStopped(StopAll(cs))
    ensures AllStopped(StartAll(cs)) <==> |cs| == 0
    ensures Flags(AddYieldAll(cs)) == Flags(cs) && Flags(DebugInfoAll(cs, text)) == Flags(cs)
  {
    if |cs| > 0 {
      assert StartAll(cs)[0].capture;
    }
  }

  /** One `hydRaf` frame: a frame boundary in every context, then the
      countdown. Reaching zero stops all contexts; a countdown at or below
      zero is off and stays where it is. */
  function RafStep(remain: int, cs: seq<Capture>): (r: (int, seq<Capture>))
    ensures |r.1| == |cs|
    ensures remain <= 0 ==> r == (remain, AddYieldAll(cs))
    ensures remain == 1 ==> r == (0, StopAll(AddYieldAll(cs)))
    ensures remain > 1 ==> r == (remain - 1, AddYieldAll(cs))
  {
    var cs' := AddYieldAll(cs);
    if remain > 0 then
      var remain' := remain - 1;
      if remain' == 0 then (remain', StopAll(cs')) else (remain', cs')
    else (remain, cs')
  }

  function RafSteps(k: nat, remain: int, cs: seq<Capture>): (int, seq<Capture>)
    decreases k
  {
    if k == 0 then (remain, cs)
    else
      var (remain', cs') := RafStep(remain, cs);
      RafSteps(k - 1, remain', cs')
  }

  /** With the countdown set to `n > 0` and no other event, the capture
      flags stay as they are for `n - 1` frames, and the `n`-th frame stops
      every context. */
  lemma {:induction false} Countdown(n: nat, k: nat, cs: seq<Capture>)
    requires 0 < k <= n
    ensures var (remain, cs') := RafSteps(k, n, cs);
      && remain == n - k
      && |cs'| == |cs|
      && (k < n ==> Flags(cs') == Flags(cs))
      && (k == n ==> AllStopped(cs'))
    decreases k
  {
    var (remain1, cs1) := RafStep(n, cs);
    StopStartAll(cs, "");
    if k > 1 {
      Countdown(n - 1, k - 1, cs1);
    }
  }

  /** A countdown at zero or below never stops anything. */
  lemma {:induction false} NoCountdown(remain: int, k: nat, cs: seq<Capture>)
    requires remain <= 0
    ensures RafSteps(k, remain, cs).0 == remain
    ensures Flags(RafSteps(k, remain, cs).1) == Flags(cs)
    decreases k
  {
    if k > 0 {
      StopStartAll(cs, "");
      NoCountdown(remain, k - 1, AddYieldAll(cs));
    }
  }
}

=== FILE: template.dfy ===
/** The template literals the generated page wraps shader sources in
    (webgl-capture.js line 955): what the page's parser reads back from a
    literal's body, the escaping the recorder applies, and an escaping that
    reads back exactly. */
module Template {
  import opened Base

  /** The characters a single-character escape `\c` stands for inside a
      template literal; `None` for the numeric escapes (`\x..`, `\u....`,
      `\0`-`\9`), which are either rejected by the parser or not decoded
      here, and for a backslash before a carriage return. A backslash
      before a line feed continues the line and stands for nothing. */
  function EscapeValue(c: char): Option<string>
  {
    if c == 'n' then Some("\n")
    else if c == 't' then Some("\t")
    else if c == 'r' then Some("\r")
    else if c == 'b' then Some("\U{8}")
    else if c == 'f' then Some("\U{C}")
    else if c == 'v' then Some("\U{B}")
    else if c == '\n' then Some("")
    else if c == 'x' || c == 'u' || ('0' <= c <= '9') || c == '\r' then None
    else Some([c])
  }

  /** The string value of a template literal whose body is `t`, or `None`
      when the body ends the literal early (an unescaped backtick), opens a
      substitution (`${`), ends in a lone backslash, or uses an escape
      `EscapeValue` does not decode. A raw carriage return, alone or before
      a line feed, reads as one line feed. */
  function ReadTemplate(t: string): (r: Option<string>)
    decreases |t|
  {
    if |t| == 0 then Some("")
    else if t[0] == '`' then None
    else if t[0] == '$' && |t| > 1 && t[1] == '{' then None
    else if t[0] == '\\' then
      if |t| == 1 then None
      else
        var e := EscapeValue(t[1]);
        var rest := ReadTemplate(t[2..]);
        if e.None? || rest.None? then None else Some(e.value + rest.value)
    else if t[0] == '\r' then
      var rest := ReadTemplate(if |t| > 1 && t[1] == '\n' then t[2..] else t[1..]);
      if rest.None? then None else Some("\n" + rest.value)
    else
      var rest := ReadTemplate(t[1..]);
      if rest.None? then None else Some([t[0]] + rest.value)
  }

  /** `s.replace(/`/g, '\\`')`: a backslash before every backtick, and
      nothing else escaped. */
  function EscapeBackticks(s: string): (r: string)
    ensures '`' !in s ==> r == s
  {
    if |s| == 0 then ""
    else (if s[0] == '`' then "\\`" else [s[0]]) + EscapeBackticks(s[1..])
  }

  /** A source the backtick-only escaping carries through unchanged: no
      backslash, no carriage return and no `${`. */
  predicate LiteralSafe(s: string)
  {
    forall j :: 0 <= j < |s| ==> s[j] != '\\' && s[j] != '\r' && (s[j] == '$' && j + 1 < |s| ==> s[j + 1] != '{')
  }

  /** Escaping only the backticks is enough for a source with none of the
      characters the parser would otherwise interpret. */
  lemma {:induction false} EscapeBackticksRoundTrip(s: string)
    requires LiteralSafe(s)
    ensures ReadTemplate(EscapeBackticks(s)) == Some(s)
    decreases |s|
  {
    if |s| > 0 {
      assert LiteralSafe(s[1..]) by {
        forall j | 0 <= j < |s[1..]| ensures s[1..][j] == s[j + 1] {}
      }
      EscapeBackticksRoundTrip(s[1..]);
      if |s| > 1 {
        FirstEscaped(s[1..]);
      }
      ReadKept(s[0], EscapeBackticks(s[1..]), s[1..]);
      assert [s[0]] + s[1..] == s;
    }
  }

  /** The first character of an escaped source. */
  lemma FirstEscaped(s: string)
    requires |s| > 0
    ensures |EscapeBackticks(s)| > 0 && EscapeBackticks(s)[0] == if s[0] == '`' then '\\' else s[0]
  {
  }

  /** One kept character in front of a body that reads back as `v`. */
  lemma ReadKept(c: char, e: string, v: string)
    requires ReadTemplate(e) == Some(v)
    requires c != '\\' && c != '\r'
    requires c == '$' && |e| > 0 ==> e[0] != '{'
    ensures ReadTemplate((if c == '`' then "\\`" else [c]) + e) == Some([c] + v)
  {
    if c == '`' {
      ReadEscapedBacktick(e, v);
    } else {
      ReadPlain(c, e, v);
    }
  }

  lemma ReadEscapedBacktick(e: string, v: string)
    requires ReadTemplate(e) == Some(v)
    ensures ReadTemplate("\\`" + e) == Some("`" + v)
  {
    var t := "\\`" + e;
    assert t[0] == '\\' && t[1] == '`' && t[2..] == e;
    assert EscapeValue('`') == Some("`");
  }

  lemma ReadPlain(c: char, e: string, v: string)
    requires ReadTemplate(e) == Some(v)
    requires c != '\\' && c != '\r' && c != '`'
    requires c == '$' && |e| > 0 ==> e[0] != '{'
    ensures ReadTemplate([c] + e) == Some([c] + v)
  {
    var t := [c] + e;
    assert t[0] == c && t[1..] == e;
    assert !(t[0] == '$' && |t| > 1 && t[1] == '{');
  }

  /** A shader source holding a backslash followed by `n` (in a comment,
      say) comes back from the page with a line feed in their place. */
  lemma BackticksOnlyAltersSource()
    ensures var s := "\\n";
      ReadTemplate(EscapeBackticks(s)) == Some("\n") && Some("\n") != Some(s)
  {
    var s := "\\n";
    assert EscapeBackticks(s) == s;
    assert s[2..] == "";
    assert ReadTemplate(s) == Some("\n" + "");
    assert "\n" + "" == "\n";
    assert "\n"[0] != s[0];
  }

  /** One character of a literal body: backslash, backtick, dollar sign
      and carriage return are escaped, everything else is kept. */
  function EscapeChar(c: char): (r: string)
    ensures |r| >= 1
    ensures c !in "\\`$\r" ==> r == [c]
  {
    if c == '\\' then "\\\\"
    else if c == '`' then "\\`"
    else if c == '$' then "\\$"
    else if c == '\r' then "\\r"
    else [c]
  }

  /** The escaping the generated page needs: every character escaped with
      `EscapeChar`. */
  function EscapeTemplate(s: string): (r: string)
    ensures |r| >= |s|
  {
    if |s| == 0 then "" else EscapeChar(s[0]) + EscapeTemplate(s[1..])
  }

  lemma ReadChar(c: char, rest: string)
    requires ReadTemplate(rest).Some?
    ensures ReadTemplate(EscapeChar(c) + rest) == Some([c] + ReadTemplate(rest).value)
  {
    var t := EscapeChar(c) + rest;
    var v := ReadTemplate(rest).value;
    if c == '\\' || c == '`' || c == '$' || c == '\r' {
      assert t[0] == '\\' && t[2..] == rest;
      assert EscapeValue(t[1]) == Some([c]);
    } else {
      assert t[0] == c && t[1..] == rest;
    }
  }

  /** Reading back an escaped source gives exactly the source. */
  lemma {:induction false} EscapeTemplateRoundTrip(s: string)
    ensures ReadTemplate(EscapeTemplate(s)) == Some(s)
    decreases |s|
  {
    if |s| > 0 {
      EscapeTemplateRoundTrip(s[1..]);
      ReadChar(s[0], EscapeTemplate(s[1..]));
      assert [s[0]] + s[1..] == s;
    }
  }
}

=== FILE: tracker.dfy ===
/** The per-context recorder `HydWebGLWrapper` (webgl-capture.js lines
    879-899 and 1031-1252): the handlers that replace plain forwarding for
    resource creation, shader sources, programs, uniforms, attributes and
    syncs. Each handler is a function from the recorder state, the call and
    what the host would answer to the new state, the host calls made, and
    what the caller sees (a value, or a thrown `TypeError`). */
module Tracker {
  import opened Base
  import opened Values
  import opened Session
  import Enums
  import Encoder
  import Rewrite

  /** One `ids[kind]` counter; the list keeps the kinds in the order they
      were first used, as `Object.keys(this.ids)` lists them. */
  datatype Counter = Counter(kind: string, next: nat)

  /** The id the next resource of `kind` gets: 0 for a kind never seen. */
  function NextId(ids: seq<Counter>, kind: string): nat
  {
    if |ids| == 0 then 0
    else if ids[0].kind == kind then ids[0].next
    else NextId(ids[1..], kind)
  }

  function Kinds(ids: seq<Counter>): (r: seq<string>)
    ensures |r| == |ids|
    ensures forall i :: 0 <= i < |ids| ==> r[i] == ids[i].kind
  {
    seq(|ids|, i requires 0 <= i < |ids| => ids[i].kind)
  }

  /** `ids[kind]++`, creating the counter at 0 first if needed. */
  function Bump(ids: seq<Counter>, kind: string): (r: seq<Counter>)
    ensures NextId(r, kind) == NextId(ids, kind) + 1
    ensures forall k :: k != kind ==> NextId(r, k) == NextId(ids, k)
    ensures kind in Kinds(ids) ==> Kinds(r) == Kinds(ids)
    ensures kind !in Kinds(ids) ==> Kinds(r) == Kinds(ids) + [kind]
  {
    if |ids| == 0 then [Counter(kind, 1)]
    else
      ConsCounter(ids[0], ids[1..]);
      assert [ids[0]] + ids[1..] == ids;
      if ids[0].kind == kind then
        var c := ids[0].(next := ids[0].next + 1);
        ConsCounter(c, ids[1..]);
        [c] + ids[1..]
      else
        var rest := Bump(ids[1..], kind);
        ConsCounter(ids[0], rest);
        [ids[0]] + rest
  }

  /** Lookups and kinds of a list with one more counter in front. */
  lemma ConsCounter(c: Counter, rest: seq<Counter>)
    ensures forall k :: NextId([c] + rest, k) == if c.kind == k then c.next else NextId(rest, k)
    ensures Kinds([c] + rest) == [c.kind] + Kinds(rest)
  {
    assert ([c] + rest)[1..] == rest;
  }

  /** A cached extension object under its lower-cased name. */
  datatype Extension = Extension(name: string, obj: Value)

  function FindExtension(exts: seq<Extension>, name: string): (r: Option<Value>)
    ensures r.Some? <==> exists i :: 0 <= i < |exts| && exts[i].name == name
  {
    if |exts| == 0 then None
    else if exts[0].name == name then Some(exts[0].obj)
    else FindExtension(exts[1..], name)
  }

  /** The state one recorder keeps: the enum tables (shared by all wrapped
      objects), the encoder tables, the capture tags attached to host
      objects, the per-kind counters, the interned shader sources (the
      lookup key is the source's string form; the list keeps the value as
      passed), the current program, the cached extensions and the
      recording session. */
  datatype Context = Context(
    env: Enums.Env,
    tables: Encoder.Tables,
    infos: map<ObjId, Info>,
    ids: seq<Counter>,
    shaderKeys: seq<string>,
    shaderSources: seq<Value>,
    currentProgram: Value,
    extensions: seq<Extension>,
    cap: Capture)

  /** The constructor: wrapping the context registers its constants under
      `gl`; everything else starts empty. The framebuffer the constructor
      creates on the unwrapped context is never tagged or recorded. */
  function NewContext(env: Enums.Env, constants: seq<Enums.Constant>): (r: Context)
    ensures r.env == Enums.WrapObject(env, "gl", constants)
    ensures r.cap == Initial && r.infos == map[] && r.ids == []
  {
    Context(Enums.WrapObject(env, "gl", constants), Encoder.EmptyTables, map[], [], [], [], Null, [], Initial)
  }

  /** A call the recorder makes on the real context. */
  datatype HostCall = HostCall(name: string, args: seq<Value>)

  /** What the page sees: a returned value or a thrown error. */
  datatype Outcome = Returned(v: Value) | Threw

  datatype Reply = Reply(ctx: Context, calls: seq<HostCall>, outcome: Outcome)

  /** The change a handler may make to the session: none while not
      recording, and at most one appended code line while recording. */
  predicate AtMostOneLine(c: Capture, d: Capture)
  {
    && d.capture == c.capture
    && (!c.capture ==> d == c)
    && (d == c ||
        (&& |d.data| == |c.data| + 1
         && d.data[..|c.data|] == c.data
         && d.data[|c.data|].Code?
         && !d.lastIsYield))
  }

  /** `this.capturer.addData(line)`. */
  function Record(ctx: Context, line: string): (r: Context)
    ensures r == ctx.(cap := AddData(ctx.cap, line))
    ensures AtMostOneLine(ctx.cap, r.cap)
  {
    ctx.(cap := AddData(ctx.cap, line))
  }

  /** `glArgsToString(this.ctx, name, args, this)` on the recorder's
      tables. */
  function ArgsText(ctx: Context, name: string, args: seq<Value>): (r: (string, Encoder.Tables))
    ensures Encoder.Grows(ctx.tables, r.1)
  {
    Encoder.ArgsText(ctx.env, ctx.infos, name, args, ctx.tables)
  }

  /** `glEnums[key]`: the table only has canonical integer keys, so a key
      names an enum only if its string form is one. */
  function EnumAt(env: Enums.Env, key: Value): (r: Option<string>)
    ensures key.Num? ==> r == Enums.EnumName(env, key.n)
  {
    var s := Text(key);
    var n := ParseInt(s);
    if key.Num? then IntToStringRoundTrip(key.n); Enums.EnumName(env, key.n)
    else if n.Some? && IntToString(n.value) == s then Enums.EnumName(env, n.value)
    else None
  }

  /** Tags a fresh resource of `kind` returned by the host: the counter
      advances first, and a host answer that is not an object cannot be
      tagged (a `TypeError`). */
  function Tag(ctx: Context, kind: string, host: Value): (r: (Context, Option<string>))
    ensures r.0.ids == Bump(ctx.ids, kind)
    ensures host.Handle? ==>
      && r.1 == Some(TagName(ResourceTag(kind, NextId(ctx.ids, kind))))
      && r.0.infos == ctx.infos[host.obj := Fresh(ResourceTag(kind, NextId(ctx.ids, kind)))]
    ensures !host.Handle? ==> r.1.None? && r.0.infos == ctx.infos
  {
    var id := NextId(ctx.ids, kind);
    var ctx1 := ctx.(ids := Bump(ctx.ids, kind));
    if host.Handle? then
      var tag := ResourceTag(kind, id);
      (ctx1.(infos := ctx1.infos[host.obj := Fresh(tag)]), Some(TagName(tag)))
    else (ctx1, None)
  }

  /** `handle_create` (lines 1190-1204): the kind is the name after
      `create`, lower-cased. The host is called first; the call is encoded
      even when not recording. */
  function Create(ctx: Context, name: string, args: seq<Value>, host: Value): (r: Reply)
    ensures AtMostOneLine(ctx.cap, r.ctx.cap)
    ensures r.calls == [HostCall(name, args)]
    ensures r.ctx.ids == Bump(ctx.ids, Lower(Substring(name, 6)))
    ensures r.outcome == (if host.Handle? then Returned(host) else Threw)
    ensures r.ctx.infos == Tag(ctx, Lower(Substring(name, 6)), host).0.infos
    ensures ctx.cap.capture && host.Handle? ==>
      var tag := ResourceTag(Lower(Substring(name, 6)), NextId(ctx.ids, Lower(Substring(name, 6))));
      r.ctx.cap.data == ctx.cap.data
        + [Code(TagName(tag) + " = gl." + name + "(" + Encoder.ArgsText(ctx.env, ctx.infos[host.obj := Fresh(tag)], name, args, ctx.tables).0 + ");")]
    ensures !ctx.cap.capture || !host.Handle? ==> r.ctx.cap == ctx.cap
  {
    var kind := Lower(Substring(name, 6));
    var (ctx1, rn) := Tag(ctx, kind, host);
    if rn.None? then Reply(ctx1, [HostCall(name, args)], Threw)
    else
      var (text, tables) := ArgsText(ctx1, name, args);
      Reply(Record(ctx1.(tables := tables), rn.value + " = gl." + name + "(" + text + ");"),
        [HostCall(name, args)], Returned(host))
  }

  /** `handle_fenceSync` (lines 1155-1171): like creation, with kind
      `sync`; the condition is shown by its enum name and the flags as
      given. */
  function FenceSync(ctx: Context, name: string, args: seq<Value>, host: Value): (r: Reply)
    ensures AtMostOneLine(ctx.cap, r.ctx.cap)
    ensures r.calls == [HostCall(name, args)]
    ensures r.ctx.ids == Bump(ctx.ids, "sync")
    ensures r.ctx.infos == Tag(ctx, "sync", host).0.infos
    ensures r.outcome == (if host.Handle? then Returned(host) else Threw)
    ensures ctx.cap.capture && host.Handle? ==>
      r.ctx.cap.data == ctx.cap.data
        + [Code(TagName(ResourceTag("sync", NextId(ctx.ids, "sync"))) + " = gl." + name + "("
                + TemplateText(EnumAt(ctx.env, Rewrite.Arg(args, 0))) + ", " + Text(Rewrite.Arg(args, 1)) + ");")]
    ensures !ctx.cap.capture || !host.Handle? ==> r.ctx.cap == ctx.cap
  {
    var condition := EnumAt(ctx.env, Rewrite.Arg(args, 0));
    var flags := Rewrite.Arg(args, 1);
    var (ctx1, rn) := Tag(ctx, "sync", host);
    if rn.None? then Reply(ctx1, [HostCall(name, args)], Threw)
    else
      Reply(Record(ctx1, rn.value + " = gl." + name + "(" + TemplateText(condition) + ", " + Text(flags) + ");"),
        [HostCall(name, args)], Returned(host))
  }

  /** `handle_shaderSource` (lines 1067-1080): the source is interned by
      its string form, then the call is recorded against the slot; naming
      an untagged shader throws after the interning. */
  function ShaderSource(ctx: Context, name: string, args: seq<Value>): (r: Reply)
    ensures r.calls == [] || r.calls == [HostCall(name, args)]
    ensures AtMostOneLine(ctx.cap, r.ctx.cap)
    ensures var rn := ResourceName(ctx.infos, Rewrite.Arg(args, 0));
      && (rn.None? ==> r.calls == [] && r.outcome == Threw && r.ctx.cap == ctx.cap)
      && (rn.Some? ==> r.calls == [HostCall(name, args)] && r.outcome == Returned(Undefined))
  {
    var source := Rewrite.Arg(args, 1);
    var key := Text(source);
    var (slot, keys) := Encoder.Intern(ctx.shaderKeys, key);
    var ctx1 := ctx.(shaderKeys := keys,
                     shaderSources := if key in ctx.shaderKeys then ctx.shaderSources else ctx.shaderSources + [source]);
    var rn := ResourceName(ctx1.infos, Rewrite.Arg(args, 0));
    if rn.None? then Reply(ctx1, [], Threw)
    else
      Reply(Record(ctx1, "gl." + name + "(" + rn.value + ", " + Encoder.Slot("shaderSources", slot) + ");"),
        [HostCall(name, args)], Returned(Undefined))
  }

  /** `handle_useProgram` (lines 1082-1086): the program becomes current
      before it is named, so a truthy untagged program is current even
      though the call throws, before the host is called. */
  function UseProgram(ctx: Context, name: string, args: seq<Value>): (r: Reply)
    ensures r.calls == [] || r.calls == [HostCall(name, args)]
    ensures AtMostOneLine(ctx.cap, r.ctx.cap)
    ensures r.ctx.currentProgram == Rewrite.Arg(args, 0)
    ensures r.ctx.infos == ctx.infos
    ensures var rn := ResourceName(ctx.infos, Rewrite.Arg(args, 0));
      && (rn.None? ==> r.calls == [] && r.outcome == Threw && r.ctx.cap == ctx.cap)
      && (rn.Some? ==> r.calls == [HostCall(name, args)] && r.outcome == Returned(Undefined))
      && (rn.Some? && ctx.cap.capture ==> r.ctx.cap.data == ctx.cap.data + [Code("gl." + name + "(" + rn.value + ");")])
      && (!ctx.cap.capture ==> r.ctx.cap == ctx.cap)
  {
    var program := Rewrite.Arg(args, 0);
    var ctx1 := ctx.(currentProgram := program);
    var rn := ResourceName(ctx1.infos, program);
    if rn.None? then Reply(ctx1, [], Threw)
    else Reply(Record(ctx1, "gl." + name + "(" + rn.value + ");"), [HostCall(name, args)], Returned(Undefined))
  }

  /** The program argument's capture info; any other value makes the
      source read a field of `undefined` or `null`. */
  predicate Tagged(ctx: Context, v: Value)
  {
    v.Handle? && v.obj in ctx.infos
  }

  /** `handle_getUniformLocation` (lines 1088-1107). The cache test looks
      up the handler's own name (`getUniformLocation`) among the uniform
      names, so in practice the host is asked every time. A falsy answer
      returns `null` and caches nothing; an object answer is tagged with
      the uniform name and cached under it. Nothing is recorded. */
  function GetUniformLocation(ctx: Context, name: string, args: seq<Value>, host: Value): (r: Reply)
    ensures |r.calls| <= 1
    ensures AtMostOneLine(ctx.cap, r.ctx.cap)
    ensures !Tagged(ctx, Rewrite.Arg(args, 0)) ==> r == Reply(ctx, [], Threw)
    ensures r.ctx.cap == ctx.cap && r.ctx.tables == ctx.tables
  {
    var program := Rewrite.Arg(args, 0);
    var uniformName := Text(Rewrite.Arg(args, 1));
    if !Tagged(ctx, program) then Reply(ctx, [], Threw)
    else
      var info := ctx.infos[program.obj];
      if name in info.uniforms then
        Reply(ctx, [], Returned(if uniformName in info.uniforms then Handle(info.uniforms[uniformName]) else Undefined))
      else
        var calls := [HostCall("getUniformLocation", [program, Rewrite.Arg(args, 1)])];
        if !Truthy(host) then Reply(ctx, calls, Returned(Null))
        else if !host.Handle? then Reply(ctx, calls, Threw)
        else
          var infos1 := ctx.infos[host.obj := Fresh(LocationTag(uniformName))];
          var infos2 := if host.obj == program.obj then infos1
                        else infos1[program.obj := info.(uniforms := info.uniforms[uniformName := host.obj])];
          Reply(ctx.(infos := infos2), calls, Returned(host))
  }

  /** `location < 0` for the host's answer. */
  predicate Negative(v: Value)
  {
    var n := ToNumeric(v);
    n.Finite? && n.n < 0
  }

  /** The location an attribute name was stored with. */
  function FindBinding(bs: seq<Binding>, name: string): (r: Option<Value>)
    ensures r.Some? <==> exists i :: 0 <= i < |bs| && bs[i].name == name
  {
    if |bs| == 0 then None
    else if bs[0].name == name then Some(bs[0].location)
    else FindBinding(bs[1..], name)
  }

  /** `attribsByName[name] = location` on a plain object: an existing key
      keeps its place, a new one goes last. */
  function PutBinding(bs: seq<Binding>, name: string, location: Value): (r: seq<Binding>)
    ensures FindBinding(r, name) == Some(location)
    ensures forall n :: n != name ==> FindBinding(r, n) == FindBinding(bs, n)
    ensures FindBinding(bs, name).Some? ==> |r| == |bs|
    ensures FindBinding(bs, name).None? ==> r == bs + [Binding(name, location)]
  {
    if |bs| == 0 then [Binding(name, location)]
    else if bs[0].name == name then [Binding(name, location)] + bs[1..]
    else [bs[0]] + PutBinding(bs[1..], name, location)
  }

  /** `handle_getAttribLocation` (lines 1109-1126): the cache test again
      uses the handler's name. A negative answer is returned and not
      stored; any other is stored under the attribute name and returned.
      Nothing is recorded. */
  function GetAttribLocation(ctx: Context, name: string, args: seq<Value>, host: Value): (r: Reply)
    ensures |r.calls| <= 1
    ensures AtMostOneLine(ctx.cap, r.ctx.cap)
    ensures !Tagged(ctx, Rewrite.Arg(args, 0)) ==> r == Reply(ctx, [], Threw)
    ensures r.ctx.cap == ctx.cap && r.ctx.tables == ctx.tables
  {
    var program := Rewrite.Arg(args, 0);
    var attribName := Text(Rewrite.Arg(args, 1));
    if !Tagged(ctx, program) then Reply(ctx, [], Threw)
    else
      var info := ctx.infos[program.obj];
      var cached := FindBinding(info.attribs, name);
      if cached.Some? && Truthy(cached.value) then
        var found := FindBinding(info.attribs, attribName);
        Reply(ctx, [], Returned(if found.Some? then found.value else Undefined))
      else
        var calls := [HostCall("getAttribLocation", [program, Rewrite.Arg(args, 1)])];
        if Negative(host) then Reply(ctx, calls, Returned(host))
        else
          var info' := info.(attribs := PutBinding(info.attribs, attribName, host));
          Reply(ctx.(infos := ctx.infos[program.obj := info']), calls, Returned(host))
  }

  function BindingLine(programName: string, b: Binding): string
  {
    "gl.bindAttribLocation(" + programName + ", " + Text(b.location) + ", \"" + b.name + "\");"
  }

  /** `dumpAttribBindings(program)` (lines 1128-1137): one
      `bindAttribLocation` line per stored attribute, in insertion order.
      `null` and `undefined` have no fields to read (a `TypeError`, `None`);
      other untagged values give the empty string. */
  function DumpAttribBindings(infos: map<ObjId, Info>, program: Value): (r: Option<string>)
    ensures r.None? <==> program.Null? || program.Undefined?
    ensures r.Some? && program.Handle? && program.obj in infos ==>
      var bs := infos[program.obj].attribs;
      r.value == Join(seq(|bs|, i requires 0 <= i < |bs| => BindingLine(TagName(infos[program.obj].tag), bs[i])), "\n")
    ensures !(program.Handle? && program.obj in infos) && r.Some? ==> r.value == ""
  {
    if program.Null? || program.Undefined? then None
    else if !(program.Handle? && program.obj in infos) then Some("")
    else
      var info := infos[program.obj];
      var bs := info.attribs;
      Some(Join(seq(|bs|, i requires 0 <= i < |bs| => BindingLine(TagName(info.tag), bs[i])), "\n"))
  }

  /** `handle_bindAttribLocation` (lines 1139-1142): forwarded, never
      recorded (all bindings are emitted at link time instead). */
  function BindAttribLocation(ctx: Context, name: string, args: seq<Value>): (r: Reply)
    ensures AtMostOneLine(ctx.cap, r.ctx.cap)
    ensures r == Reply(ctx, [HostCall(name, args)], Returned(Undefined))
  {
    Reply(ctx, [HostCall(name, args)], Returned(Undefined))
  }

  /** `handle_linkProgram` (lines 1144-1153): the binding dump is queued
      with the ungated `addFn`, before the program is named, so it is
      queued even when not recording or when naming the program throws. */
  function LinkProgram(ctx: Context, name: string, args: seq<Value>): (r: Reply)
    ensures r.calls == [] || r.calls == [HostCall(name, args)]
    ensures |r.ctx.cap.data| > |ctx.cap.data| && r.ctx.cap.data[..|ctx.cap.data|] == ctx.cap.data
    ensures r.ctx.cap.data[|ctx.cap.data|] == LinkBindings(Rewrite.Arg(args, 0))
    ensures r.ctx.cap.capture == ctx.cap.capture
    ensures !ctx.cap.capture ==> r.ctx.cap == AddFn(ctx.cap, LinkBindings(Rewrite.Arg(args, 0)))
  {
    var program := Rewrite.Arg(args, 0);
    var ctx1 := ctx.(cap := AddFn(ctx.cap, LinkBindings(program)));
    var rn := ResourceName(ctx1.infos, program);
    if rn.None? then Reply(ctx1, [], Threw)
    else Reply(Record(ctx1, "gl." + name + "(" + rn.value + ");"), [HostCall(name, args)], Returned(Undefined))
  }

  /** The `name` field of a uniform location's tag; resource tags have
      none. */
  function UniformName(t: Tag): string
  {
    if t.LocationTag? then t.name else "undefined"
  }

  /** What a recorded uniform call passes in place of the location: `null`
      as is, or a lookup by name on the current program. `None` where the
      source throws: an `undefined` or untagged location, or a current
      program that cannot be named. */
  function UniformTarget(ctx: Context, location: Value): (r: Option<string>)
    ensures location.Null? ==> r == Some("null")
    ensures !location.Null? && r.Some? ==> Tagged(ctx, location)
  {
    if location.Null? then Some("null")
    else
      var rn := ResourceName(ctx.infos, ctx.currentProgram);
      if location.Undefined? || rn.None? || !Tagged(ctx, location) then None
      else Some(LookupByName(rn.value, UniformName(ctx.infos[location.obj].tag)))
  }

  /** The replay expression that finds a uniform's location by name. */
  function LookupByName(programName: string, uniformName: string): string
  {
    "gl.getUniformLocation(" + programName + ",\"" + uniformName + "\")"
  }

  /** `handle_uniform` (lines 1173-1188): the arguments are always encoded;
      the location is replaced by a by-name lookup on the current program,
      so the replay does not depend on location objects. A `null` location
      is kept; an untagged one, or an unnamable current program, throws
      before the host is called. */
  function Uniform(ctx: Context, name: string, args: seq<Value>): (r: Reply)
    ensures r.calls == [] || r.calls == [HostCall(name, args)]
    ensures AtMostOneLine(ctx.cap, r.ctx.cap)
    ensures var target := UniformTarget(ctx, Rewrite.Arg(args, 0));
      && r.ctx.infos == ctx.infos && r.ctx.currentProgram == ctx.currentProgram
      && r.calls == (if target.Some? then [HostCall(name, args)] else [])
      && r.outcome == (if target.Some? then Returned(Undefined) else Threw)
      && (target.Some? && ctx.cap.capture ==>
            && |r.ctx.cap.data| == |ctx.cap.data| + 1
            && r.ctx.cap.data[..|ctx.cap.data|] == ctx.cap.data
            && r.ctx.cap.data[|ctx.cap.data|].Code?
            && StartsWith(r.ctx.cap.data[|ctx.cap.data|].text, "gl." + name + "(" + target.value + ","))
      && (target.None? || !ctx.cap.capture ==> r.ctx.cap == ctx.cap)
  {
    var target := UniformTarget(ctx, Rewrite.Arg(args, 0));
    var (texts, tables) := Encoder.EncodeArgs(ctx.env, ctx.infos, name, args, ctx.tables);
    var rest := JoinMaybe(if |texts| > 0 then texts[1..] else [], ",");
    UniformReply(ctx.(tables := tables), name, args, target, rest)
  }

  /** The reply of `handle_uniform` once the location is resolved and the
      other arguments are encoded as `rest`. */
  function UniformReply(ctx: Context, name: string, args: seq<Value>, target: Option<string>, rest: string): (r: Reply)
    ensures AtMostOneLine(ctx.cap, r.ctx.cap)
    ensures r.ctx.infos == ctx.infos && r.ctx.currentProgram == ctx.currentProgram
    ensures r.calls == (if target.Some? then [HostCall(name, args)] else [])
    ensures r.outcome == (if target.Some? then Returned(Undefined) else Threw)
    ensures target.Some? && ctx.cap.capture ==>
      && |r.ctx.cap.data| == |ctx.cap.data| + 1
      && r.ctx.cap.data[..|ctx.cap.data|] == ctx.cap.data
      && r.ctx.cap.data[|ctx.cap.data|].Code?
      && StartsWith(r.ctx.cap.data[|ctx.cap.data|].text, "gl." + name + "(" + target.value + ",")
    ensures target.None? || !ctx.cap.capture ==> r.ctx.cap == ctx.cap
  {
    if target.None? then Reply(ctx, [], Threw)
    else
      var head := "gl." + name + "(" + target.value + ",";
      var line := head + rest + ");";
      assert line[..|head|] == head;
      Reply(Record(ctx, line), [HostCall(name, args)], Returned(Undefined))
  }

  /** `handle_get` and `handle_skip` (lines 1243-1252): recorded as a
      comment, forwarded, and the host's answer returned. */
  function Commented(ctx: Context, name: string, args: seq<Value>, host: Value): (r: Reply)
    ensures AtMostOneLine(ctx.cap, r.ctx.cap)
    ensures r.calls == [HostCall(name, args)] && r.outcome == Returned(host)
    ensures ctx.cap.capture ==>
      && |r.ctx.cap.data| == |ctx.cap.data| + 1
      && r.ctx.cap.data[..|ctx.cap.data|] == ctx.cap.data
      && r.ctx.cap.data[|ctx.cap.data|].Code?
      && StartsWith(r.ctx.cap.data[|ctx.cap.data|].text, "// gl." + name + "(")
    ensures !ctx.cap.capture ==> r.ctx.cap == ctx.cap
  {
    var (text, tables) := ArgsText(ctx, name, args);
    var head := "// gl." + name + "(";
    var line := head + text + ");";
    assert line[..|head|] == head;
    Reply(Record(ctx.(tables := tables), line), [HostCall(name, args)], Returned(host))
  }

  /** `handle_getExtension` (lines 1031-1065): the name must be a string
      (`toLowerCase` of anything else throws); a truthy answer is cached
      under the lower-cased name, and wrapping it registers its constants
      under that name. What the wrapped extension then records is not
      modelled: the caller gets the host's object. */
  function GetExtension(ctx: Context, name: string, args: seq<Value>, host: Value, constants: seq<Enums.Constant>): (r: Reply)
    ensures r.calls == [] || r.calls == [HostCall(name, args)]
    ensures AtMostOneLine(ctx.cap, r.ctx.cap)
    ensures r.ctx.cap == ctx.cap
    ensures !Rewrite.Arg(args, 0).Str? ==> r == Reply(ctx, [], Threw)
    ensures Rewrite.Arg(args, 0).Str? ==>
      var extName := Lower(Rewrite.Arg(args, 0).s);
      var cached := FindExtension(ctx.extensions, extName);
      && (cached.Some? ==> r == Reply(ctx, [], Returned(cached.value)))
      && (cached.None? ==> r.calls == [HostCall(name, args)] && r.outcome == Returned(host))
      && (cached.None? && !Truthy(host) ==> r.ctx == ctx)
      && (cached.None? && Truthy(host) ==>
            && FindExtension(r.ctx.extensions, extName) == Some(host)
            && (forall n :: n != extName ==> FindExtension(r.ctx.extensions, n) == FindExtension(ctx.extensions, n))
            && r.ctx.env == Enums.WrapObject(ctx.env, extName, constants))
  {
    var arg := Rewrite.Arg(args, 0);
    if !arg.Str? then Reply(ctx, [], Threw)
    else
      var extName := Lower(arg.s);
      var cached := FindExtension(ctx.extensions, extName);
      if cached.Some? then Reply(ctx, [], Returned(cached.value))
      else if !Truthy(host) then Reply(ctx, [HostCall(name, args)], Returned(host))
      else
        FindExtensionAppend(ctx.extensions, Extension(extName, host));
        Reply(ctx.(env := Enums.WrapObject(ctx.env, extName, constants),
                   extensions := ctx.extensions + [Extension(extName, host)]),
          [HostCall(name, args)], Returned(host))
  }

  /** An extension cached last is found under its name, unless an earlier
      one has that name; every other name finds what it found before. */
  lemma {:induction false} FindExtensionAppend(exts: seq<Extension>, e: Extension)
    ensures FindExtension(exts, e.name).None? ==> FindExtension(exts + [e], e.name) == Some(e.obj)
    ensures forall n :: n != e.name ==> FindExtension(exts + [e], n) == FindExtension(exts, n)
  {
    if |exts| > 0 {
      FindExtensionAppend(exts[1..], e);
      assert (exts + [e])[1..] == exts[1..] + [e];
    }
  }

  /** `makeFunctionWrapper` (lines 834-849), for every function without a
      handler: encoded and recorded only while recording, then forwarded
      with the arguments as given, and the host's answer returned. */
  function Forward(ctx: Context, name: string, args: seq<Value>, host: Value): (r: Reply)
    ensures AtMostOneLine(ctx.cap, r.ctx.cap)
    ensures r.calls == [HostCall(name, args)] && r.outcome == Returned(host)
    ensures !ctx.cap.capture ==> r.ctx == ctx
    ensures ctx.cap.capture ==> r.ctx.cap.data == ctx.cap.data + [Code("gl." + name + "(" + ArgsText(ctx, name, args).0 + ");")]
  {
    if ctx.cap.capture then
      var (text, tables) := ArgsText(ctx, name, args);
      Reply(Record(ctx.(tables := tables), "gl." + name + "(" + text + ");"), [HostCall(name, args)], Returned(host))
    else Reply(ctx, [HostCall(name, args)], Returned(host))
  }

  // ---- Properties ----

  /** A created resource is named `kind[id]` with the kind's next id,
      whether or not the context is recording; the kind's counter advances
      by one and no other counter moves. */
  lemma CreateNames(ctx: Context, name: string, args: seq<Value>, obj: ObjId)
    ensures var kind := Lower(Substring(name, 6));
      var r := Create(ctx, name, args, Handle(obj));
      && ResourceName(r.ctx.infos, Handle(obj)) == Some(kind + "[" + NatToString(NextId(ctx.ids, kind)) + "]")
      && NextId(r.ctx.ids, kind) == NextId(ctx.ids, kind) + 1
      && (forall k :: k != kind ==> NextId(r.ctx.ids, k) == NextId(ctx.ids, k))
  {
    TagNames(ctx, Lower(Substring(name, 6)), obj);
  }

  lemma TagNames(ctx: Context, kind: string, obj: ObjId)
    ensures ResourceName(Tag(ctx, kind, Handle(obj)).0.infos, Handle(obj))
      == Some(kind + "[" + NatToString(NextId(ctx.ids, kind)) + "]")
  {
    var infos := Tag(ctx, kind, Handle(obj)).0.infos;
    assert obj in infos && infos[obj] == Fresh(ResourceTag(kind, NextId(ctx.ids, kind)));
    FreshName(infos, obj, kind, NextId(ctx.ids, kind));
  }

  lemma FreshName(infos: map<ObjId, Info>, obj: ObjId, kind: string, id: nat)
    requires obj in infos && infos[obj] == Fresh(ResourceTag(kind, id))
    ensures ResourceName(infos, Handle(obj)) == Some(kind + "[" + NatToString(id) + "]")
  {
  }

  lemma SameKindNames(kind: string, a: nat, b: nat)
    requires kind + "[" + NatToString(a) + "]" == kind + "[" + NatToString(b) + "]"
    ensures a == b
  {
    var s := kind + "[" + NatToString(a) + "]";
    assert NatToString(a) == s[|kind| + 1..|s| - 1];
    assert NatToString(b) == s[|kind| + 1..|s| - 1];
    NatToStringRoundTrip(a);
    NatToStringRoundTrip(b);
  }

  /** Two resources tagged one after the other with the same kind (by
      `handle_create` or `handle_fenceSync`) get different names. */
  lemma TaggedNamesDiffer(ctx: Context, kind: string, o1: ObjId, o2: ObjId)
    requires o1 != o2
    ensures var (c1, _) := Tag(ctx, kind, Handle(o1));
      var (c2, _) := Tag(c1, kind, Handle(o2));
      && ResourceName(c2.infos, Handle(o1)).Some?
      && ResourceName(c2.infos, Handle(o2)).Some?
      && ResourceName(c2.infos, Handle(o1)) != ResourceName(c2.infos, Handle(o2))
  {
    TagTwice(ctx, kind, o1, o2);
    var c2 := Tag(Tag(ctx, kind, Handle(o1)).0, kind, Handle(o2)).0;
    ConsecutiveNamesDiffer(c2.infos, kind, o1, o2, NextId(ctx.ids, kind));
  }

  /** Tagging two resources of one kind gives them consecutive ids. */
  lemma TagTwice(ctx: Context, kind: string, o1: ObjId, o2: ObjId)
    requires o1 != o2
    ensures var c1 := Tag(ctx, kind, Handle(o1)).0;
      var c2 := Tag(c1, kind, Handle(o2)).0;
      && o1 in c2.infos && o2 in c2.infos
      && c2.infos[o1] == Fresh(ResourceTag(kind, NextId(ctx.ids, kind)))
      && c2.infos[o2] == Fresh(ResourceTag(kind, NextId(ctx.ids, kind) + 1))
  {
  }

  lemma ConsecutiveNamesDiffer(infos: map<ObjId, Info>, kind: string, o1: ObjId, o2: ObjId, a: nat)
    requires o1 in infos && o2 in infos
    requires infos[o1] == Fresh(ResourceTag(kind, a)) && infos[o2] == Fresh(ResourceTag(kind, a + 1))
    ensures ResourceName(infos, Handle(o1)).Some? && ResourceName(infos, Handle(o2)).Some?
    ensures ResourceName(infos, Handle(o1)) != ResourceName(infos, Handle(o2))
  {
    DistinctIdsDistinctNames(kind, a, a + 1);
  }

  lemma DistinctIdsDistinctNames(kind: string, a: nat, b: nat)
    requires a != b
    ensures TagName(ResourceTag(kind, a)) != TagName(ResourceTag(kind, b))
  {
    if TagName(ResourceTag(kind, a)) == TagName(ResourceTag(kind, b)) {
      SameKindNames(kind, a, b);
    }
  }

  /** The shader source lists stay in step: one distinct key per stored
      source, the key being the source's string form. */
  predicate ShadersValid(ctx: Context)
  {
    && |ctx.shaderKeys| == |ctx.shaderSources|
    && NoDup(ctx.shaderKeys)
    && forall i :: 0 <= i < |ctx.shaderKeys| ==> ctx.shaderKeys[i] == Text(ctx.shaderSources[i])
  }

  /** Source dedup: a source text already seen reuses its slot and stores
      nothing; a new one is stored last. The recorded call names the slot
      of the text. */
  lemma ShaderSourceInterns(ctx: Context, name: string, args: seq<Value>)
    requires ShadersValid(ctx)
    ensures var r := ShaderSource(ctx, name, args);
      var source := Rewrite.Arg(args, 1);
      var key := Text(source);
      && ShadersValid(r.ctx)
      && key in r.ctx.shaderKeys
      && (key in ctx.shaderKeys ==> r.ctx.shaderKeys == ctx.shaderKeys && r.ctx.shaderSources == ctx.shaderSources)
      && (key !in ctx.shaderKeys ==> r.ctx.shaderSources == ctx.shaderSources + [source])
      && (r.outcome.Returned? && ctx.cap.capture ==>
            r.ctx.cap.data == ctx.cap.data + [Code("gl." + name + "(" + ResourceName(ctx.infos, Rewrite.Arg(args, 0)).value
              + ", " + Encoder.Slot("shaderSources", IndexOf(r.ctx.shaderKeys, key)) + ");")])
  {
  }

  /** The handler asks for a location by the uniform's name, and a later
      uniform call on that location records a lookup of the same name on
      the current program: the recorded call does not depend on the
      location object. */
  lemma UniformByName(ctx: Context, prog: ObjId, u: string, loc: ObjId, name: string, rest: seq<Value>)
    requires ctx.cap.capture
    requires prog in ctx.infos && loc != prog
    requires "getUniformLocation" !in ctx.infos[prog].uniforms
    requires ctx.currentProgram == Handle(prog)
    ensures var r1 := GetUniformLocation(ctx, "getUniformLocation", [Handle(prog), Str(u)], Handle(loc));
      var r2 := Uniform(r1.ctx, name, [Handle(loc)] + rest);
      && r1.outcome == Returned(Handle(loc))
      && r2.outcome == Returned(Undefined)
      && r2.calls == [HostCall(name, [Handle(loc)] + rest)]
      && |r2.ctx.cap.data| == |ctx.cap.data| + 1
      && r2.ctx.cap.data[..|ctx.cap.data|] == ctx.cap.data
      && r2.ctx.cap.data[|ctx.cap.data|].Code?
      && StartsWith(r2.ctx.cap.data[|ctx.cap.data|].text,
           "gl." + name + "(" + LookupByName(TagName(ctx.infos[prog].tag), u) + ",")
  {
    var r1 := GetUniformLocation(ctx, "getUniformLocation", [Handle(prog), Str(u)], Handle(loc));
    assert r1.ctx.infos[loc] == Fresh(LocationTag(u));
    assert r1.ctx.infos[prog].tag == ctx.infos[prog].tag;
    assert r1.ctx.currentProgram == Handle(prog) && r1.ctx.cap == ctx.cap;
    assert UniformTarget(r1.ctx, Handle(loc)) == Some(LookupByName(TagName(ctx.infos[prog].tag), u));
    assert Rewrite.Arg([Handle(loc)] + rest, 0) == Handle(loc);
  }

  /** `useProgram` (called here under the name `use`) then a uniform
      call: the program is recorded by its name, and the uniform call that
      follows records a lookup, by the location's uniform name, on that
      same program. */
  lemma UniformAfterUseProgram(ctx: Context, use: string, prog: ObjId, loc: ObjId, u: string, name: string, rest: seq<Value>)
    requires ctx.cap.capture
    requires prog in ctx.infos && loc in ctx.infos && ctx.infos[loc].tag == LocationTag(u)
    ensures var r1 := UseProgram(ctx, use, [Handle(prog)]);
      var r2 := Uniform(r1.ctx, name, [Handle(loc)] + rest);
      && r1.outcome == Returned(Undefined)
      && r1.ctx.cap.data == ctx.cap.data + [Code("gl." + use + "(" + TagName(ctx.infos[prog].tag) + ");")]
      && r2.outcome == Returned(Undefined)
      && |r2.ctx.cap.data| == |r1.ctx.cap.data| + 1
      && r2.ctx.cap.data[..|r1.ctx.cap.data|] == r1.ctx.cap.data
      && r2.ctx.cap.data[|r1.ctx.cap.data|].Code?
      && StartsWith(r2.ctx.cap.data[|r1.ctx.cap.data|].text,
           "gl." + name + "(" + LookupByName(TagName(ctx.infos[prog].tag), u) + ",")
  {
    var r1 := UseProgram(ctx, use, [Handle(prog)]);
    assert Rewrite.Arg([Handle(prog)], 0) == Handle(prog);
    UniformOnCurrent(r1.ctx, loc, u, name, rest, TagName(ctx.infos[prog].tag));
  }

  /** A uniform call on a location tagged with the uniform name `u`, while
      the current program is named `p`, records a lookup of `u` on `p`. */
  lemma UniformOnCurrent(ctx: Context, loc: ObjId, u: string, name: string, rest: seq<Value>, p: string)
    requires ctx.cap.capture
    requires loc in ctx.infos && ctx.infos[loc].tag == LocationTag(u)
    requires ResourceName(ctx.infos, ctx.currentProgram) == Some(p)
    ensures var r := Uniform(ctx, name, [Handle(loc)] + rest);
      && r.outcome == Returned(Undefined)
      && |r.ctx.cap.data| == |ctx.cap.data| + 1
      && r.ctx.cap.data[..|ctx.cap.data|] == ctx.cap.data
      && r.ctx.cap.data[|ctx.cap.data|].Code?
      && StartsWith(r.ctx.cap.data[|ctx.cap.data|].text, "gl." + name + "(" + LookupByName(p, u) + ",")
  {
    assert Rewrite.Arg([Handle(loc)] + rest, 0) == Handle(loc);
    assert UniformTarget(ctx, Handle(loc)) == Some(LookupByName(p, u));
  }

  /** An extension the host returns is asked for once: a later request
      under any name with the same lower case gets the same object back
      without calling the host and without changing anything. */
  lemma ExtensionCached(ctx: Context, name: string, s: string, t: string, host: Value, host2: Value,
                        constants: seq<Enums.Constant>, constants2: seq<Enums.Constant>)
    requires Lower(s) == Lower(t)
    requires FindExtension(ctx.extensions, Lower(s)).None? && Truthy(host)
    ensures var r1 := GetExtension(ctx, name, [Str(s)], host, constants);
      var r2 := GetExtension(r1.ctx, name, [Str(t)], host2, constants2);
      && r1.calls == [HostCall(name, [Str(s)])] && r1.outcome == Returned(host)
      && r2 == Reply(r1.ctx, [], Returned(host))
  {
    assert Rewrite.Arg([Str(s)], 0) == Str(s);
    assert Rewrite.Arg([Str(t)], 0) == Str(t);
  }

  /** The location cache is keyed by the handler's name: after looking up
      any uniform other than one called `getUniformLocation`, the next
      lookup asks the host again. */
  lemma UniformLookupAsksAgain(ctx: Context, prog: ObjId, u: string, host1: Value, host2: Value)
    requires prog in ctx.infos && u != "getUniformLocation"
    requires "getUniformLocation" !in ctx.infos[prog].uniforms
    ensures var args := [Handle(prog), Str(u)];
      var r1 := GetUniformLocation(ctx, "getUniformLocation", args, host1);
      var r2 := GetUniformLocation(r1.ctx, "getUniformLocation", args, host2);
      r1.calls == r2.calls == [HostCall("getUniformLocation", args)]
  {
  }

  /** The same holds for attribute locations. */
  lemma AttribLookupAsksAgain(ctx: Context, prog: ObjId, a: string, host1: Value, host2: Value)
    requires prog in ctx.infos && a != "getAttribLocation"
    requires FindBinding(ctx.infos[prog].attribs, "getAttribLocation").None?
    ensures var args := [Handle(prog), Str(a)];
      var r1 := GetAttribLocation(ctx, "getAttribLocation", args, host1);
      var r2 := GetAttribLocation(r1.ctx, "getAttribLocation", args, host2);
      r1.calls == r2.calls == [HostCall("getAttribLocation", args)]
  {
    var args := [Handle(prog), Str(a)];
    assert Rewrite.Arg(args, 0) == Handle(prog) && Rewrite.Arg(args, 1) == Str(a);
    var r1 := GetAttribLocation(ctx, "getAttribLocation", args, host1);
    assert r1.calls == [HostCall("getAttribLocation", args)];
    assert prog in r1.ctx.infos && r1.ctx.infos[prog].tag == ctx.infos[prog].tag;
    assert FindBinding(r1.ctx.infos[prog].attribs, "getAttribLocation").None?;
  }

  /** A non-negative attribute location is kept under the attribute's
      name, and the binding dump of the program then lists it. */
  lemma AttribLocationStored(ctx: Context, prog: ObjId, a: string, location: nat)
    requires prog in ctx.infos
    requires FindBinding(ctx.infos[prog].attribs, "getAttribLocation").None?
    ensures var r := GetAttribLocation(ctx, "getAttribLocation", [Handle(prog), Str(a)], Num(location));
      && r.outcome == Returned(Num(location))
      && FindBinding(r.ctx.infos[prog].attribs, a) == Some(Num(location))
      && var bs := r.ctx.infos[prog].attribs;
         exists i :: 0 <= i < |bs| && bs[i] == Binding(a, Num(location))
  {
    var r := GetAttribLocation(ctx, "getAttribLocation", [Handle(prog), Str(a)], Num(location));
    var bs := r.ctx.infos[prog].attribs;
    FindBindingAt(bs, a);
  }

  lemma {:induction false} FindBindingAt(bs: seq<Binding>, name: string)
    requires FindBinding(bs, name).Some?
    ensures exists i :: 0 <= i < |bs| && bs[i] == Binding(name, FindBinding(bs, name).value)
  {
    if bs[0].name != name {
      FindBindingAt(bs[1..], name);
      var i :| 0 <= i < |bs[1..]| && bs[1..][i] == Binding(name, FindBinding(bs[1..], name).value);
      assert bs[i + 1] == bs[1..][i];
    } else {
      assert bs[0] == Binding(name, FindBinding(bs, name).value);
    }
  }

  /** While recording, linking a tagged program queues the binding dump
      directly before the link call itself. */
  lemma BindingsBeforeLink(ctx: Context, name: string, prog: ObjId)
    requires ctx.cap.capture && prog in ctx.infos
    ensures var r := LinkProgram(ctx, name, [Handle(prog)]);
      r.ctx.cap.data == ctx.cap.data + [LinkBindings(Handle(prog)), Code("gl." + name + "(" + TagName(ctx.infos[prog].tag) + ");")]
  {
  }
}

=== FILE: values.dfy ===
/** The JavaScript values that cross the recording wrapper: call arguments,
    host results, and the capture tags the recorder attaches to host objects. */
module Values {
  import opened Base

  /** Identity of a host object (a WebGL resource, a uniform location, an
      image element). Tags and expandos are keyed by it. */
  type ObjId = nat

  /** The nine typed-array constructors the encoder recognises, in the order
      it tests them. */
  datatype TypedKind = Int8 | Uint8 | Uint8Clamped | Int16 | Uint16 | Int32 | Uint32 | Float32 | Float64
  {
    function Name(): string
    {
      match this
      case Int8 => "Int8Array"
      case Uint8 => "Uint8Array"
      case Uint8Clamped => "Uint8ClampedArray"
      case Int16 => "Int16Array"
      case Uint16 => "Uint16Array"
      case Int32 => "Int32Array"
      case Uint32 => "Uint32Array"
      case Float32 => "Float32Array"
      case Float64 => "Float64Array"
    }

    function BytesPerElement(): (b: nat)
      ensures b in {1, 2, 4, 8}
    {
      match this
      case Int8 => 1
      case Uint8 => 1
      case Uint8Clamped => 1
      case Int16 => 2
      case Uint16 => 2
      case Int32 => 4
      case Uint32 => 4
      case Float32 => 4
      case Float64 => 8
    }
  }

  /** An element of a plain JavaScript array argument. */
  datatype Scalar = SNum(n: int) | SStr(s: string) | SBool(b: bool)

  /** A call argument or host result. Numbers are integers; images carry the
      data URL the host would produce for them (`toDataURL()`), which the
      recorder cannot compute itself. */
  datatype Value =
    | Undefined
    | Null
    | Bool(b: bool)
    | Num(n: int)
    | Str(s: string)
      /** A typed-array view of exactly `bytes`. */
    | Typed(kind: TypedKind, bytes: seq<byte>)
    | Buffer(bytes: seq<byte>)
    | List(items: seq<Scalar>)
    | Canvas(width: nat, height: nat, dataUrl: string)
      /** An `ImageData`. */
    | Pixels(width: nat, height: nat, dataUrl: string)
      /** An `HTMLImageElement`, `Image` or `HTMLVideoElement` with its `src`. */
    | ImageElement(obj: ObjId, width: nat, height: nat, src: string, dataUrl: string)
      /** An `ImageBitmap` or `OffscreenCanvas`. */
    | Bitmap(width: nat, height: nat, dataUrl: string)
      /** Any other host object: WebGL resources, uniform locations, syncs. */
    | Handle(obj: ObjId)
      /** A plain object literal, with its own enumerable fields in order. */
    | Record(fields: seq<Field>)

  datatype Field = Field(key: string, val: Value)

  /** Number of elements of a typed array. */
  function ElementCount(v: Value): nat
    requires v.Typed?
  {
    |v.bytes| / v.kind.BytesPerElement()
  }

  /** JavaScript truthiness. */
  predicate Truthy(v: Value)
  {
    match v
    case Undefined => false
    case Null => false
    case Bool(b) => b
    case Num(n) => n != 0
    case Str(s) => |s| > 0
    case _ => true
  }

  /** The `__capture_info__` expando: resources carry a kind and a per-kind
      counter; uniform locations carry the uniform's name (and no kind or id). */
  datatype Tag = ResourceTag(kind: string, id: nat) | LocationTag(name: string)

  /** One recorded `(attribute name, location)` pair of a program. */
  datatype Binding = Binding(name: string, location: Value)

  /** Everything the recorder has attached to one host object: its tag, and
      for programs the looked-up uniform locations and attribute locations
      (in insertion order). */
  datatype Info = Info(tag: Tag, uniforms: map<string, ObjId>, attribs: seq<Binding>)

  function Fresh(tag: Tag): Info
  {
    Info(tag, map[], [])
  }

  /** What `${info.type}[${info.id}]` shows for a tag. A location tag has
      neither field, so both read `undefined`. */
  function TagName(t: Tag): (r: string)
    ensures '[' in r && r[|r| - 1] == ']'
  {
    match t
    case ResourceTag(kind, id) => kind + "[" + NatToString(id) + "]"
    case LocationTag(_) => "undefined[undefined]"
  }

  /** `getResourceName`: falsy values print as `null`; a truthy value without
      a tag makes the source read a field of `undefined`, a `TypeError`,
      modelled as `None`. */
  function ResourceName(infos: map<ObjId, Info>, v: Value): (r: Option<string>)
    ensures !Truthy(v) ==> r == Some("null")
    ensures r.None? <==> Truthy(v) && !(v.Handle? && v.obj in infos)
    ensures Truthy(v) && r.Some? ==> r.value == TagName(infos[v.obj].tag)
  {
    if !Truthy(v) then Some("null")
    else if v.Handle? && v.obj in infos then Some(TagName(infos[v.obj].tag))
    else None
  }

  predicate NoBracket(s: string)
  {
    '[' !in s
  }

  /** A tagged resource never prints as `null`. */
  lemma TagNameIsNotNull(t: Tag)
    ensures TagName(t) != "null"
  {
    assert '[' in TagName(t);
  }

  /** The first `[` of a name follows its bracket-free kind. */
  lemma FirstBracket(kind: string, rest: string)
    requires NoBracket(kind)
    ensures IndexOf(kind + "[" + rest, '[') == |kind|
  {
    var s := kind + "[" + rest;
    assert s[|kind|] == '[';
    assert forall j :: 0 <= j < |kind| ==> s[j] == kind[j];
  }

  /** Resource names are unambiguous: two resource tags whose kinds hold no
      `[` print the same only when they are the same tag. */
  lemma TagNameInjective(a: Tag, b: Tag)
    requires a.ResourceTag? && b.ResourceTag? && NoBracket(a.kind) && NoBracket(b.kind)
    requires TagName(a) == TagName(b)
    ensures a == b
  {
    var s := TagName(a);
    var da, db := NatToString(a.id), NatToString(b.id);
    FirstBracket(a.kind, da + "]");
    FirstBracket(b.kind, db + "]");
    assert s == a.kind + "[" + (da + "]") == b.kind + "[" + (db + "]");
    assert a.kind == s[..|a.kind|] == b.kind;
    assert da == s[|a.kind| + 1..|s| - 1] == db;
    NatToStringRoundTrip(a.id);
    NatToStringRoundTrip(b.id);
  }

  function ScalarText(x: Scalar): string
  {
    match x
    case SNum(n) => IntToString(n)
    case SStr(s) => s
    case SBool(b) => if b then "true" else "false"
  }

  /** `String(v)`, as a template literal shows a value. Objects other than
      plain arrays show as `[object Object]`. */
  function Text(v: Value): string
  {
    match v
    case Undefined => "undefined"
    case Null => "null"
    case Bool(b) => if b then "true" else "false"
    case Num(n) => IntToString(n)
    case Str(s) => s
    case List(items) => Join(seq(|items|, i requires 0 <= i < |items| => ScalarText(items[i])), ",")
    case _ => "[object Object]"
  }

  /** A JavaScript number as the slicing code sees it. */
  datatype Numeric = Finite(n: int) | NotANumber

  /** `ToNumber` on the values that occur as offsets and lengths; strings and
      objects read as `NaN`. */
  function ToNumeric(v: Value): Numeric
  {
    match v
    case Num(n) => Finite(n)
    case Bool(b) => Finite(if b then 1 else 0)
    case Null => Finite(0)
    case _ => NotANumber
  }

  /** `a + b` on numbers. */
  function Add(a: Numeric, b: Numeric): Numeric
  {
    if a.Finite? && b.Finite? then Finite(a.n + b.n) else NotANumber
  }

  /** `a / b` followed by `ToIntegerOrInfinity`: the quotient truncated
      toward zero, `NaN` read as 0. */
  function TruncDiv(a: Numeric, b: nat): (q: int)
    requires b > 0
    ensures a.Finite? ==> Abs(q) * b <= Abs(a.n) < (Abs(q) + 1) * b
    ensures a.Finite? && a.n >= 0 ==> q >= 0
    ensures a.Finite? && a.n <= 0 ==> q <= 0
    ensures a.NotANumber? ==> q == 0
  {
    if a.NotANumber? then 0
    else
      var m := Abs(a.n) / b;
      DivBounds(Abs(a.n), b);
      if a.n >= 0 then m else -m
  }

  /** On a natural number, truncation is Dafny's division. */
  lemma TruncDivOfNat(x: nat, b: nat)
    requires b > 0
    ensures TruncDiv(Finite(x), b) == x / b
  {
  }

  function Abs(x: int): nat
  {
    if x < 0 then -x else x
  }

  /** The quotient of a natural number brackets it between two multiples. */
  lemma DivBounds(x: nat, b: nat)
    requires b > 0
    ensures (x / b) * b <= x < (x / b + 1) * b
  {
    assert x == (x / b) * b + x % b;
  }

  /** A relative index as `slice` resolves it: negative counts from the end,
      and the result is clamped to `[0, len]`. */
  function RelativeIndex(rel: int, len: nat): (k: nat)
    ensures k <= len
    ensures 0 <= rel <= len ==> k == rel
    ensures rel < 0 && -rel <= len ==> k == len + rel
  {
    if rel < 0 then (if len + rel < 0 then 0 else len + rel)
    else if rel > len then len
    else rel
  }

  /** The half-open index range `slice(start, end)` keeps; an omitted `end`
      means the length. */
  function SliceRange(len: nat, start: int, end: Option<int>): (r: (nat, nat))
    ensures r.0 <= r.1 <= len
    ensures 0 <= start <= len && end.None? ==> r == (start, len)
    ensures end.Some? && 0 <= start <= end.value <= len ==> r == (start, end.value)
  {
    var from := RelativeIndex(start, len);
    var to := if end.Some? then RelativeIndex(end.value, len) else len;
    (from, if to < from then from else to)
  }

  /** `s.slice(start, end)`: an in-range window is kept as given, a
      negative start counts from the end, and a window whose resolved end
      does not pass its resolved start is empty. Whatever the bounds, the
      result is the run of `s` that begins at the resolved start. */
  function Slice<T>(s: seq<T>, start: int, end: Option<int>): (r: seq<T>)
    ensures var lo := RelativeIndex(start, |s|); lo + |r| <= |s| && r == s[lo..lo + |r|]
    ensures end.Some? && 0 <= start <= end.value <= |s| ==> r == s[start..end.value]
    ensures end.None? && 0 <= start <= |s| ==> r == s[start..]
    ensures end.None? && start < 0 && -start <= |s| ==> r == s[|s| + start..]
    ensures end.Some? && RelativeIndex(end.value, |s|) <= RelativeIndex(start, |s|) ==> r == []
  {
    var (a, b) := SliceRange(|s|, start, end);
    s[a..b]
  }
}

=== FILE: wrapper.dfy ===
/** The wrapper `makeWrapper` builds around a context (webgl-capture.js lines
    851-877 and 1255-1326): every function of the context gets either the
    handler registered under `handle_<name>` or the plain recording
    forwarder. */
module Wrapper {
  import opened Base
  import opened Values
  import opened Session
  import opened Tracker
  import Enums
  import Rewrite

  /** The handler a function of the context is routed to. */
  datatype Handler =
    | Default
    | Skip
    | Get
    | CreateHandler
    | UniformHandler
    | GetExtensionHandler
    | ShaderSourceHandler
    | UseProgramHandler
    | GetUniformLocationHandler
    | GetAttribLocationHandler
    | BindAttribLocationHandler
    | LinkProgramHandler
    | FenceSyncHandler

  /** `helper.constructor.prototype["handle_" + name]`: the class's own
      handler methods (the four shared ones among them, under their own
      names), and the names the handler lists copy them to. Reading
      pixels is skipped; queries are commented out; the WebGL 1 uniform
      setters are resolved against their program, while the WebGL 2 ones
      (`uniform1ui`, `uniformMatrix2x3fv`, ...) are not listed and take the
      default path. Anything else has no handler. */
  function HandlerOf(name: string): Handler
  {
    match name
    case "skip" => Skip
    case "readPixels" => Skip
    case "get" => Get
    case "getActiveAttrib" => Get
    case "getActiveUniform" => Get
    case "getAttachedShaders" => Get
    case "getBufferParameter" => Get
    case "getCheckFramebufferStatus" => Get
    case "getFramebufferAttachmentParameter" => Get
    case "getError" => Get
    case "getParameter" => Get
    case "getProgramLogInfo" => Get
    case "getProgramParameter" => Get
    case "getShaderLogInfo" => Get
    case "getShaderParameter" => Get
    case "getShaderPrecisionFormat" => Get
    case "getShaderSource" => Get
    case "getSupportedExtensions" => Get
    case "getUniform" => Get
    case "getTextureParameter" => Get
    case "getVertexAttrib" => Get
    case "isBuffer" => Get
    case "isEnabled" => Get
    case "isFramebuffer" => Get
    case "isProgram" => Get
    case "isRenderbuffer" => Get
    case "isShader" => Get
    case "isTexture" => Get
    case "create" => CreateHandler
    case "createBuffer" => CreateHandler
    case "createFramebuffer" => CreateHandler
    case "createProgram" => CreateHandler
    case "createQuery" => CreateHandler
    case "createRenderbuffer" => CreateHandler
    case "createSampler" => CreateHandler
    case "createShader" => CreateHandler
    case "createTexture" => CreateHandler
    case "createTransformFeedback" => CreateHandler
    case "createVertexArray" => CreateHandler
    case "uniform" => UniformHandler
    case "uniform1f" => UniformHandler
    case "uniform2f" => UniformHandler
    case "uniform3f" => UniformHandler
    case "uniform4f" => UniformHandler
    case "uniform1i" => UniformHandler
    case "uniform2i" => UniformHandler
    case "uniform3i" => UniformHandler
    case "uniform4i" => UniformHandler
    case "uniform1fv" => UniformHandler
    case "uniform2fv" => UniformHandler
    case "uniform3fv" => UniformHandler
    case "uniform4fv" => UniformHandler
    case "uniform1iv" => UniformHandler
    case "uniform2iv" => UniformHandler
    case "uniform3iv" => UniformHandler
    case "uniform4iv" => UniformHandler
    case "uniformMatrix2fv" => UniformHandler
    case "uniformMatrix3fv" => UniformHandler
    case "uniformMatrix4fv" => UniformHandler
    case "getExtension" => GetExtensionHandler
    case "shaderSource" => ShaderSourceHandler
    case "useProgram" => UseProgramHandler
    case "getUniformLocation" => GetUniformLocationHandler
    case "getAttribLocation" => GetAttribLocationHandler
    case "bindAttribLocation" => BindAttribLocationHandler
    case "linkProgram" => LinkProgramHandler
    case "fenceSync" => FenceSyncHandler
    case _ => Default
  }

  /** One call of `wrapper[name](...args)`. `host` is what the context's own
      function returns when it is called; `constants` are the numeric
      properties of the object `getExtension` would wrap. */
  function Call(ctx: Context, name: string, args: seq<Value>, host: Value, constants: seq<Enums.Constant>): Reply
  {
    Dispatch(HandlerOf(name), ctx, name, args, host, constants)
  }

  /** The call as the handler `h` performs it. */
  function Dispatch(h: Handler, ctx: Context, name: string, args: seq<Value>, host: Value, constants: seq<Enums.Constant>): Reply
  {
    match h
    case Default => Forward(ctx, name, args, host)
    case Skip => Commented(ctx, name, args, host)
    case Get => Commented(ctx, name, args, host)
    case CreateHandler => Create(ctx, name, args, host)
    case UniformHandler => Uniform(ctx, name, args)
    case GetExtensionHandler => GetExtension(ctx, name, args, host, constants)
    case ShaderSourceHandler => ShaderSource(ctx, name, args)
    case UseProgramHandler => UseProgram(ctx, name, args)
    case GetUniformLocationHandler => GetUniformLocation(ctx, name, args, host)
    case GetAttribLocationHandler => GetAttribLocation(ctx, name, args, host)
    case BindAttribLocationHandler => BindAttribLocation(ctx, name, args)
    case LinkProgramHandler => LinkProgram(ctx, name, args)
    case FenceSyncHandler => FenceSync(ctx, name, args, host)
  }

  /** Every handler that calls the context's function passes the call's
      own arguments, unchanged by the rewriting the recorder applies to its
      copy; the location queries are the exception, calling the context
      with the program and the name only. At most one host call is made. */
  lemma ForwardsArguments(h: Handler, ctx: Context, name: string, args: seq<Value>, host: Value, constants: seq<Enums.Constant>)
    ensures var r := Dispatch(h, ctx, name, args, host, constants);
      && |r.calls| <= 1
      && (h != GetUniformLocationHandler && h != GetAttribLocationHandler ==>
            r.calls == [] || r.calls == [HostCall(name, args)])
  {
    var r := Dispatch(h, ctx, name, args, host, constants);
    match h
    case Default => assert r == Forward(ctx, name, args, host);
    case Skip => assert r == Commented(ctx, name, args, host);
    case Get => assert r == Commented(ctx, name, args, host);
    case CreateHandler => assert r == Create(ctx, name, args, host);
    case UniformHandler => assert r == Uniform(ctx, name, args);
    case GetExtensionHandler => assert r == GetExtension(ctx, name, args, host, constants);
    case ShaderSourceHandler => assert r == ShaderSource(ctx, name, args);
    case UseProgramHandler => assert r == UseProgram(ctx, name, args);
    case GetUniformLocationHandler => assert r == GetUniformLocation(ctx, name, args, host);
    case GetAttribLocationHandler => assert r == GetAttribLocation(ctx, name, args, host);
    case BindAttribLocationHandler => assert r == BindAttribLocation(ctx, name, args);
    case LinkProgramHandler => assert r == LinkProgram(ctx, name, args);
    case FenceSyncHandler => assert r == FenceSync(ctx, name, args, host);
  }

  /** The forwarders, the commented-out queries and the skipped read hand
      the context's answer back untouched; so do the creators whenever the
      context returns an object. */
  lemma ReturnsHostAnswer(h: Handler, ctx: Context, name: string, args: seq<Value>, host: Value, constants: seq<Enums.Constant>)
    ensures var r := Dispatch(h, ctx, name, args, host, constants);
      && (h in {Default, Skip, Get} ==> r.calls == [HostCall(name, args)] && r.outcome == Returned(host))
      && (h in {CreateHandler, FenceSyncHandler} && host.Handle? ==>
            r.calls == [HostCall(name, args)] && r.outcome == Returned(host))
  {
    var r := Dispatch(h, ctx, name, args, host, constants);
    match h
    case Default => assert r == Forward(ctx, name, args, host);
    case Skip => assert r == Commented(ctx, name, args, host);
    case Get => assert r == Commented(ctx, name, args, host);
    case CreateHandler => assert r == Create(ctx, name, args, host);
    case FenceSyncHandler => assert r == FenceSync(ctx, name, args, host);
    case _ =>
  }

  /** While a context is not recording, no call adds a line to it: the
      only change any handler makes to the session is the binding dump
      `linkProgram` queues unconditionally. While recording, every handler
      but that one adds at most one line. */
  lemma SessionGating(h: Handler, ctx: Context, name: string, args: seq<Value>, host: Value, constants: seq<Enums.Constant>)
    ensures var r := Dispatch(h, ctx, name, args, host, constants);
      && r.ctx.cap.capture == ctx.cap.capture
      && (h != LinkProgramHandler ==> AtMostOneLine(ctx.cap, r.ctx.cap))
      && (!ctx.cap.capture && h != LinkProgramHandler ==> r.ctx.cap == ctx.cap)
      && (!ctx.cap.capture && h == LinkProgramHandler ==>
            r.ctx.cap == AddFn(ctx.cap, LinkBindings(Rewrite.Arg(args, 0))))
  {
    if h == LinkProgramHandler {
      assert Dispatch(h, ctx, name, args, host, constants) == LinkProgram(ctx, name, args);
    } else {
      OneLineAtMost(h, ctx, name, args, host, constants);
    }
  }

  /** Every handler but `linkProgram` adds at most one line, and only while
      recording. */
  lemma OneLineAtMost(h: Handler, ctx: Context, name: string, args: seq<Value>, host: Value, constants: seq<Enums.Constant>)
    requires h != LinkProgramHandler
    ensures AtMostOneLine(ctx.cap, Dispatch(h, ctx, name, args, host, constants).ctx.cap)
  {
    var r := Dispatch(h, ctx, name, args, host, constants);
    match h
    case Default => assert r == Forward(ctx, name, args, host);
    case Skip => assert r == Commented(ctx, name, args, host);
    case Get => assert r == Commented(ctx, name, args, host);
    case CreateHandler => assert r == Create(ctx, name, args, host);
    case UniformHandler => assert r == Uniform(ctx, name, args);
    case GetExtensionHandler => assert r == GetExtension(ctx, name, args, host, constants);
    case ShaderSourceHandler => assert r == ShaderSource(ctx, name, args);
    case UseProgramHandler => assert r == UseProgram(ctx, name, args);
    case GetUniformLocationHandler => assert r == GetUniformLocation(ctx, name, args, host);
    case GetAttribLocationHandler => assert r == GetAttribLocation(ctx, name, args, host);
    case BindAttribLocationHandler => assert r == BindAttribLocation(ctx, name, args);
    case FenceSyncHandler => assert r == FenceSync(ctx, name, args, host);
  }

  /** A function with no handler is recorded, while recording, as
      `gl.name(args);` with the arguments as the encoder renders them. */
  lemma DefaultRecordsCall(ctx: Context, name: string, args: seq<Value>, host: Value, constants: seq<Enums.Constant>)
    requires ctx.cap.capture
    ensures var r := Dispatch(Default, ctx, name, args, host, constants);
      r.ctx.cap.data == ctx.cap.data + [Code("gl." + name + "(" + ArgsText(ctx, name, args).0 + ");")]
  {
  }

  /** The routing of a few names: reading pixels is skipped, queries are
      commented out, a WebGL 2 uniform setter and a draw call take the
      default path. */
  lemma Routing()
    ensures HandlerOf("readPixels") == Skip
    ensures HandlerOf("getError") == Get
    ensures HandlerOf("createTexture") == CreateHandler
    ensures HandlerOf("uniformMatrix4fv") == UniformHandler
    ensures HandlerOf("uniform1ui") == Default
    ensures HandlerOf("drawArrays") == Default
  {
  }
}
